=== FILE: README.md ===
# Course assembly for a LaTeX course: a Dafny model

This project models the course-assembly layer of a LaTeX-based genome annotation
course. The layer has six parts:

- **Module validator.** It decides whether a module folder is buildable. It picks
  the primary `.tex` file, sorts findings into errors and warnings, aggregates a
  course report, catalogues files and mines README text.
- **File manager.** It writes a LaTeX document string, extracts a document body,
  and concatenates module bodies into one course document. It also selects the
  files for cleanup and for resource copying.
- **Compile driver.** It runs `pdflatex` once or in several passes, and derives
  the byproduct files to clean.
- **PDF merger.** It resolves a backend, filters merge inputs, names bookmarks,
  filters bookmarks by page and partitions files into valid and invalid.
- **Metadata refresh tool.** It mines BibTeX keys and updates a module's
  `metadata.yaml` fields.
- **Course builder.** It merges its configuration shallowly and decides how the
  single, custom, complete and validate-all commands proceed.

Everything outside the program is an input:

- The file system is a listing, `Fs.FileSystem`: a sequence of entries in the
  operating system's listing order. Each entry is a directory or a file, and a
  file is readable text or unreadable with a reason. The current directory
  exists when the listing has an entry for ".".
- The compiler process is an oracle, `LatexCompiler.Attempt`. A multi-pass build
  gets a function from pass number to attempt.
- Whether writing a file fails is an oracle input to the writer.
- The PDF libraries are oracles as well: which libraries are installed, which
  appends fail, what a reader finds, and whether a write fails.
- YAML documents are `Values.Value`. A mapping keeps its keys in insertion order.

Error paths that the source raises as exceptions are modelled as `Failure` results:

- a `with_suffix` on an empty name;
- a BibTeX entry line without `{`, or a `references.bib` that exists but cannot
  be opened or decoded;
- a configuration section of the wrong type, a missing configuration entry, or
  a path entry that is not a string, each raised when a command reaches that lookup;
- listing a course path that exists but is not a directory;
- a `tags` field that is not a list.

Two behaviours of the code that are easy to misread:

- The envelope error fires when `\documentclass` is present and either document
  marker is missing; one missing marker is enough.
- `combine_modules` takes the first `main.tex` or `module.tex` in listing order and
  otherwise the first `.tex`. It does not use the validator's candidate order.

The modules follow the source files:

- `ModuleValidator` and `Readme` model module_validator.py.
- `FileManager` models file_manager.py.
- `LatexCompiler` models latex_compiler.py.
- `PdfMerger` models pdf_merger.py.
- `RefreshMetadata` models refresh_metadata.py.
- `CourseBuilder` models build_course.py.
- The shared modules model the Python library behaviour the code relies on:
  - `Text` models `str.strip`, `find`, `lower`, `title` and `split('\n')`;
  - `Paths` models `pathlib` names, suffixes, `with_suffix` and `/`;
  - `Fs` models existence, reading and globbing over a listing;
  - `Values` models YAML mappings and `dict.update`.

## Model

| member | source | states |
|---|---|---|
| ModuleValidator.CheckLatexContent | scripts/utils/module_validator.py:124-165 | A read failure yields exactly one error, naming the reason. Otherwise there is a structure error exactly when `\documentclass` occurs and one of the two document markers is missing. The graphics warning appears exactly when `\includegraphics` occurs without an `images` entry. The reference warning appears exactly when `\ref{`/`\cite{` occurs with neither `\label{` nor `\bibitem{`. There are never more than two warnings. |
| ModuleValidator.DirectoryFindingsSpec | scripts/utils/module_validator.py:67-121 | For an existing directory, there are no errors exactly when some candidate primary file exists, reads, and has its envelope. The README warning comes first exactly when none of the four README names exists, and after it come the content warnings of the primary file, whose content errors are the errors. |
| ModuleValidator.ValidateModule | scripts/utils/module_validator.py:26-122 | `valid` holds exactly when `errors` is empty. That is exactly when the path is a directory whose first existing `main.tex`/`module.tex`/`<name>.tex` reads and has its envelope. A missing path or a non-directory gives one error, no warnings and an empty `info`. For a directory, the warnings are the README warning when no README exists, followed by the primary file's own content warnings, and the content errors are forwarded. The `info` is the directory summary. |
| ModuleValidator.Summary | scripts/utils/module_validator.py:66-112 | The summary names the module and its path. `has_main_tex`, `has_readme`, `has_images` and `has_data` reflect the searches. The `.tex` list is exactly the immediate entries ending in `.tex`. The image list is exactly what some image extension's glob finds in `images`, and the data list is exactly the regular files in `data`; each is empty when its directory is absent. |
| ModuleValidator.FilesIn | scripts/utils/module_validator.py:108-112 | The data files are exactly the regular files directly inside the directory. |
| ModuleValidator.ModuleNamesDistinct | scripts/utils/module_validator.py:198 | Distinct module folders of one course have distinct names, so the per-module map loses no result. |
| ModuleValidator.NoneInvalid | scripts/utils/module_validator.py:211-215 | The invalid count is zero exactly when every module validates. |
| ModuleValidator.CourseReport | scripts/utils/module_validator.py:167-217 | A missing course directory, or one without non-hidden subdirectories, gives its one error, an empty map and zero modules. Otherwise the total is the number of module folders and equals valid plus invalid. The valid count is the number of modules that validate, and the map holds each folder's own result under its name. The course is valid exactly when it exists, has modules, and all of them validate. |
| ModuleValidator.ValidateCourseStructure | scripts/utils/module_validator.py:192-198 | An existing course path that is not a directory raises, as `iterdir` does, and any other path gives the course report. |
| ModuleValidator.CatalogueOf | scripts/utils/module_validator.py:272-285 | The four buckets are the files whose bucket is `.tex`, then image extension, then parent folder `data`, then other, each made relative to the module and kept in order. Together their sizes add up to the number of files, so each file lands in exactly one bucket. |
| ModuleValidator.GetModuleInfo | scripts/utils/module_validator.py:219-287 | A missing module gives empty information. Otherwise the catalogue covers every file below the module. If the first README present reads, the description and the three bullet sections come from its text; otherwise they are empty. |
| ModuleValidator.InsertByName | scripts/utils/module_validator.py:378 | Inserting into a list sorted by folder name keeps it sorted and adds exactly that element. |
| ModuleValidator.SortByName | scripts/utils/module_validator.py:378 | The result is sorted by folder name and is a permutation of the input. |
| ModuleValidator.InfoOfEach | scripts/utils/module_validator.py:380-382 | There is one information record per folder, in order, and the records of a sorted folder list are sorted by name. |
| ModuleValidator.ModuleInfos | scripts/utils/module_validator.py:360-384 | A missing directory gives the empty list. Otherwise there is one record per non-hidden subdirectory, a permutation of the listing, in name order. |
| ModuleValidator.ListModules | scripts/utils/module_validator.py:370-377 | An existing course path that is not a directory raises, as `iterdir` does, and any other path gives the module listing. |
| Readme.KindsOf | scripts/utils/module_validator.py:302-310 | Each line is classified in the order the scan tests it: keyword first, then bullet, then closing line. |
| Readme.ActiveScan | scripts/utils/module_validator.py:306-310 | Once inside a section, the scan yields the bullets before the first heading or unindented text line. |
| Readme.InactiveScan | scripts/utils/module_validator.py:302-312 | The line scan equals the declarative account: the bullets strictly after the first keyword line and before the next closing line, or nothing without a keyword. |
| Readme.ExtractSectionSpec | scripts/utils/module_validator.py:297-358 | Objectives, prerequisites and resources are each that declarative section of the README's lines. |
| Readme.DescriptionFrom | scripts/utils/module_validator.py:289-295 | The description is the stripped line after the first line mentioning "description" that has a successor, or empty when there is none. |
| FileManager.PackagesOrDefault | scripts/utils/file_manager.py:53-64 | Absent packages become the fixed nine-package list, and an explicit list, even an empty one, is kept. |
| FileManager.DocumentText | scripts/utils/file_manager.py:67-76 | The document starts with the class line and a blank line and ends with `\end{document}` and a newline. `\begin{document}` sits right after the package header, and the content sits two newlines after it. |
| FileManager.OutputPath | scripts/utils/file_manager.py:79-81 | A file name with a suffix is kept. A suffix-less name gets `.tex` in the same directory. A path with an empty name, such as the current directory itself, is the error `with_suffix` raises. |
| FileManager.CreateLatexDocument | scripts/utils/file_manager.py:38-92 | It writes exactly the document text for the given or default packages, at the output path. It fails with the `with_suffix` error when the path has no name, and otherwise with the error the write raises, which is re-raised. |
| FileManager.ExtractDocumentContent | scripts/utils/file_manager.py:147-167 | With either marker absent the input comes back unchanged. Otherwise the result is the stripped text between the end of the first begin marker and the first end marker, or empty when the end marker comes first. |
| FileManager.FirstBeginOfDocument | scripts/utils/file_manager.py:67-76 | In a built document whose class and packages hold no backslash, the first `\begin{document}` is the one after the header. |
| FileManager.FirstEndOfDocument | scripts/utils/file_manager.py:67-76 | If the content also lacks `\end{document}`, the first end marker is the closing one. |
| FileManager.ExtractOfDocument | scripts/utils/file_manager.py:67-167 | Round trip: extracting from a built document gives back the stripped content. |
| FileManager.FirstPrimarySpec | scripts/utils/file_manager.py:113 | The primary file position is the earliest `main.tex`/`module.tex` in the listing, and there is none only when no such name is listed. |
| FileManager.ResolveModuleFile | scripts/utils/file_manager.py:110-123 | A non-directory path is used as given, and a directory resolves to nothing exactly when it holds no `.tex` file. |
| FileManager.ResolveModuleFileSpec | scripts/utils/file_manager.py:110-123 | A directory resolves to its first primary-named `.tex` in listing order if there is one, and otherwise to its first `.tex`. |
| FileManager.Heading | scripts/utils/file_manager.py:137 | The heading has the stem's length. Underscores become spaces, a letter starting a word is upper-cased and any other letter is lower-cased, as `str.title` does on ASCII. |
| FileManager.ModuleSection | scripts/utils/file_manager.py:125-142 | A module contributes exactly when it resolves to an existing, readable file. Its contribution is the section heading followed by the extracted body and a blank line. |
| FileManager.CombinedBodyAppend | scripts/utils/file_manager.py:107-142 | The body for two lists of modules is the body of the first followed by the body of the second, so caller order is kept. |
| FileManager.CombinedBodySingle | scripts/utils/file_manager.py:129-142 | One module contributes its section, or nothing when it is skipped. |
| FileManager.CombineModules | scripts/utils/file_manager.py:94-145 | It writes a default-class document whose body is the combined sections. It fails on an empty output name, and otherwise exactly when the write fails, with that error. |
| FileManager.CombineModulesExtract | scripts/utils/file_manager.py:145-164 | Extracting the combined document gives back the stripped combined body. |
| FileManager.ExtractOfCreated | scripts/utils/file_manager.py:38-167 | Extracting a document created with the default packages gives back the stripped body. |
| FileManager.RemovePass | scripts/utils/file_manager.py:303-310 | One extension pass removes exactly the files below the directory whose names end in that extension. |
| FileManager.RemovePassesSpec | scripts/utils/file_manager.py:303-310 | After all passes, an entry survives exactly when it is not a file below the directory ending in one of the extensions, and nothing is added. |
| FileManager.CleanTempFilesSpec | scripts/utils/file_manager.py:289-310 | A missing directory is left alone. Otherwise exactly the files below it ending in a given or default byproduct extension disappear, and nothing else changes. Below the current directory means any relative path. |
| FileManager.CleanRemovesJoined | scripts/utils/file_manager.py:303-310 | A byproduct file at any relative path joined onto an existing directory, the current directory included, is unlinked. |
| FileManager.CopyPasses | scripts/utils/file_manager.py:192-209 | The copied targets are exactly the mirrored paths of the matching files below the source whose copy does not fail. |
| FileManager.CopyResources | scripts/utils/file_manager.py:169-211 | A missing source copies nothing. Otherwise it copies exactly the files below the source ending in a given or default image extension, minus failing copies, each to its mirrored target path. |
| FileManager.CopyTargetMirrors | scripts/utils/file_manager.py:197-198 | The target is the target directory joined with the path relative to the source, so relativising it to the target gives back the relative path. |
| LatexCompiler.NewCompiler | scripts/utils/latex_compiler.py:26-39 | The command is kept, and an absent or empty directory is replaced by a fresh temporary one. |
| LatexCompiler.OutputDirectory | scripts/utils/latex_compiler.py:85 | The PDF goes to the given directory, or to the compiler's own one when none or an empty one is given. |
| LatexCompiler.CompileTexFile | scripts/utils/latex_compiler.py:59-136 | Success holds exactly when the source exists, the probe exits 0, the run exits 0, and the PDF is written. Success holds exactly when there is no error, and exactly when an output path is given, which is the source stem's PDF in the output directory. Each failure carries its own message: not found, compiler missing (both before any run), timeout, exception, or failed with stderr. |
| LatexCompiler.CompilerMissingSkipsRun | scripts/utils/latex_compiler.py:41-83 | `check_latex_installation` passes only on exit status 0. When it fails, `compile_tex_file` fails the same way whatever the compile run and the output directory would have been. |
| LatexCompiler.TimeoutIsDistinct | scripts/utils/latex_compiler.py:125-130 | The timeout message differs from every "Compilation failed" message. |
| LatexCompiler.PassesFrom | scripts/utils/latex_compiler.py:151-158 | Continuing from a successful prefix of passes satisfies the stopping rules. |
| LatexCompiler.MultiPass | scripts/utils/latex_compiler.py:138-158 | With no passes there is no result and no run. Otherwise there are between one and `passes` runs, every run but the last succeeded, the result is the last run's, and an early stop means that run failed. |
| LatexCompiler.CompileMultiplePasses | scripts/utils/latex_compiler.py:138-158 | The loop meets the same stopping rules. |
| LatexCompiler.MultiPassIsUnique | scripts/utils/latex_compiler.py:151-158 | The stopping rules determine the outcome, so any loop meeting them computes the multi-pass result. |
| LatexCompiler.MultiPassOutput | scripts/utils/latex_compiler.py:113-158 | A successful multi-pass build names the PDF of its source in the output directory. |
| LatexCompiler.CleanupTargets | scripts/utils/latex_compiler.py:182-199 | The targets are the source path with each of the eight byproduct extensions in place of its suffix, in order and in the same directory, and an empty name fails. |
| LatexCompiler.CleanupTempFiles | scripts/utils/latex_compiler.py:182-199 | Exactly the existing files among the targets are removed, and an empty name fails. |
| LatexCompiler.CompilationLog | scripts/utils/latex_compiler.py:160-180 | The log is the text of the `.log` next to the source, when it exists and reads. An empty name fails. |
| PdfMerger.ResolveBackend | scripts/utils/pdf_merger.py:37-62 | A resolved `pypdf2` or `reportlab` backend has its library installed. `auto` prefers pypdf2, then reportlab, then none. `pypdf2` falls back to reportlab, then none, and `reportlab` falls back to none. Any other name is kept. |
| PdfMerger.ResolveBackendIdempotent | scripts/utils/pdf_merger.py:37-62 | Resolving a resolved backend changes nothing. |
| PdfMerger.AutoAvailable | scripts/utils/pdf_merger.py:48-71 | Resolution from `auto` is available exactly when some library is installed. |
| PdfMerger.MergeInputs | scripts/utils/pdf_merger.py:94-100 | The inputs kept are exactly the listed files that exist and have a `.pdf` suffix in any case. |
| PdfMerger.MergeInputsAppend | scripts/utils/pdf_merger.py:94-100 | Filtering two lists is filtering each in turn, so input order is kept. |
| PdfMerger.BookmarkName | scripts/utils/pdf_merger.py:137-142 | Index `i` within the bookmark list gets that bookmark. With no or an empty list the file stem is used. A non-empty but shorter list leaves later files without a bookmark. |
| PdfMerger.Planned | scripts/utils/pdf_merger.py:133-142 | Each file is paired with its bookmark name, in order. |
| PdfMerger.MergeWithPyPdf2 | scripts/utils/pdf_merger.py:121-171 | It succeeds exactly when the library run does not fail. On success the merged parts are the planned parts whose append succeeded, while `files_merged` counts every input. |
| PdfMerger.PlannedAppend | scripts/utils/pdf_merger.py:133-142 | Without a bookmark list each file is planned under its own stem, so planning two lists plans one after the other. |
| PdfMerger.PyPdf2PartsAppend | scripts/utils/pdf_merger.py:133-147 | Without a bookmark list, merging two lists appends the parts of the first and then those of the second, so order and repeats are kept. |
| PdfMerger.PyPdf2OneFile | scripts/utils/pdf_merger.py:133-147 | One file is appended once under its first bookmark, or not at all when its append fails. |
| PdfMerger.PyPdf2MergesAllInOrder | scripts/utils/pdf_merger.py:133-147 | When no append fails, the parts are every input once, in input order, each under its bookmark. |
| PdfMerger.MergeWithReportLab | scripts/utils/pdf_merger.py:173-223 | On success the output is a cover page listing the file names, with backend `reportlab` and the cover-page warning. |
| PdfMerger.MergePdfs | scripts/utils/pdf_merger.py:73-119 | No backend fails before looking at any input, and no valid input fails next. Success holds exactly when a known backend is available, there is some valid input, and the library run succeeds. It then reports the number of valid inputs and the output path. |
| PdfMerger.UnavailableIgnoresInputs | scripts/utils/pdf_merger.py:86-91 | Without a backend, the result does not depend on the files, the output, the bookmarks or the libraries. |
| PdfMerger.MergedPartsArePlanned | scripts/utils/pdf_merger.py:94-142 | Every part a pypdf2 merge appends is a valid input from the list, whose append did not fail, under the bookmark for its position. |
| PdfMerger.OutlineOf | scripts/utils/pdf_merger.py:256-262 | A bookmark without a title is "Untitled", and one without a page points to page 0. |
| PdfMerger.OutlineFor | scripts/utils/pdf_merger.py:256-264 | Only bookmarks with a page below the page count enter the outline, and every such bookmark does. |
| PdfMerger.OutlineForAppend | scripts/utils/pdf_merger.py:256-264 | The outline for two bookmark lists is the outline of the first followed by that of the second, so input order is kept. |
| PdfMerger.OutlineForOne | scripts/utils/pdf_merger.py:256-264 | One bookmark enters the outline, once and with its defaults, exactly when its page is below the page count. |
| PdfMerger.AddBookmarks | scripts/utils/pdf_merger.py:225-280 | Any backend but pypdf2 fails. Success holds exactly when the reader and the writer succeed. The written document has every page and the filtered outline, and the count added is the number requested. |
| PdfMerger.BookmarksAddedCountsRequests | scripts/utils/pdf_merger.py:266-271 | A bookmark beyond the last page is counted as added though none is written. |
| PdfMerger.GetPdfInfo | scripts/utils/pdf_merger.py:282-327 | A missing file gives an empty record. An error is reported exactly when one of these raises: the size probe; or, under pypdf2, the page count, the metadata access, or one of the four lookups. The error is the first step's own reason. Each step keeps what the steps before it wrote. The size is kept once read. Under pypdf2 the page count is kept once read, even when the metadata fails after it. Title, author, subject and creator each hold their lookup exactly when that lookup and all before it succeeded, and are empty otherwise. |
| PdfMerger.ReadFields | scripts/utils/pdf_merger.py:317-321 | The keys are looked up in order. The values are those read before the first lookup that raises, and the error is that lookup's reason. An absent key reads as empty. |
| PdfMerger.ReadFieldsPrefix | scripts/utils/pdf_merger.py:317-321 | Reading the four keys, a field is filled exactly when its own lookup and every earlier one succeed. There is no error exactly when all four succeed. |
| PdfMerger.Judge | scripts/utils/pdf_merger.py:339-373 | Not-found is checked before the suffix. A file is accepted exactly when it is a merge input whose information has no error, and then with that information. |
| PdfMerger.AddVerdict | scripts/utils/pdf_merger.py:339-373 | A verdict goes in front of the list it belongs to, and the totals stay the sums over the valid list. |
| PdfMerger.AddVerdictTallies | scripts/utils/pdf_merger.py:339-381 | Judging one more file in front keeps the report's relation to its inputs. |
| PdfMerger.ValidatePdfs | scripts/utils/pdf_merger.py:329-383 | The total is the input length. The valid list is the information of the accepted files, in order. The invalid list is the rejected files, in order, each with the error its own judgement gives. Pages and sizes are summed over the valid files only. |
| PdfMerger.AllJudgedEach | scripts/utils/pdf_merger.py:348-375 | Each rejection in a judged list is what judging its own path gives. |
| PdfMerger.ValidatePdfsPartitions | scripts/utils/pdf_merger.py:339-381 | Every input lands in exactly one of the two lists. |
| RefreshMetadata.UpToComma | global/scripts/tools/refresh_metadata.py:66 | The result is the longest comma-free prefix. |
| RefreshMetadata.BibKey | global/scripts/tools/refresh_metadata.py:66 | A line fails exactly when it has no `{`. |
| RefreshMetadata.KeyFromBraceAfterHead | global/scripts/tools/refresh_metadata.py:66 | The key is the stripped text after the first `{` up to the first comma. |
| RefreshMetadata.BibKeyOfHeader | global/scripts/tools/refresh_metadata.py:64-67 | An entry header `@kind{key,rest` yields exactly `key`. |
| RefreshMetadata.BibKeyWithoutComma | global/scripts/tools/refresh_metadata.py:66 | Without a comma, the key is the rest of the line, stripped. |
| RefreshMetadata.KeysOf | global/scripts/tools/refresh_metadata.py:63-67 | There is one key per line in order, and the whole fails exactly when some line fails. |
| RefreshMetadata.EntryLines | global/scripts/tools/refresh_metadata.py:63-64 | The lines kept are exactly those whose stripped form starts with `@`. |
| RefreshMetadata.ExtractBibKeys | global/scripts/tools/refresh_metadata.py:59-68 | A missing file gives no keys. A file that exists but cannot be opened or decoded fails with the reason. For a readable file there is one key per entry line, in file order, and it fails exactly when an entry line lacks `{`. |
| RefreshMetadata.MergeTags | global/scripts/tools/refresh_metadata.py:82-85 | The existing tags are an unchanged prefix. Every non-empty requested tag is present, and each added tag is a requested, non-empty tag not among the existing ones. |
| RefreshMetadata.MergeTagsAppend | global/scripts/tools/refresh_metadata.py:82-85 | Requested tags are taken one after another: merging two requests appends the new tags of the first, then those of the second. |
| RefreshMetadata.MergeOneTag | global/scripts/tools/refresh_metadata.py:82-85 | One requested tag is appended once exactly when it is non-empty and not already present. |
| RefreshMetadata.MergeTagsIdempotent | global/scripts/tools/refresh_metadata.py:82-85 | Merging the same tags again changes nothing. |
| RefreshMetadata.MergeTagsKeepsNewRepeats | global/scripts/tools/refresh_metadata.py:84 | A tag repeated in the request is added twice. |
| RefreshMetadata.ExistingTags | global/scripts/tools/refresh_metadata.py:83 | Absent tags count as empty, a list is used as is, and any other value fails the concatenation. |
| RefreshMetadata.ExistingTagsUnchanged | global/scripts/tools/refresh_metadata.py:78-83 | Setting title and subtitle does not change the tags the merge starts from. |
| RefreshMetadata.AdjustMetadata | global/scripts/tools/refresh_metadata.py:70-93 | A missing metadata file writes nothing. Otherwise the update succeeds exactly when the tag merge and the key extraction it asks for succeed, and then it writes a mapping. When references are asked for and the bibliography exists but cannot be read, the update fails and nothing is written. |
| RefreshMetadata.AdjustMetadataFields | global/scripts/tools/refresh_metadata.py:78-88 | Each field of the written mapping takes its new value when an edit applies and keeps the old one otherwise. An edit applies as follows: a truthy title, any given subtitle, non-empty tags merged, or the extracted references when asked. |
| RefreshMetadata.AdjustMetadataKeepsKeyOrder | global/scripts/tools/refresh_metadata.py:78-89 | The written mapping keeps the loaded keys in order and only appends new ones. |
| CourseBuilder.LoadConfig | scripts/build_course.py:55-113 | Without a file, on a load error, or with a document that is not a mapping, the defaults are used; a list of key/value pairs is treated as not a mapping. A loaded mapping replaces whole top-level sections, keeping default keys first, and every other section keeps its default. |
| CourseBuilder.Lookup | scripts/build_course.py:149 | `config[section][key]` succeeds exactly when the section is present and a mapping holding the key, and then gives that value. |
| CourseBuilder.PathSetting | scripts/build_course.py:149 | `Path(config[section][key])` succeeds exactly when the lookup gives a string, and prints the empty string as ".". A failed lookup keeps its error. |
| CourseBuilder.SettingsOf | scripts/build_course.py:149-300 | Each entry a command reads is its own lookup: the modules and output directories are the configured strings as paths, and `cleanup_temp` is read for truthiness. A missing entry or a non-string path is an error kept for the command that reaches it. |
| CourseBuilder.Destination | scripts/build_course.py:185-188 | An output directory given as an argument is used, and the configured one is read only when none is given. |
| CourseBuilder.DefaultSettings | scripts/build_course.py:68-101 | Without a configuration file, modules come from `examples/modules`, output goes to `output` and cleanup is on, and no lookup fails. |
| CourseBuilder.ShallowMergeLosesDefaults | scripts/build_course.py:108-149 | A loaded `course` section without `modules_dir` loses the default one, and reading it fails. |
| CourseBuilder.BuildSingleModule | scripts/build_course.py:136-206 | A failing modules-directory lookup raises first. A missing module and an invalid one fail with their messages, and so does a valid module without a candidate primary file, all without copying or compiling. Only then is the output directory read, and a failing lookup raises. Otherwise it returns the compile result for the primary file in that directory after copying resources. |
| CourseBuilder.ValidModuleCompiles | scripts/build_course.py:160-183 | For a plain module name other than "." the candidates are the validator's, so the build gets past validation and the primary-file search exactly when the module validates. |
| CourseBuilder.SelectedModules | scripts/build_course.py:264-273 | The modules kept are exactly the requested ones that validate. |
| CourseBuilder.SelectedModulesAppend | scripts/build_course.py:264-273 | Selecting from two requests is selecting from each, so request order is kept. |
| CourseBuilder.CopyAll | scripts/build_course.py:289-290 | The copied files are exactly those copied for some selected module. |
| CourseBuilder.BuildSelected | scripts/build_course.py:282-303 | The combined source is the file manager's `combined_course.tex` for the selected modules, and resources are copied from each. When `cleanup_temp` cannot be read, the error escapes after compiling. |
| CourseBuilder.BuildSelectedCleans | scripts/build_course.py:299-301 | Cleanup removes byproducts below the output directory exactly when `cleanup_temp` is read and is truthy, and otherwise the listing is left as compiling left it. |
| CourseBuilder.CombinedSource | scripts/build_course.py:282-286 | Combining the selected modules writes, at the combined path, the default-class document of their bodies. The fixed file name is always acceptable, so it fails exactly when the write does. |
| CourseBuilder.BuildSelectedCompiles | scripts/build_course.py:293-308 | The combined file is compiled in two passes under the stopping rules. The last pass's result is returned when `cleanup_temp` reads, and a success names its PDF in the output directory. |
| CourseBuilder.BuildCustomCourse | scripts/build_course.py:243-308 | The modules directory and then the output directory are read first, and a failing lookup raises before anything is done. The modules kept are the valid requested ones, in order. With none it fails with "No valid modules to build", without combining, copying or compiling. A failed write of the combined document raises before anything is copied or compiled. |
| CourseBuilder.BuildCompleteCourse | scripts/build_course.py:208-241 | A failing modules-directory lookup raises. A missing modules directory and one with no modules fail with their messages, and a path that is not a directory raises. Otherwise the custom build is run on every module name, in sorted order. |
| CourseBuilder.ListCourseModules | scripts/build_course.py:310-323 | A failing modules-directory lookup raises, a missing directory lists nothing, a path that is not a directory raises, and a directory gives the validator's module listing. |
| CourseBuilder.ValidateAllModules | scripts/build_course.py:325-341 | A failing modules-directory lookup or a path that is not a directory raises. A missing modules directory is invalid with an empty module map. Otherwise the result is the course validation: valid exactly when there are modules and all validate, with each module's own result. |
| Text.IndexOfSpec | scripts/utils/file_manager.py:160-161 | `find` returns the first occurrence, or -1 exactly when there is none. |
| Text.TitleSpec | scripts/utils/file_manager.py:137 | `str.title` upper-cases a letter after a non-letter and lower-cases the others. |
| Text.StripIsInfix | scripts/utils/file_manager.py:164 | `strip` removes leading and trailing whitespace and keeps a contiguous middle. |
| Fs.FirstExistingSpec | scripts/utils/module_validator.py:70-81 | The first-existing search finds the earliest listed name that exists, and finds nothing exactly when none exists. |
| Fs.JoinIsBelow | scripts/utils/file_manager.py:303-305 | A non-empty relative path joined onto any directory, the current directory included, lies below it, as the recursive glob finds it. |
| Fs.GlobMembers | scripts/utils/module_validator.py:93-95 | A one-level glob finds exactly the immediate entries of the directory whose name ends in the pattern's extension. |
| Values.GetUpdate | scripts/build_course.py:108 | After `dict.update`, a key reads the updated value if the update has it, and the old value otherwise. |
| Values.UpdateKeys | scripts/build_course.py:108 | `dict.update` keeps the old keys in order, appends new ones, and keeps keys unique. |

## Left out

- Text: `lower` and `title` are modelled for ASCII letters only; other cased characters are left unchanged.
- `_extract_time`: needs a regular-expression engine, so the estimated-time field is not modelled and `ModuleInfo` has no such field.
- `_validate_latex_content`: the UTF-8 re-encoding check cannot fail on text made of Unicode scalar values, so it has no branch in the model.
- `create_module_template` and `import_metadata_template`: these only scaffold files from templates.
- Interactive menus, `get_parser` and `main` of the metadata tool, and `main` of the course builder: these are command-line plumbing.
- Logging, `__del__` temporary-directory removal, `mkdir` side effects and the mechanics of `shutil.copy2`: these are side effects without results.
- `_setup_logging`: a configuration whose `logging` section lacks a string `level` or a `file` makes the builder's constructor raise. The commands are modelled on a builder that was constructed.
- FileManager's temporary directory (`temp_dir or mkdtemp()`) is a parameter of the operations that write into it.
- `yaml.safe_load` and `yaml.dump`: a load is an input value, and the written mapping is the result. In `AdjustMetadata` the loaded document is taken to be a mapping.
- CourseBuilder.LoadConfig: every top-level document that is not a mapping keeps the defaults. `dict.update` also accepts a list of key/value pairs, and applies the pairs before a malformed one; that case is not modelled.
- Lines split on `'\n'` only; `'\r'` line ends are not treated specially.
- CourseBuilder.ListRepr: Python's `repr` of the validation errors uses the right quotes but does not model backslash escaping inside the strings.
- Paths: `pathlib` normalisation of repeated or trailing slashes, `.` components inside a path and `..` is not modelled; paths are taken as already normalised. `Join` does model `/` itself: an absolute name replaces the directory, "" or "." as the directory gives the name alone, and "" or "." as the name gives the directory. The current directory "." has the empty name.
- CourseBuilder.ValidModuleCompiles: the module name "." is excluded. With it the module path is the modules directory itself; the validator then looks for `<directory name>.tex` while the build looks for `..tex`, so the two can disagree.
- File writes: which writes fail is an oracle input; the listing is not consulted to predict a missing parent directory.
- PDF page contents, the merge writer and ReportLab's canvas drawing are opaque. A merge result records the parts appended or the cover-page names instead.
- `get_pdf_info`: each step is an oracle result: the `stat`, the page count, the metadata access, and each lookup. File sizes are natural numbers from the probe. A metadata that is None or empty is the empty map. The values of the lookups are taken to be strings.
- Timeouts, exit codes and written PDFs of the compiler are oracle inputs; no process is modelled.
- LatexCompiler.CheckInstallation: the probe ends by exiting, timing out or not finding the binary. Any other `OSError` from the probe escapes `compile_tex_file`, since the call sits outside its `try`, and that case is not modelled.
- `Seqs.FilterPartition`: states only that the kept and dropped parts add up to the input length, not how they interleave.

=== FILE: build_course.dfy ===
/**
 * The orchestration of `CourseBuilder` (build_course.py): configuration loading
 * and the decisions of the build and validate commands, composed from the
 * validator, file manager and compiler models. What the compiler does and
 * which copies fail are oracles; `after` is the listing once compilation is over.
 */
module CourseBuilder {
  import opened Wrappers
  import opened Seqs
  import opened Text
  import opened Paths
  import opened Fs
  import opened Values
  import opened ModuleValidator
  import opened FileManager
  import opened LatexCompiler

  /** The defaults of `_load_config`, section by section. */
  const CourseDefaults: seq<Field> := [
    Field("title", Str("Genome Annotation Course")),
    Field("author", Str("LBCM")),
    Field("modules_dir", Str("examples/modules")),
    Field("output_dir", Str("output")),
    Field("temp_dir", Str("temp"))]

  const LatexDefaults: seq<Field> := [
    Field("compiler", Str("pdflatex")),
    Field("document_class", Str("article")),
    Field("packages", List([
      Str("inputenc{utf8}"), Str("fontenc{T1}"), Str("geometry{margin=1in}"), Str("hyperref"),
      Str("graphicx"), Str("amsmath"), Str("amsfonts"), Str("listings"), Str("xcolor")]))]

  const BuildDefaults: seq<Field> := [
    Field("include_solutions", Bool(false)),
    Field("create_toc", Bool(true)),
    Field("merge_pdfs", Bool(false)),
    Field("cleanup_temp", Bool(true))]

  const LoggingDefaults: seq<Field> := [
    Field("level", Str("INFO")),
    Field("file", Str("course_builder.log"))]

  const DefaultConfig: seq<Field> := [
    Field("course", Mapping(CourseDefaults)),
    Field("latex", Mapping(LatexDefaults)),
    Field("build", Mapping(BuildDefaults)),
    Field("logging", Mapping(LoggingDefaults))]

  lemma DefaultConfigKeysUnique()
    ensures KeysUnique(DefaultConfig)
  {
  }

  /** What reading the configuration file gave: no file, an error while reading or parsing, or a YAML value. */
  datatype ConfigSource = NoConfigFile | LoadError(reason: string) | Loaded(doc: Value)

  /** `_load_config`: a loaded mapping replaces whole top-level sections; anything else keeps the defaults. */
  function LoadConfig(src: ConfigSource): (c: seq<Field>)
    ensures !(src.Loaded? && src.doc.Mapping?) ==> c == DefaultConfig
    ensures src.Loaded? && src.doc.Mapping? && KeysUnique(src.doc.fields) ==>
      && KeysUnique(c)
      && |Keys(DefaultConfig)| <= |Keys(c)| && Keys(c)[..|Keys(DefaultConfig)|] == Keys(DefaultConfig)
      && forall key :: Get(c, key) == if key in Keys(src.doc.fields) then Get(src.doc.fields, key) else Get(DefaultConfig, key)
  {
    if src.Loaded? && src.doc.Mapping? then
      var u := src.doc.fields;
      DefaultConfigKeysUnique();
      UpdateKeys(DefaultConfig, u);
      GetUpdateEverywhere(DefaultConfig, u);
      Update(DefaultConfig, u)
    else DefaultConfig
  }

  /** `GetUpdate` for every key at once. */
  lemma GetUpdateEverywhere(d: seq<Field>, u: seq<Field>)
    ensures KeysUnique(u) ==>
      forall key :: Get(Update(d, u), key) == if key in Keys(u) then Get(u, key) else Get(d, key)
  {
    if KeysUnique(u) {
      forall key ensures Get(Update(d, u), key) == if key in Keys(u) then Get(u, key) else Get(d, key) {
        GetUpdate(d, u, key);
      }
    }
  }

  /**
   * What each configuration entry a command reads gives: the value, or the error
   * the lookup raises. A command raises only once it reaches a lookup that fails.
   */
  datatype Settings = Settings(
    modulesDir: Result<PathString, string>,
    outputDir: Result<PathString, string>,
    cleanupTemp: Result<bool, string>)

  /** `config[section][key]`, which raises unless both lookups find something. */
  function Lookup(config: seq<Field>, section: string, key: string): (r: Result<Value, string>)
    ensures r.Success? <==>
      Get(config, section).Some? && Get(config, section).value.Mapping? && Get(Get(config, section).value.fields, key).Some?
    ensures r.Success? ==> r.value == Get(Get(config, section).value.fields, key).value
  {
    match Get(config, section)
    case None => Failure("KeyError: " + section)
    case Some(v) =>
      if !v.Mapping? then Failure("TypeError: " + section)
      else match Get(v.fields, key)
        case None => Failure("KeyError: " + key)
        case Some(x) => Success(x)
  }

  /** `Path(config[section][key])`: only a string makes a path. */
  function PathSetting(config: seq<Field>, section: string, key: string): (r: Result<PathString, string>)
    ensures r.Success? <==> Lookup(config, section, key).Success? && Lookup(config, section, key).value.Str?
    ensures r.Success? ==> r.value == PathStr(Lookup(config, section, key).value.s)
    ensures Lookup(config, section, key).Failure? ==> r == Failure(Lookup(config, section, key).error)
  {
    var v :- Lookup(config, section, key);
    if v.Str? then Success(PathStr(v.s)) else Failure("TypeError: expected a path string")
  }

  /** The entries the build commands read, each as its own lookup. */
  function SettingsOf(config: seq<Field>): (r: Settings)
    ensures r.modulesDir == PathSetting(config, "course", "modules_dir")
    ensures r.outputDir == PathSetting(config, "course", "output_dir")
    ensures r.cleanupTemp.Success? <==> Lookup(config, "build", "cleanup_temp").Success?
    ensures r.cleanupTemp.Success? ==> r.cleanupTemp.value == Truthy(Lookup(config, "build", "cleanup_temp").value)
  {
    Settings(PathSetting(config, "course", "modules_dir"), PathSetting(config, "course", "output_dir"),
             match Lookup(config, "build", "cleanup_temp")
             case Success(v) => Success(Truthy(v))
             case Failure(e) => Failure(e))
  }

  /** Where a command writes: the argument when one is given, else the configured output directory. */
  function Destination(s: Settings, outputDir: Option<string>): (r: Result<PathString, string>)
    ensures outputDir.Some? ==> r == Success(PathStr(outputDir.value))
    ensures outputDir.None? ==> r == s.outputDir
  {
    if outputDir.Some? then Success(PathStr(outputDir.value)) else s.outputDir
  }

  lemma DefaultCourseLookups()
    ensures Lookup(DefaultConfig, "course", "modules_dir") == Success(Str("examples/modules"))
    ensures Lookup(DefaultConfig, "course", "output_dir") == Success(Str("output"))
  {
    assert Get(DefaultConfig, "course") == Some(Mapping(CourseDefaults));
    assert Get(CourseDefaults, "modules_dir") == Some(Str("examples/modules"));
    assert Get(CourseDefaults, "output_dir") == Some(Str("output"));
  }

  lemma DefaultBuildLookup()
    ensures Lookup(DefaultConfig, "build", "cleanup_temp") == Success(Bool(true))
  {
    assert DefaultConfig[1..][1..][0] == Field("build", Mapping(BuildDefaults));
    assert Get(DefaultConfig, "build") == Some(Mapping(BuildDefaults));
    assert BuildDefaults[1..][1..][1..][0] == Field("cleanup_temp", Bool(true));
    assert Get(BuildDefaults, "cleanup_temp") == Some(Bool(true));
  }

  /** Without a configuration file the defaults apply. */
  lemma DefaultSettings()
    ensures SettingsOf(LoadConfig(NoConfigFile)) == Settings(Success("examples/modules"), Success("output"), Success(true))
  {
    assert LoadConfig(NoConfigFile) == DefaultConfig;
    DefaultCourseLookups();
    DefaultBuildLookup();
  }

  /**
   * The merge is shallow: a loaded `course` section that lacks `modules_dir` does not
   * inherit the default one, so reading the modules directory fails.
   */
  lemma ShallowMergeLosesDefaults(fields: seq<Field>, course: seq<Field>)
    requires KeysUnique(fields)
    requires Get(fields, "course") == Some(Mapping(course))
    requires "modules_dir" !in Keys(course)
    ensures SettingsOf(LoadConfig(Loaded(Mapping(fields)))).modulesDir.Failure?
  {
    var c := LoadConfig(Loaded(Mapping(fields)));
    assert Get(c, "course") == Some(Mapping(course));
  }

  /** A path as `str(Path(..))` prints it, which is never empty. */
  type PathString = p: string | p != "" witness "."

  /** `str(Path(p))` for the paths used here: the empty path prints as ".". */
  function PathStr(p: string): (r: PathString)
    ensures p != "" ==> r == p
  {
    if p == "" then "." else p
  }

  /** Python's `repr` of a string, with the quote choice of `str.__repr__` (escapes not modelled). */
  function StrRepr(s: string): string {
    if '\'' in s && '"' !in s then "\"" + s + "\"" else "'" + s + "'"
  }

  /** Python's `repr` of a list of strings. */
  function ListRepr(xs: seq<string>): (r: string)
    ensures xs == [] ==> r == "[]"
  {
    "[" + ItemsRepr(xs) + "]"
  }

  function ItemsRepr(xs: seq<string>): string {
    if xs == [] then "" else if |xs| == 1 then StrRepr(xs[0]) else StrRepr(xs[0]) + ", " + ItemsRepr(xs[1..])
  }

  function Failed(error: string): CompileResult {
    CompileResult(false, Some(error), None, None)
  }

  /** The outcome of `build_single_module`: its result, the resources copied and whether it compiled. */
  datatype SingleBuild = SingleBuild(result: CompileResult, copied: seq<string>, compiled: bool)

  /** The primary file `build_single_module` looks for, by the module name it was given. */
  function SingleMain(fs: FileSystem, modulePath: string, name: string): Option<string> {
    FirstExisting(fs, modulePath, MainCandidates(name))
  }

  /** The module reaches the output-directory lookup: it exists, validates and has a primary file. */
  predicate ReachesCompile(fs: FileSystem, p: string, name: string) {
    Exists(fs, p) && ValidateModule(fs, p).valid && SingleMain(fs, p, name).Some?
  }

  /**
   * `build_single_module`. A failure is the error a configuration lookup raises:
   * the modules directory is read first, the output directory only once the
   * module has validated and its primary file is found.
   */
  function BuildSingleModule(fs: FileSystem, s: Settings, name: string, outputDir: Option<string>,
                             c: Compiler, copyFails: set<string>, attempt: Attempt): (r: Result<SingleBuild, string>)
    ensures s.modulesDir.Failure? ==> r == Failure(s.modulesDir.error)
    ensures s.modulesDir.Success? ==> var p := Join(s.modulesDir.value, name);
      && (!Exists(fs, p) ==> r == Success(SingleBuild(Failed("Module not found: " + name), [], false)))
      && (Exists(fs, p) && !ValidateModule(fs, p).valid ==>
            r == Success(SingleBuild(Failed("Module validation failed: " + ListRepr(ValidateModule(fs, p).errors)), [], false)))
      && (Exists(fs, p) && ValidateModule(fs, p).valid && SingleMain(fs, p, name).None? ==>
            r == Success(SingleBuild(Failed("No main LaTeX file found in module " + name), [], false)))
      && (r.Failure? <==> ReachesCompile(fs, p, name) && Destination(s, outputDir).Failure?)
      && (r.Success? && r.value.compiled <==> ReachesCompile(fs, p, name) && Destination(s, outputDir).Success?)
      && (r.Success? && r.value.compiled ==>
            var out := Destination(s, outputDir).value;
            && r.value.result == CompileTexFile(c, SingleMain(fs, p, name).value, Some(out), attempt)
            && r.value.copied == CopyResources(fs, p, out, None, copyFails))
    ensures r.Success? && r.value.result.success ==> r.value.compiled
  {
    match s.modulesDir
    case Failure(e) => Failure(e)
    case Success(dir) =>
      var p := Join(dir, name);
      if !Exists(fs, p) then Success(SingleBuild(Failed("Module not found: " + name), [], false))
      else
        var v := ValidateModule(fs, p);
        if !v.valid then Success(SingleBuild(Failed("Module validation failed: " + ListRepr(v.errors)), [], false))
        else match SingleMain(fs, p, name)
          case None => Success(SingleBuild(Failed("No main LaTeX file found in module " + name), [], false))
          case Some(main) =>
            match Destination(s, outputDir)
            case Failure(e) => Failure(e)
            case Success(out) =>
              Success(SingleBuild(CompileTexFile(c, main, Some(out), attempt), CopyResources(fs, p, out, None, copyFails), true))
  }

  /**
   * For a plain module name other than "." the candidate list is the validator's, so a module
   * gets past validation and the primary-file search exactly when it validates;
   * it then compiles, or raises on the output-directory lookup.
   */
  lemma ValidModuleCompiles(fs: FileSystem, s: Settings, name: string, outputDir: Option<string>,
                            c: Compiler, copyFails: set<string>, attempt: Attempt)
    ensures s.modulesDir.Success? && name != "" && name != "." && '/' !in name ==>
      var r := BuildSingleModule(fs, s, name, outputDir, c, copyFails, attempt);
      (r.Failure? || r.value.compiled) <==> ModuleValid(fs, Join(s.modulesDir.value, name))
  {
    if s.modulesDir.Success? && name != "" && name != "." && '/' !in name {
      var p := Join(s.modulesDir.value, name);
      NameOfJoin(s.modulesDir.value, name);
      assert MainFile(fs, p) == SingleMain(fs, p, name);
      assert ModuleValid(fs, p) <==> ReachesCompile(fs, p, name);
    }
  }

  /** The module paths `build_custom_course` validates: each name below the modules directory. */
  function ModulePaths(dir: string, names: seq<string>): (r: seq<string>)
    ensures |r| == |names|
    ensures forall k :: 0 <= k < |names| ==> r[k] == Join(dir, names[k])
  {
    seq(|names|, k requires 0 <= k < |names| => Join(dir, names[k]))
  }

  /** The modules kept: the requested ones that validate, in request order. */
  function SelectedModules(fs: FileSystem, dir: string, names: seq<string>): (r: seq<string>)
    ensures |r| <= |names|
    ensures forall p :: p in r <==> p in ModulePaths(dir, names) && ModuleValid(fs, p)
  {
    Filter(ModulePaths(dir, names), ValidTest(fs))
  }

  /** Selecting from two requests is selecting from each, so request order is kept. */
  lemma SelectedModulesAppend(fs: FileSystem, dir: string, a: seq<string>, b: seq<string>)
    ensures SelectedModules(fs, dir, a + b) == SelectedModules(fs, dir, a) + SelectedModules(fs, dir, b)
  {
    assert ModulePaths(dir, a + b) == ModulePaths(dir, a) + ModulePaths(dir, b);
    FilterAppend(ModulePaths(dir, a), ModulePaths(dir, b), ValidTest(fs));
  }

  /** The resources copied for each selected module, in turn. */
  function CopyAll(fs: FileSystem, modules: seq<string>, out: string, copyFails: set<string>): (r: seq<string>)
    ensures forall x :: x in r <==> exists k :: 0 <= k < |modules| && x in CopyResources(fs, modules[k], out, None, copyFails)
  {
    var copy := (m: string) => CopyResources(fs, m, out, None, copyFails);
    var r := FlatMap(modules, copy);
    forall x ensures x in r <==> exists k :: 0 <= k < |modules| && x in copy(modules[k]) {
      InFlatMap(modules, copy, x);
    }
    r
  }

  /**
   * The outcome of a course build: the result it returns, or the error a
   * configuration lookup raises, and what it did on the way; `combined` is the
   * path `combine_modules` wrote, whose text `CombinedSource` gives.
   */
  datatype CourseBuild = CourseBuild(
    result: Result<CompileResult, string>,
    modules: seq<string>,
    combined: Option<string>,
    copied: seq<string>,
    invocations: nat,
    listing: FileSystem)

  const NoValidModules: string := "No valid modules to build"

  /** A course build that stops before combining, copying or compiling anything. */
  function NothingDone(fs: FileSystem, result: Result<CompileResult, string>): CourseBuild {
    CourseBuild(result, [], None, [], 0, fs)
  }

  /** The combined source path: the file manager's directory joined with the fixed file name. */
  lemma CombinedFileNamed(dir: string)
    ensures Name(Join(dir, CombinedFilename)) == CombinedFilename
    ensures Suffix(Name(Join(dir, CombinedFilename))) != ""
  {
    var n := CombinedFilename;
    assert n == "combined_course" + ".tex";
    assert forall j :: 0 <= j < |n| ==> n[j] != '/';
    NameOfJoin(dir, n);
    StemAndSuffixOf("combined_course", ".tex");
  }

  /**
   * Combining the selected modules writes below the file manager's directory, and
   * fails only when that write does: the file name itself is always acceptable.
   */
  lemma CombinedSource(fs: FileSystem, tempDir: string, modules: seq<string>, writeFailure: Option<string>)
    ensures writeFailure.None? ==>
      CombineModules(fs, tempDir, modules, CombinedFilename, writeFailure)
        == Success(Written(Join(tempDir, CombinedFilename), DocumentText(CombinedBody(fs, modules), DefaultClass, DefaultPackages)))
    ensures writeFailure.Some? ==> CombineModules(fs, tempDir, modules, CombinedFilename, writeFailure) == Failure(writeFailure.value)
  {
    CombinedFileNamed(tempDir);
  }

  /** The two passes `build_custom_course` asks for, writing into `out`. */
  function CompileCombined(c: Compiler, source: string, out: string, world: nat -> Attempt): (o: PassOutcome)
    requires out != ""
    ensures o.result.Some?
    ensures StoppedCorrectly(2, Runs(c, source, Some(out), world), o)
    ensures o.result.value.success ==> o.result.value.outputPath == Some(PdfPath(source, out))
  {
    MultiPassOutput(c, source, Some(out), 2, world);
    MultiPass(c, source, Some(out), 2, world)
  }

  /**
   * The build of `build_custom_course` once at least one module validated and
   * the combined document was written.
   * `cleanup_temp` is read only after compiling, so a failing lookup raises
   * with the document combined, the resources copied and the passes run.
   */
  function BuildSelected(fs: FileSystem, cleanup: Result<bool, string>, modules: seq<string>, out: string,
                         tempDir: string, c: Compiler, copyFails: set<string>,
                         world: nat -> Attempt, after: FileSystem): (r: CourseBuild)
    requires out != ""
    ensures r.modules == modules
    ensures r.combined == Some(Join(tempDir, CombinedFilename))
    ensures r.copied == CopyAll(fs, modules, out, copyFails)
    ensures cleanup.Failure? ==> r.result == Failure(cleanup.error)
  {
    var source := Join(tempDir, CombinedFilename);
    var passes := CompileCombined(c, source, out, world);
    var copied := CopyAll(fs, modules, out, copyFails);
    match cleanup
    case Failure(e) => CourseBuild(Failure(e), modules, Some(source), copied, passes.invocations, after)
    case Success(clean) =>
      var listing := if clean then CleanTempFiles(after, out, None) else after;
      CourseBuild(Success(passes.result.value), modules, Some(source), copied, passes.invocations, listing)
  }

  /** The combined file is compiled twice, stopping after a failed pass, and a success names its PDF in `out`. */
  lemma BuildSelectedCompiles(fs: FileSystem, cleanup: Result<bool, string>, modules: seq<string>, out: string,
                              tempDir: string, c: Compiler, copyFails: set<string>,
                              world: nat -> Attempt, after: FileSystem)
    requires out != ""
    ensures MultiPass(c, Join(tempDir, CombinedFilename), Some(out), 2, world).result.Some?
    ensures BuildSelected(fs, cleanup, modules, out, tempDir, c, copyFails, world, after).invocations
         == MultiPass(c, Join(tempDir, CombinedFilename), Some(out), 2, world).invocations
    ensures cleanup.Success? ==>
      BuildSelected(fs, cleanup, modules, out, tempDir, c, copyFails, world, after).result
        == Success(MultiPass(c, Join(tempDir, CombinedFilename), Some(out), 2, world).result.value)
    ensures MultiPass(c, Join(tempDir, CombinedFilename), Some(out), 2, world).result.value.success ==>
      MultiPass(c, Join(tempDir, CombinedFilename), Some(out), 2, world).result.value.outputPath
        == Some(PdfPath(Join(tempDir, CombinedFilename), out))
  {
    var passes := CompileCombined(c, Join(tempDir, CombinedFilename), out, world);
  }

  /** Byproducts below the output directory are removed exactly when `cleanup_temp` reads as true. */
  lemma BuildSelectedCleans(fs: FileSystem, cleanup: Result<bool, string>, modules: seq<string>, out: string,
                            tempDir: string, c: Compiler, copyFails: set<string>,
                            world: nat -> Attempt, after: FileSystem)
    requires out != ""
    ensures cleanup.Success? && cleanup.value ==>
      BuildSelected(fs, cleanup, modules, out, tempDir, c, copyFails, world, after).listing == CleanTempFiles(after, out, None)
    ensures cleanup.Failure? || !cleanup.value ==>
      BuildSelected(fs, cleanup, modules, out, tempDir, c, copyFails, world, after).listing == after
  {
  }

  /**
   * `build_custom_course`, with `tempDir` the file manager's directory and
   * `writeFailure` the error writing the combined document raises, if any. The
   * modules directory and then the output directory are read before anything else;
   * a failed write raises before any resource is copied or any pass runs.
   */
  function BuildCustomCourse(fs: FileSystem, s: Settings, names: seq<string>, outputDir: Option<string>,
                             tempDir: string, writeFailure: Option<string>, c: Compiler, copyFails: set<string>,
                             world: nat -> Attempt, after: FileSystem): (r: CourseBuild)
    ensures s.modulesDir.Failure? ==> r == NothingDone(fs, Failure(s.modulesDir.error))
    ensures s.modulesDir.Success? && Destination(s, outputDir).Failure? ==>
      r == NothingDone(fs, Failure(Destination(s, outputDir).error))
    ensures s.modulesDir.Success? && Destination(s, outputDir).Success? ==>
      && r.modules == SelectedModules(fs, s.modulesDir.value, names)
      && (r.modules == [] ==> r == NothingDone(fs, Success(Failed(NoValidModules))))
      && (r.modules != [] && writeFailure.Some? ==> r == CourseBuild(Failure(writeFailure.value), r.modules, None, [], 0, fs))
      && (r.modules != [] && writeFailure.None? ==>
            r == BuildSelected(fs, s.cleanupTemp, r.modules, Destination(s, outputDir).value, tempDir, c, copyFails, world, after))
  {
    match s.modulesDir
    case Failure(e) => NothingDone(fs, Failure(e))
    case Success(dir) =>
      match Destination(s, outputDir)
      case Failure(e) => NothingDone(fs, Failure(e))
      case Success(out) =>
        var modules := SelectedModules(fs, dir, names);
        if modules == [] then NothingDone(fs, Success(Failed(NoValidModules)))
        else match writeFailure
          case Some(e) => CourseBuild(Failure(e), modules, None, [], 0, fs)
          case None => BuildSelected(fs, s.cleanupTemp, modules, out, tempDir, c, copyFails, world, after)
  }

  const NoModulesFound: string := "No modules found in modules directory"

  function NamesOf(infos: seq<ModuleInfo>): (r: seq<string>)
    ensures |r| == |infos|
    ensures forall k :: 0 <= k < |infos| ==> r[k] == infos[k].name
  {
    seq(|infos|, k requires 0 <= k < |infos| => infos[k].name)
  }

  /** `build_complete_course`: every listed module, by name in `list_modules` order. */
  function BuildCompleteCourse(fs: FileSystem, s: Settings, outputDir: Option<string>,
                               tempDir: string, writeFailure: Option<string>, c: Compiler, copyFails: set<string>,
                               world: nat -> Attempt, after: FileSystem): (r: CourseBuild)
    ensures s.modulesDir.Failure? ==> r == NothingDone(fs, Failure(s.modulesDir.error))
    ensures s.modulesDir.Success? ==> var dir := s.modulesDir.value;
      && (!Exists(fs, dir) ==> r == NothingDone(fs, Success(Failed("Modules directory not found: " + dir))))
      && (Exists(fs, dir) && !IsDir(fs, dir) ==> r == NothingDone(fs, Failure(NotADirectory(dir))))
      && (IsDir(fs, dir) && ModuleDirs(fs, dir) == [] ==> r == NothingDone(fs, Success(Failed(NoModulesFound))))
      && (IsDir(fs, dir) && ModuleDirs(fs, dir) != [] ==>
            var names := NamesOf(ModuleInfos(fs, dir));
            && |names| == |ModuleDirs(fs, dir)|
            && (forall i, j :: 0 <= i < j < |names| ==> LexLe(names[i], names[j]))
            && r == BuildCustomCourse(fs, s, names, outputDir, tempDir, writeFailure, c, copyFails, world, after))
  {
    match s.modulesDir
    case Failure(e) => NothingDone(fs, Failure(e))
    case Success(dir) =>
      if !Exists(fs, dir) then NothingDone(fs, Success(Failed("Modules directory not found: " + dir)))
      else match ListModules(fs, dir)
        case Failure(e) => NothingDone(fs, Failure(e))
        case Success(infos) =>
          var sorted := SortByName(ModuleDirs(fs, dir));
          assert |infos| == |ModuleDirs(fs, dir)| by {
            assert |multiset(sorted)| == |multiset(ModuleDirs(fs, dir))|;
          }
          if infos == [] then NothingDone(fs, Success(Failed(NoModulesFound)))
          else BuildCustomCourse(fs, s, NamesOf(infos), outputDir, tempDir, writeFailure, c, copyFails, world, after)
  }

  /** `CourseBuilder.list_modules`: no listing for a missing modules directory. */
  function ListCourseModules(fs: FileSystem, s: Settings): (r: Result<seq<ModuleInfo>, string>)
    ensures r.Failure? <==> s.modulesDir.Failure? || (Exists(fs, s.modulesDir.value) && !IsDir(fs, s.modulesDir.value))
    ensures s.modulesDir.Failure? ==> r == Failure(s.modulesDir.error)
    ensures s.modulesDir.Success? && !Exists(fs, s.modulesDir.value) ==> r == Success([])
    ensures s.modulesDir.Success? && IsDir(fs, s.modulesDir.value) ==> r == Success(ModuleInfos(fs, s.modulesDir.value))
  {
    match s.modulesDir
    case Failure(e) => Failure(e)
    case Success(dir) => if !Exists(fs, dir) then Success([]) else ListModules(fs, dir)
  }

  /** What `validate_all_modules` returns, or the error it raises. */
  datatype AllModulesCheck = DirectoryMissing(error: string) | Checked(report: CourseValidation) | Escaped(error: string) {
    predicate Valid() {
      Checked? && report.valid
    }
    function Modules(): map<string, ValidationResult> {
      if Checked? then report.modules else map[]
    }
  }

  /** `validate_all_modules`. */
  function ValidateAllModules(fs: FileSystem, s: Settings): (r: AllModulesCheck)
    ensures r.Escaped? <==> s.modulesDir.Failure? || (Exists(fs, s.modulesDir.value) && !IsDir(fs, s.modulesDir.value))
    ensures s.modulesDir.Failure? ==> r == Escaped(s.modulesDir.error)
    ensures s.modulesDir.Success? ==> var dir := s.modulesDir.value;
      && (!Exists(fs, dir) ==>
            && r == DirectoryMissing("Modules directory not found: " + dir)
            && !r.Valid() && r.Modules() == map[])
      && (Exists(fs, dir) && !IsDir(fs, dir) ==> r == Escaped(NotADirectory(dir)))
      && (IsDir(fs, dir) ==>
            && (r.Valid() <==> ModuleDirs(fs, dir) != [] && forall d :: d in ModuleDirs(fs, dir) ==> ModuleValid(fs, d))
            && (forall d :: d in ModuleDirs(fs, dir) ==> Name(d) in r.Modules() && r.Modules()[Name(d)] == ValidateModule(fs, d)))
  {
    match s.modulesDir
    case Failure(e) => Escaped(e)
    case Success(dir) =>
      if !Exists(fs, dir) then DirectoryMissing("Modules directory not found: " + dir)
      else match ValidateCourseStructure(fs, dir)
        case Failure(e) => Escaped(e)
        case Success(report) => Checked(report)
  }
}

=== FILE: file_manager.dfy ===
/**
 * Building LaTeX documents, extracting their bodies, combining module bodies
 * into one course document, and the file selections behind cleanup and
 * resource copying (file_manager.py).
 */
module FileManager {
  import opened Wrappers
  import opened Seqs
  import opened Text
  import opened Paths
  import opened Fs
  import opened Latex

  /** The packages a document gets when the caller passes none. */
  const DefaultPackages: seq<string> := [
    "inputenc{utf8}", "fontenc{T1}", "geometry{margin=1in}", "hyperref",
    "graphicx", "amsmath", "amsfonts", "listings", "xcolor"]

  const DefaultClass: string := "article"

  /** Python's `packages is None` test: an explicit empty list stays empty. */
  function PackagesOrDefault(packages: Option<seq<string>>): (r: seq<string>)
    ensures packages.Some? ==> r == packages.value
    ensures packages.None? ==> |r| == 9 && r[0] == "inputenc{utf8}" && r[8] == "xcolor"
  {
    packages.GetOr(DefaultPackages)
  }

  function PackageLine(p: string): string {
    "\\usepackage{" + p + "}\n"
  }

  /** One `\usepackage` line per package, in order. */
  function PackageLines(packages: seq<string>): string {
    if |packages| == 0 then "" else PackageLine(packages[0]) + PackageLines(packages[1..])
  }

  /** Everything before `\begin{document}`: the class line, the package lines and a blank line. */
  function Header(documentClass: string, packages: seq<string>): string {
    "\\documentclass{" + documentClass + "}\n\n" + PackageLines(packages) + "\n"
  }

  const Opening: string := "\n\n"
  const Closing: string := "\n\n"

  /** The text `create_latex_document` writes. */
  function DocumentText(content: string, documentClass: string, packages: seq<string>): (t: string)
    ensures StartsWith(t, "\\documentclass{" + documentClass + "}\n\n")
    ensures EndsWith(t, "\\end{document}\n")
    ensures var h := Header(documentClass, packages);
      && OccursAt(t, BeginDocument, |h|)
      && OccursAt(t, content, |h| + |BeginDocument| + |Opening|)
  {
    var h := Header(documentClass, packages);
    var t := h + BeginDocument + Opening + content + Closing + EndDocument + "\n";
    assert t[..|"\\documentclass{" + documentClass + "}\n\n"|] == "\\documentclass{" + documentClass + "}\n\n";
    assert t[|t| - |"\\end{document}\n"|..] == "\\end{document}\n";
    assert t[|h|..|h| + |BeginDocument|] == BeginDocument;
    assert t[|h| + |BeginDocument| + |Opening|..][..|content|] == content;
    t
  }

  /** Where a document is written: inside `dir`, with `.tex` added when the name has no suffix. */
  function OutputPath(dir: string, filename: string): (r: Result<string, string>)
    ensures Suffix(Name(Join(dir, filename))) != "" ==> r == Success(Join(dir, filename))
    ensures Suffix(Name(Join(dir, filename))) == "" && Name(Join(dir, filename)) != "" ==>
      && r.Success?
      && Name(r.value) == Name(Join(dir, filename)) + ".tex"
      && DirPrefix(r.value) == DirPrefix(Join(dir, filename))
      && Suffix(Name(r.value)) == ".tex"
    ensures r.Failure? <==> Name(Join(dir, filename)) == ""
  {
    var p := Join(dir, filename);
    if Suffix(Name(p)) != "" then Success(p)
    else if Name(p) == "" then Failure("has an empty name")
    else
      assert PlainSuffix(".tex") by {
        assert ".tex"[1..] == "tex";
      }
      WithSuffixParts(p, ".tex");
      StemSuffix(Name(p));
      Success(WithSuffix(p, ".tex"))
  }

  /** The current directory has no name to give a suffix, so an empty file name inside it fails. */
  lemma CurrentDirectoryHasNoOutputName()
    ensures OutputPath(".", "").Failure?
    ensures OutputPath("", ".").Failure?
    ensures OutputPath(".", ".").Failure?
  {
  }

  /** A document `create_latex_document` wrote: where, and what. */
  datatype Written = Written(path: string, text: string)

  /**
   * `create_latex_document` with the temporary directory `dir` of the file manager.
   * `writeFailure` is the error opening or writing the output path raises, if any
   * (a missing parent directory, say); the method logs it and raises it again.
   */
  function CreateLatexDocument(dir: string, content: string, filename: string,
                               documentClass: string, packages: Option<seq<string>>,
                               writeFailure: Option<string>): (r: Result<Written, string>)
    ensures r.Success? <==> OutputPath(dir, filename).Success? && writeFailure.None?
    ensures OutputPath(dir, filename).Success? && writeFailure.Some? ==> r == Failure(writeFailure.value)
    ensures r.Success? ==>
      && r.value.path == OutputPath(dir, filename).value
      && r.value.text == DocumentText(content, documentClass, PackagesOrDefault(packages))
  {
    var path :- OutputPath(dir, filename);
    match writeFailure
    case Some(e) => Failure(e)
    case None => Success(Written(path, DocumentText(content, documentClass, PackagesOrDefault(packages))))
  }

  /** `_extract_document_content`: the stripped text between the first begin and the first end marker. */
  function ExtractDocumentContent(t: string): (r: string)
    ensures !Contains(t, BeginDocument) || !Contains(t, EndDocument) ==> r == t
    ensures Contains(t, BeginDocument) && Contains(t, EndDocument) ==>
      var b := IndexOf(t, BeginDocument) + |BeginDocument|;
      var e := IndexOf(t, EndDocument);
      && (e <= b ==> r == "")
      && (b < e ==> r == Strip(t[b..e]))
  {
    var b := IndexOf(t, BeginDocument);
    var e := IndexOf(t, EndDocument);
    if b != -1 && e != -1 then Strip(Slice(t, b + |BeginDocument|, e)) else t
  }

  // The round trip: extracting the body of a built document.

  /** Every backslash in `s` is followed by one of the characters in `next`. */
  predicate EscapesFollowedBy(s: string, next: string) {
    forall j :: 0 <= j < |s| && s[j] == '\\' ==> j + 1 < |s| && s[j + 1] in next
  }

  lemma EscapesAppend(a: string, b: string, next: string)
    requires EscapesFollowedBy(a, next) && EscapesFollowedBy(b, next)
    ensures EscapesFollowedBy(a + b, next)
  {
    var s := a + b;
    forall j | 0 <= j < |s| && s[j] == '\\' ensures j + 1 < |s| && s[j + 1] in next {
      if j < |a| {
        assert s[j] == a[j];
      } else {
        assert s[j] == b[j - |a|];
        assert s[j + 1] == b[j + 1 - |a|];
      }
    }
  }

  lemma {:induction false} PackageLinesEscapes(packages: seq<string>)
    requires forall k :: 0 <= k < |packages| ==> '\\' !in packages[k]
    ensures EscapesFollowedBy(PackageLines(packages), "du")
  {
    if |packages| > 0 {
      var p := packages[0];
      var line := PackageLine(p);
      assert line == "\\usepackage{" + p + "}\n";
      forall j | 0 <= j < |line| && line[j] == '\\' ensures j + 1 < |line| && line[j + 1] in "du" {
      }
      PackageLinesEscapes(packages[1..]);
      EscapesAppend(line, PackageLines(packages[1..]), "du");
    }
  }

  /** In the header the only backslashes start `\documentclass` and `\usepackage`. */
  lemma HeaderEscapes(documentClass: string, packages: seq<string>)
    requires '\\' !in documentClass
    requires forall k :: 0 <= k < |packages| ==> '\\' !in packages[k]
    ensures EscapesFollowedBy(Header(documentClass, packages), "du")
  {
    var first := "\\documentclass{" + documentClass + "}\n\n";
    forall j | 0 <= j < |first| && first[j] == '\\' ensures j + 1 < |first| && first[j + 1] in "du" {
    }
    PackageLinesEscapes(packages);
    EscapesAppend(first, PackageLines(packages), "du");
    EscapesAppend(first + PackageLines(packages), "\n", "du");
  }

  /** A marker whose second character is not among `next` cannot start inside such a text. */
  lemma NoMarkerInEscaped(s: string, prefix: string, m: string, next: string, j: int)
    requires EscapesFollowedBy(prefix, next) && |prefix| <= |s| && s[..|prefix|] == prefix
    requires |m| >= 2 && m[0] == '\\' && m[1] !in next
    requires 0 <= j < |prefix|
    ensures !OccursAt(s, m, j)
  {
  }

  /** The first `\begin{document}` of a built document is the one after the header. */
  lemma FirstBeginOfDocument(content: string, documentClass: string, packages: seq<string>)
    requires '\\' !in documentClass
    requires forall k :: 0 <= k < |packages| ==> '\\' !in packages[k]
    ensures IndexOf(DocumentText(content, documentClass, packages), BeginDocument)
            == |Header(documentClass, packages)|
  {
    var h := Header(documentClass, packages);
    var t := DocumentText(content, documentClass, packages);
    HeaderEscapes(documentClass, packages);
    assert BeginDocument[0] == '\\' && BeginDocument[1] == 'b';
    assert t[..|h|] == h;
    forall j | 0 <= j < |h| ensures !OccursAt(t, BeginDocument, j) {
      NoMarkerInEscaped(t, h, BeginDocument, "du", j);
    }
    IndexOfIs(t, BeginDocument, |h|);
  }

  /** The text in front of the content: header, begin marker and blank line. */
  function Front(documentClass: string, packages: seq<string>): string {
    Header(documentClass, packages) + BeginDocument + Opening
  }

  lemma FrontEscapes(documentClass: string, packages: seq<string>)
    requires '\\' !in documentClass
    requires forall k :: 0 <= k < |packages| ==> '\\' !in packages[k]
    ensures EscapesFollowedBy(Front(documentClass, packages), "dub")
  {
    var h := Header(documentClass, packages);
    HeaderEscapes(documentClass, packages);
    var bo := BeginDocument + Opening;
    assert EscapesFollowedBy(bo, "dub") by {
      assert bo == "\\begin{document}\n\n";
    }
    assert EscapesFollowedBy(h, "dub") by {
      forall j | 0 <= j < |h| && h[j] == '\\' ensures j + 1 < |h| && h[j + 1] in "dub" {
        assert h[j + 1] in "du";
      }
    }
    EscapesAppend(h, bo, "dub");
    assert h + bo == Front(documentClass, packages);
  }

  /** A marker that does not occur in `content` does not occur inside a copy of it. */
  lemma NoMarkerInside(t: string, c: nat, content: string, m: string, j: int)
    requires c + |content| <= |t| && t[c..c + |content|] == content
    requires !OccursAt(content, m, j - c)
    requires c <= j && j + |m| <= c + |content|
    ensures !OccursAt(t, m, j)
  {
    var i := j - c;
    var u := t[c..c + |content|];
    forall k | i <= k < i + |m| ensures u[k] == t[c + k] {
    }
    assert u[i..i + |m|] == t[j..j + |m|];
  }

  /** The first `\end{document}` of a built document is the closing one, when the content holds none. */
  lemma FirstEndOfDocument(content: string, documentClass: string, packages: seq<string>)
    requires '\\' !in documentClass
    requires forall k :: 0 <= k < |packages| ==> '\\' !in packages[k]
    requires !Contains(content, EndDocument)
    ensures IndexOf(DocumentText(content, documentClass, packages), EndDocument)
            == |Header(documentClass, packages)| + |BeginDocument| + |Opening| + |content| + |Closing|
  {
    var t := DocumentText(content, documentClass, packages);
    var front := Front(documentClass, packages);
    var c := |front|;
    var e := c + |content| + |Closing|;
    assert t == front + content + Closing + EndDocument + "\n";
    FrontEscapes(documentClass, packages);
    assert EndDocument[0] == '\\' && EndDocument[1] == 'e';
    assert t[..c] == front;
    assert t[c..c + |content|] == content;
    assert t[c + |content|] == '\n' && t[c + |content| + 1] == '\n';
    assert t[e..e + |EndDocument|] == EndDocument;
    IndexOfSpec(content, EndDocument);
    forall j | 0 <= j < e ensures !OccursAt(t, EndDocument, j) {
      if j < c {
        NoMarkerInEscaped(t, front, EndDocument, "dub", j);
      } else if j + |EndDocument| <= c + |content| {
        NoMarkerInside(t, c, content, EndDocument, j);
      } else {
        var q := if j <= c + |content| then c + |content| else j;
        NoMatchAcrossNewline(t, EndDocument, j, q);
      }
    }
    IndexOfIs(t, EndDocument, e);
  }

  /** Extraction once the two first marker positions and the text between them are known. */
  lemma ExtractBetween(t: string, h: nat, e: int, body: string)
    requires IndexOf(t, BeginDocument) == h
    requires IndexOf(t, EndDocument) == e
    requires e == h + |BeginDocument| + |body|
    requires t[h + |BeginDocument|..e] == body
    ensures ExtractDocumentContent(t) == Strip(body)
  {
  }

  /** Between the begin marker and the end marker lies the content padded by blank lines. */
  lemma DocumentBody(content: string, documentClass: string, packages: seq<string>)
    ensures var t := DocumentText(content, documentClass, packages);
      var b := |Header(documentClass, packages)| + |BeginDocument|;
      t[b..b + |Opening| + |content| + |Closing|] == Opening + content + Closing
  {
    var h := Header(documentClass, packages);
    MiddleOfSeven(h, BeginDocument, Opening, content, Closing, EndDocument, "\n");
  }

  /** In `a + b + c + d + e + f + g`, the part after `a + b` of length `|c| + |d| + |e|` is `c + d + e`. */
  lemma MiddleOfSeven(a: string, b: string, c: string, d: string, e: string, f: string, g: string)
    ensures var t := a + b + c + d + e + f + g;
      var i := |a| + |b|;
      t[i..i + |c| + |d| + |e|] == c + d + e
  {
    var t := a + b + c + d + e + f + g;
    assert t == (a + b) + (c + d + e) + (f + g);
  }

  /** Extraction from a built document yields the content with its blank-line padding stripped. */
  lemma ExtractOfDocumentPadded(content: string, documentClass: string, packages: seq<string>)
    requires '\\' !in documentClass
    requires forall k :: 0 <= k < |packages| ==> '\\' !in packages[k]
    requires !Contains(content, EndDocument)
    ensures ExtractDocumentContent(DocumentText(content, documentClass, packages)) == Strip(Opening + content + Closing)
  {
    var t := DocumentText(content, documentClass, packages);
    var h := |Header(documentClass, packages)|;
    FirstBeginOfDocument(content, documentClass, packages);
    FirstEndOfDocument(content, documentClass, packages);
    DocumentBody(content, documentClass, packages);
    ExtractBetween(t, h, h + |BeginDocument| + |Opening| + |content| + |Closing|, Opening + content + Closing);
  }

  /**
   * Extracting the body of a document built around `content` gives back the
   * stripped content, provided the class and packages hold no backslash and
   * the content does not itself contain `\end{document}`.
   */
  lemma ExtractOfDocument(content: string, documentClass: string, packages: seq<string>)
    requires '\\' !in documentClass
    requires forall k :: 0 <= k < |packages| ==> '\\' !in packages[k]
    requires !Contains(content, EndDocument)
    ensures ExtractDocumentContent(DocumentText(content, documentClass, packages)) == Strip(content)
  {
    ExtractOfDocumentPadded(content, documentClass, packages);
    StripPadded(Opening, content, Closing);
  }

  // Combining modules.

  predicate IsPrimaryName(f: string) {
    Name(f) == "main.tex" || Name(f) == "module.tex"
  }

  /** The position of the first `main.tex` or `module.tex` in a listing. */
  function FirstPrimary(tex: seq<string>): (r: Option<nat>)
    ensures r.Some? ==> r.value < |tex| && IsPrimaryName(tex[r.value])
  {
    var i := FirstWhere(tex, IsPrimaryName);
    if i < |tex| then Some(i) else None
  }

  /** There is no primary file exactly when none is reported, and the reported one is the first. */
  lemma FirstPrimarySpec(tex: seq<string>)
    ensures FirstPrimary(tex).None? <==> forall k :: 0 <= k < |tex| ==> !IsPrimaryName(tex[k])
    ensures FirstPrimary(tex).Some? ==> forall k :: 0 <= k < FirstPrimary(tex).value ==> !IsPrimaryName(tex[k])
  {
    FirstWhereIsFirst(tex, IsPrimaryName);
  }

  /**
   * The file `combine_modules` reads for one entry: for a directory, the first
   * `main.tex` or `module.tex` in listing order, else its first `.tex` entry;
   * any other path is taken as the file itself.
   */
  function ResolveModuleFile(fs: FileSystem, p: string): (r: Option<string>)
    ensures !IsDir(fs, p) ==> r == Some(p)
    ensures IsDir(fs, p) ==> (r.None? <==> Glob(fs, p, ".tex") == [])
  {
    if !IsDir(fs, p) then Some(p)
    else
      var tex := Glob(fs, p, ".tex");
      match FirstPrimary(tex)
      case Some(i) => Some(tex[i])
      case None => if |tex| > 0 then Some(tex[0]) else None
  }

  /** For a directory the primary file wins when there is one; otherwise the first `.tex` entry. */
  lemma ResolveModuleFileSpec(fs: FileSystem, p: string)
    requires IsDir(fs, p)
    ensures var tex := Glob(fs, p, ".tex");
      && ((exists k :: 0 <= k < |tex| && IsPrimaryName(tex[k])) ==>
            exists i :: 0 <= i < |tex| && ResolveModuleFile(fs, p) == Some(tex[i]) && IsPrimaryName(tex[i])
                        && forall k :: 0 <= k < i ==> !IsPrimaryName(tex[k]))
      && ((forall k :: 0 <= k < |tex| ==> !IsPrimaryName(tex[k])) && tex != [] ==> ResolveModuleFile(fs, p) == Some(tex[0]))
  {
    var tex := Glob(fs, p, ".tex");
    FirstPrimarySpec(tex);
    if FirstPrimary(tex).Some? {
      var i := FirstPrimary(tex).value;
      assert ResolveModuleFile(fs, p) == Some(tex[i]);
    }
  }

  /** The section title: the entry's stem with underscores as spaces, in title case. */
  function Heading(p: string): (h: string)
    ensures var stem := Stem(Name(p));
      && |h| == |stem|
      && forall k :: 0 <= k < |stem| ==>
        var c := if stem[k] == '_' then ' ' else stem[k];
        var wordStart := k == 0 || stem[k - 1] == '_' || !IsLetter(stem[k - 1]);
        h[k] == if wordStart then UpperChar(c) else LowerChar(c)
  {
    var stem := Stem(Name(p));
    var spaced := ReplaceChar(stem, '_', ' ');
    TitleSpec(spaced);
    Title(spaced)
  }

  /** What one entry contributes to the combined body, or None when it is skipped. */
  function ModuleSection(fs: FileSystem, p: string): (r: Option<string>)
    ensures r.Some? <==>
      && ResolveModuleFile(fs, p).Some?
      && Exists(fs, ResolveModuleFile(fs, p).value)
      && Read(fs, ResolveModuleFile(fs, p).value).Success?
    ensures r.Some? ==>
      r.value == "\\section{" + Heading(p) + "}\n"
                 + ExtractDocumentContent(Read(fs, ResolveModuleFile(fs, p).value).value) + "\n\n"
  {
    match ResolveModuleFile(fs, p)
    case None => None
    case Some(f) =>
      if !Exists(fs, f) then None
      else
        match Read(fs, f)
        case Failure(_) => None
        case Success(text) =>
          Some("\\section{" + Heading(p) + "}\n" + ExtractDocumentContent(text) + "\n\n")
  }

  /** The section text of one entry, empty when it is skipped. */
  function SectionText(fs: FileSystem): string -> string {
    (p: string) => ModuleSection(fs, p).GetOr("")
  }

  /** The body `combine_modules` assembles: the sections of the readable entries, in the given order. */
  function CombinedBody(fs: FileSystem, paths: seq<string>): (r: string)
    ensures |paths| == 0 ==> r == ""
  {
    Concat(Map(paths, SectionText(fs)))
  }

  /** Combining two lists of modules is combining each and concatenating, so order is kept. */
  lemma CombinedBodyAppend(fs: FileSystem, a: seq<string>, b: seq<string>)
    ensures CombinedBody(fs, a + b) == CombinedBody(fs, a) + CombinedBody(fs, b)
  {
    MapAppend(a, b, SectionText(fs));
    ConcatAppend(Map(a, SectionText(fs)), Map(b, SectionText(fs)));
  }

  /** A single entry contributes its section, or nothing when it is skipped. */
  lemma CombinedBodySingle(fs: FileSystem, p: string)
    ensures CombinedBody(fs, [p]) == ModuleSection(fs, p).GetOr("")
  {
    ConcatMapSingle(p, SectionText(fs));
  }

  const CombinedFilename: string := "combined_course.tex"

  /** `combine_modules`: the combined body wrapped in a default document. */
  function CombineModules(fs: FileSystem, dir: string, paths: seq<string>, filename: string,
                          writeFailure: Option<string>): (r: Result<Written, string>)
    ensures r.Success? <==> Name(Join(dir, filename)) != "" && writeFailure.None?
    ensures Name(Join(dir, filename)) != "" && writeFailure.Some? ==> r == Failure(writeFailure.value)
    ensures r.Success? ==>
      && r.value.path == OutputPath(dir, filename).value
      && r.value.text == DocumentText(CombinedBody(fs, paths), DefaultClass, DefaultPackages)
  {
    CreateLatexDocument(dir, CombinedBody(fs, paths), filename, DefaultClass, None, writeFailure)
  }

  /** The default class and packages hold no backslash, so they cannot forge a marker. */
  lemma DefaultsArePlain()
    ensures '\\' !in DefaultClass
    ensures forall k :: 0 <= k < |DefaultPackages| ==> '\\' !in DefaultPackages[k]
  {
    assert forall j :: 0 <= j < |DefaultClass| ==> DefaultClass[j] != '\\';
    forall k | 0 <= k < |DefaultPackages| ensures '\\' !in DefaultPackages[k] {
      var p := DefaultPackages[k];
      assert forall j :: 0 <= j < |p| ==> p[j] != '\\';
    }
  }

  /** Reading the body back out of the combined file gives the sections, stripped. */
  lemma CombineModulesExtract(fs: FileSystem, dir: string, paths: seq<string>, filename: string,
                              writeFailure: Option<string>)
    requires CombineModules(fs, dir, paths, filename, writeFailure).Success?
    requires !Contains(CombinedBody(fs, paths), EndDocument)
    ensures ExtractDocumentContent(CombineModules(fs, dir, paths, filename, writeFailure).value.text) == Strip(CombinedBody(fs, paths))
  {
    ExtractOfCreated(dir, CombinedBody(fs, paths), filename, writeFailure);
  }

  /** A document created with the default class and packages gives back its stripped body. */
  lemma ExtractOfCreated(dir: string, body: string, filename: string, writeFailure: Option<string>)
    requires CreateLatexDocument(dir, body, filename, DefaultClass, None, writeFailure).Success?
    requires !Contains(body, EndDocument)
    ensures ExtractDocumentContent(CreateLatexDocument(dir, body, filename, DefaultClass, None, writeFailure).value.text) == Strip(body)
  {
    DefaultsArePlain();
    ExtractOfDocument(body, DefaultClass, DefaultPackages);
  }

  // Cleaning and copying.

  /** Some extension in `exts` ends `n`. */
  predicate EndsWithSome(n: string, exts: seq<string>) {
    exists k :: 0 <= k < |exts| && EndsWith(n, exts[k])
  }

  /** Some extension in `exts` ends the name of `p`. */
  predicate EndsWithAny(p: string, exts: seq<string>) {
    EndsWithSome(Name(p), exts)
  }

  lemma EndsWithSomeCons(n: string, exts: seq<string>)
    requires exts != []
    ensures EndsWithSome(n, exts) <==> EndsWith(n, exts[0]) || EndsWithSome(n, exts[1..])
  {
    if EndsWithSome(n, exts) {
      var k :| 0 <= k < |exts| && EndsWith(n, exts[k]);
      if k > 0 { assert exts[1..][k - 1] == exts[k]; }
    }
    if EndsWithSome(n, exts[1..]) {
      var k :| 0 <= k < |exts[1..]| && EndsWith(n, exts[1..][k]);
      assert exts[k + 1] == exts[1..][k];
    }
  }

  /** A file the recursive glob for `ext` under `d` finds: anything below `d` whose name ends in `ext`. */
  predicate MatchedBelow(e: Entry, d: string, ext: string) {
    Below(e.path, d) && EndsWith(Name(e.path), ext)
  }

  /** The entries one `unlink` pass for `ext` removes: the matched files (directories fail to unlink). */
  predicate RemovedBy(e: Entry, d: string, ext: string) {
    e.kind.File? && MatchedBelow(e, d, ext)
  }

  function SurvivesTest(d: string, ext: string): Entry -> bool {
    (e: Entry) => !RemovedBy(e, d, ext)
  }

  /** One pass of `clean_temp_files`, for one extension. */
  function RemovePass(fs: FileSystem, d: string, ext: string): (r: FileSystem)
    ensures forall e :: e in r <==> e in fs && !RemovedBy(e, d, ext)
  {
    Filter(fs, SurvivesTest(d, ext))
  }

  /** The passes of `clean_temp_files`, one per extension, in order. */
  function RemovePasses(fs: FileSystem, d: string, exts: seq<string>): FileSystem
    decreases |exts|
  {
    if |exts| == 0 then fs else RemovePasses(RemovePass(fs, d, exts[0]), d, exts[1..])
  }

  /** After all passes, exactly the files below `d` whose name ends in one of the extensions are gone. */
  lemma {:induction false} RemovePassesSpec(fs: FileSystem, d: string, exts: seq<string>)
    ensures forall e :: e in RemovePasses(fs, d, exts) <==>
      e in fs && !(e.kind.File? && Below(e.path, d) && EndsWithAny(e.path, exts))
    ensures multiset(RemovePasses(fs, d, exts)) <= multiset(fs)
    decreases |exts|
  {
    if |exts| > 0 {
      var once := RemovePass(fs, d, exts[0]);
      RemovePassesSpec(once, d, exts[1..]);
      forall e ensures e in RemovePasses(fs, d, exts) <==>
        e in fs && !(e.kind.File? && Below(e.path, d) && EndsWithAny(e.path, exts))
      {
        EndsWithSomeCons(Name(e.path), exts);
      }
    }
  }

  /**
   * `clean_temp_files`: the listing after the byproducts below `d` are unlinked.
   * A missing directory leaves everything as it was.
   */
  function CleanTempFiles(fs: FileSystem, d: string, exts: Option<seq<string>>): (r: FileSystem)
    ensures !Exists(fs, d) ==> r == fs
  {
    if !Exists(fs, d) then fs else RemovePasses(fs, d, exts.GetOr(ByproductExtensions))
  }

  /** Cleaning removes exactly the byproduct files below `d`, and nothing is added. */
  lemma CleanTempFilesSpec(fs: FileSystem, d: string, exts: Option<seq<string>>)
    ensures Exists(fs, d) ==> forall e :: e in CleanTempFiles(fs, d, exts) <==>
      e in fs && !(e.kind.File? && Below(e.path, d) && EndsWithAny(e.path, exts.GetOr(ByproductExtensions)))
    ensures multiset(CleanTempFiles(fs, d, exts)) <= multiset(fs)
  {
    RemovePassesSpec(fs, d, exts.GetOr(ByproductExtensions));
  }

  /** A byproduct file joined onto an existing directory, the current one included, is unlinked. */
  lemma CleanRemovesJoined(fs: FileSystem, d: string, n: string, data: FileData)
    requires Exists(fs, d)
    requires n != "" && n != "." && n[0] != '/'
    requires EndsWithAny(Join(d, n), ByproductExtensions)
    ensures Entry(Join(d, n), File(data)) !in CleanTempFiles(fs, d, None)
  {
    CleanTempFilesSpec(fs, d, None);
    JoinIsBelow(d, n);
  }

  /** Where `copy_resources` puts a file found below `source`: the same relative path below `target`. */
  function CopyTarget(f: string, source: string, target: string): string {
    Join(target, RelativeTo(f, source))
  }

  /** A file one glob pass of `copy_resources` copies successfully. */
  predicate CopiedBy(e: Entry, source: string, ext: string, failing: set<string>) {
    RemovedBy(e, source, ext) && e.path !in failing
  }

  function CopyTest(source: string, ext: string, failing: set<string>): Entry -> bool {
    (e: Entry) => CopiedBy(e, source, ext, failing)
  }

  /** The target of each found entry, in order. */
  function TargetsOf(es: seq<Entry>, source: string, target: string): (r: seq<string>)
    ensures |r| == |es|
    ensures forall k :: 0 <= k < |es| ==> r[k] == CopyTarget(es[k].path, source, target)
  {
    seq(|es|, k requires 0 <= k < |es| => CopyTarget(es[k].path, source, target))
  }

  lemma TargetFromEntry(es: seq<Entry>, source: string, target: string, x: string)
    requires x in TargetsOf(es, source, target)
    ensures exists e :: e in es && x == CopyTarget(e.path, source, target)
  {
    var r := TargetsOf(es, source, target);
    var k :| 0 <= k < |r| && r[k] == x;
    assert es[k] in es;
  }

  lemma EntryHasTarget(es: seq<Entry>, source: string, target: string, e: Entry)
    requires e in es
    ensures CopyTarget(e.path, source, target) in TargetsOf(es, source, target)
  {
    var k :| 0 <= k < |es| && es[k] == e;
    assert TargetsOf(es, source, target)[k] == CopyTarget(e.path, source, target);
  }

  /** The targets of one glob pass of `copy_resources`, in walk order; `failing` are the files whose copy raises. */
  function CopyPass(fs: FileSystem, source: string, target: string, ext: string, failing: set<string>): (r: seq<string>)
    ensures forall x :: x in r <==>
      exists e :: e in fs && CopiedBy(e, source, ext, failing) && x == CopyTarget(e.path, source, target)
  {
    var found := Filter(fs, CopyTest(source, ext, failing));
    var r := TargetsOf(found, source, target);
    forall x ensures x in r <==> exists e :: e in fs && CopiedBy(e, source, ext, failing) && x == CopyTarget(e.path, source, target) {
      if x in r {
        TargetFromEntry(found, source, target, x);
        var e :| e in found && x == CopyTarget(e.path, source, target);
        InFilter(fs, CopyTest(source, ext, failing), e);
      }
      if exists e :: e in fs && CopiedBy(e, source, ext, failing) && x == CopyTarget(e.path, source, target) {
        var e :| e in fs && CopiedBy(e, source, ext, failing) && x == CopyTarget(e.path, source, target);
        KeptByFilter(fs, CopyTest(source, ext, failing), e);
        EntryHasTarget(found, source, target, e);
      }
    }
    r
  }

  function CopyPasses(fs: FileSystem, source: string, target: string, exts: seq<string>, failing: set<string>): (r: seq<string>)
    ensures forall x :: x in r <==>
      exists e :: e in fs && e.kind.File? && Below(e.path, source) && EndsWithAny(e.path, exts)
                  && e.path !in failing && x == CopyTarget(e.path, source, target)
    decreases |exts|
  {
    if |exts| == 0 then []
    else
      var r := CopyPass(fs, source, target, exts[0], failing) + CopyPasses(fs, source, target, exts[1..], failing);
      forall p: string ensures EndsWithAny(p, exts) <==> EndsWith(Name(p), exts[0]) || EndsWithAny(p, exts[1..]) {
        EndsWithSomeCons(Name(p), exts);
      }
      r
  }

  /**
   * `copy_resources`: the target path of every file below `source` whose name
   * ends in one of the extensions (default: the image extensions), one glob
   * pass per extension; nothing when `source` is missing.
   */
  function CopyResources(fs: FileSystem, source: string, target: string,
                         exts: Option<seq<string>>, failing: set<string>): (r: seq<string>)
    ensures !Exists(fs, source) ==> r == []
    ensures Exists(fs, source) ==> forall x :: x in r <==>
      exists e :: e in fs && e.kind.File? && Below(e.path, source) && EndsWithAny(e.path, exts.GetOr(ImageExtensions))
                  && e.path !in failing && x == CopyTarget(e.path, source, target)
  {
    if !Exists(fs, source) then [] else CopyPasses(fs, source, target, exts.GetOr(ImageExtensions), failing)
  }

  /**
   * A copied file keeps its path relative to the source, now relative to the target.
   * A listed path is normalised, so what follows the source is not ".".
   */
  lemma CopyTargetMirrors(f: string, source: string, target: string)
    requires source == "" || source[|source| - 1] != '/'
    requires StartsWith(f, source + "/") && |f| > |source| + 1 && f[|source| + 1] != '/'
    requires f[|source| + 1..] != "."
    requires target != "" && target != "." && target[|target| - 1] != '/'
    ensures CopyTarget(f, source, target) == target + "/" + f[|source| + 1..]
    ensures RelativeTo(CopyTarget(f, source, target), target) == RelativeTo(f, source)
  {
    RelativeToJoin(target, f[|source| + 1..]);
  }
}

=== FILE: fs.dfy ===
/**
 * A read-only snapshot of the disk. Entries appear in the order the operating
 * system lists them, which is the order `iterdir`, `glob` and `rglob` yield.
 */
module Fs {
  import opened Wrappers
  import opened Seqs
  import opened Text
  import opened Paths

  /** What `open(p, encoding='utf-8').read()` yields for a regular file. */
  datatype FileData = Readable(text: string) | Unreadable(reason: string)

  datatype Kind = Directory | File(data: FileData)

  datatype Entry = Entry(path: string, kind: Kind)

  type FileSystem = seq<Entry>

  /** The kind of the first entry at `p`, if any. */
  function Lookup(fs: FileSystem, p: string): (r: Option<Kind>)
  {
    if |fs| == 0 then None
    else if fs[0].path == p then Some(fs[0].kind)
    else Lookup(fs[1..], p)
  }

  /** `p` is found exactly when some entry has that path, and then with the kind of such an entry. */
  lemma {:induction false} LookupSpec(fs: FileSystem, p: string)
    ensures Lookup(fs, p).Some? <==> exists i :: 0 <= i < |fs| && fs[i].path == p
    ensures Lookup(fs, p).Some? ==> exists i :: 0 <= i < |fs| && fs[i] == Entry(p, Lookup(fs, p).value)
  {
    if |fs| > 0 && fs[0].path != p {
      LookupSpec(fs[1..], p);
      assert forall i :: 1 <= i < |fs| ==> fs[i] == fs[1..][i - 1];
    }
  }

  /** `Path(p).exists()`. */
  predicate Exists(fs: FileSystem, p: string) {
    Lookup(fs, p).Some?
  }

  /** `Path(p).is_dir()`. */
  predicate IsDir(fs: FileSystem, p: string) {
    Lookup(fs, p) == Some(Directory)
  }

  /** `Path(p).is_file()`. */
  predicate IsFile(fs: FileSystem, p: string) {
    Lookup(fs, p).Some? && Lookup(fs, p).value.File?
  }

  /** Reading `p` as UTF-8 text: missing paths, directories and undecodable files raise. */
  function Read(fs: FileSystem, p: string): (r: Result<string, string>)
    ensures r.Success? <==> IsFile(fs, p) && Lookup(fs, p).value.data.Readable?
  {
    match Lookup(fs, p)
    case None => Failure("No such file or directory")
    case Some(Directory) => Failure("Is a directory")
    case Some(File(Unreadable(reason))) => Failure(reason)
    case Some(File(Readable(text))) => Success(text)
  }

  /** `p` is an immediate entry of directory `d`. */
  predicate ChildOf(p: string, d: string) {
    Name(p) != "" && Join(d, Name(p)) == p
  }

  /** `Path(d).iterdir()`. */
  function Children(fs: FileSystem, d: string): seq<Entry> {
    Filter(fs, (e: Entry) => ChildOf(e.path, d))
  }

  /**
   * `p` lies somewhere below `d`: some non-empty relative path joined onto `d`
   * gives `p`, so every relative path lies below the current directory.
   */
  predicate Below(p: string, d: string) {
    if d == "" || d == "." then p != "" && p != "." && p[0] != '/'
    else if d[|d| - 1] == '/' then StartsWith(p, d) && p != d
    else StartsWith(p, d + "/")
  }

  /** Joining a non-empty relative path onto any directory, the current one included, lands below it. */
  lemma JoinIsBelow(d: string, n: string)
    requires n != "" && n != "." && n[0] != '/'
    ensures Below(Join(d, n), d)
  {
    if d != "" && d != "." && d[|d| - 1] != '/' {
      assert (d + "/" + n)[..|d + "/"|] == d + "/";
    } else if d != "" && d != "." {
      assert (d + n)[..|d|] == d;
    }
  }

  /** Every entry below `d`, at any depth: the walk behind `rglob` and recursive `glob`. */
  function Descendants(fs: FileSystem, d: string): seq<Entry> {
    Filter(fs, (e: Entry) => Below(e.path, d))
  }

  /** The paths of some entries, in order. */
  function PathsOf(es: seq<Entry>): (r: seq<string>)
    ensures |r| == |es|
    ensures forall k :: 0 <= k < |es| ==> r[k] == es[k].path
  {
    seq(|es|, k requires 0 <= k < |es| => es[k].path)
  }

  /** A path is listed exactly when some entry has it. */
  lemma InPathsOf(es: seq<Entry>, x: string)
    ensures x in PathsOf(es) <==> exists e :: e in es && x == e.path
  {
    if x in PathsOf(es) {
      var k :| 0 <= k < |es| && PathsOf(es)[k] == x;
      assert es[k] in es;
    }
  }

  /** `Path(d).glob('*' + ext)`: entries of `d` (files or directories) whose name ends in `ext`. */
  function Glob(fs: FileSystem, d: string, ext: string): seq<string> {
    PathsOf(Filter(Children(fs, d), (e: Entry) => EndsWith(Name(e.path), ext)))
  }

  /** The glob finds exactly the immediate entries of `d` whose name ends in `ext`. */
  lemma GlobMembers(fs: FileSystem, d: string, ext: string, x: string)
    ensures x in Glob(fs, d, ext) <==> exists e :: e in fs && ChildOf(e.path, d) && EndsWith(Name(e.path), ext) && x == e.path
  {
    InPathsOf(Filter(Children(fs, d), (e: Entry) => EndsWith(Name(e.path), ext)), x);
  }

  /** Recursive `Path(d).glob` for the pattern "any depth, name ending in ext": entries below `d` whose name ends in `ext`. */
  function DeepGlob(fs: FileSystem, d: string, ext: string): seq<Entry> {
    Filter(Descendants(fs, d), (e: Entry) => EndsWith(Name(e.path), ext))
  }

  /** The first of `names` that exists inside `d`. */
  function FirstExisting(fs: FileSystem, d: string, names: seq<string>): (r: Option<string>)
    ensures r.Some? ==> Exists(fs, r.value)
  {
    if |names| == 0 then None
    else if Exists(fs, Join(d, names[0])) then Some(Join(d, names[0]))
    else FirstExisting(fs, d, names[1..])
  }

  /** Whether a name is present inside `d`. */
  function PresentIn(fs: FileSystem, d: string): string -> bool {
    (n: string) => Exists(fs, Join(d, n))
  }

  /** `FirstExisting` joins the first name present, as located by `FirstWhere`. */
  lemma {:induction false} FirstExistingIsFirstWhere(fs: FileSystem, d: string, names: seq<string>)
    ensures var i := FirstWhere(names, PresentIn(fs, d));
      FirstExisting(fs, d, names) == if i < |names| then Some(Join(d, names[i])) else None
  {
    if |names| > 0 && !PresentIn(fs, d)(names[0]) {
      FirstExistingIsFirstWhere(fs, d, names[1..]);
      var i := FirstWhere(names[1..], PresentIn(fs, d));
      if i < |names[1..]| {
        assert names[1..][i] == names[i + 1];
      }
    }
  }

  /** `FirstExisting` finds the earliest candidate present, and finds none only when none is present. */
  lemma FirstExistingSpec(fs: FileSystem, d: string, names: seq<string>)
    ensures var r := FirstExisting(fs, d, names);
      && (r.None? <==> forall k :: 0 <= k < |names| ==> !Exists(fs, Join(d, names[k])))
      && (r.Some? ==> exists k :: 0 <= k < |names| && r.value == Join(d, names[k])
                        && forall j :: 0 <= j < k ==> !Exists(fs, Join(d, names[j])))
  {
    var present := PresentIn(fs, d);
    var i := FirstWhere(names, present);
    FirstExistingIsFirstWhere(fs, d, names);
    FirstWhereIsFirst(names, present);
    forall k | 0 <= k < i ensures !Exists(fs, Join(d, names[k])) {
      assert !present(names[k]);
    }
    if i < |names| {
      assert present(names[i]);
    }
  }


}

=== FILE: latex.dfy ===
/** Fixed LaTeX vocabulary shared by the validator, the file manager and the compiler driver. */
module Latex {
  import opened Paths

  const BeginDocument: string := "\\begin{document}"
  const EndDocument: string := "\\end{document}"
  const DocumentClass: string := "\\documentclass"

  /** Extensions counted as images (module_validator.py, file_manager.py). */
  const ImageExtensions: seq<string> := [".png", ".jpg", ".jpeg", ".pdf", ".svg", ".eps", ".gif", ".bmp"]

  /** Byproducts of a LaTeX run (file_manager.py, latex_compiler.py). */
  const ByproductExtensions: seq<string> := [".aux", ".log", ".out", ".toc", ".bbl", ".blg", ".fls", ".fdb_latexmk"]

  /** Every byproduct extension is a suffix `with_suffix` accepts and `suffix` reads back. */
  lemma ByproductExtensionsArePlain()
    ensures forall k :: 0 <= k < |ByproductExtensions| ==> PlainSuffix(ByproductExtensions[k])
  {
    forall k | 0 <= k < |ByproductExtensions| ensures PlainSuffix(ByproductExtensions[k]) {
      var e := ByproductExtensions[k];
      assert |e| >= 2 && e[0] == '.';
      assert forall j :: 1 <= j < |e| ==> e[j] != '.' && e[j] != '/';
      assert forall j :: 0 <= j < |e[1..]| ==> e[1..][j] == e[j + 1];
    }
  }
}

=== FILE: latex_compiler.dfy ===
/**
 * The compile driver (latex_compiler.py). The compiler process is an oracle:
 * each call is given what the version probe and the compile run did.
 */
module LatexCompiler {
  import opened Wrappers
  import opened Text
  import opened Paths
  import opened Fs
  import opened Latex

  /** How the `--version` probe ended. */
  datatype Probe = ProbeExited(code: int) | ProbeTimedOut | ProbeNotFound

  /** How the compile run ended; `pdfWritten` says whether the expected PDF exists afterwards. */
  datatype Run =
    | Exited(code: int, stdout: string, stderr: string, pdfWritten: bool)
    | TimedOut
    | Raised(message: string)

  /** Everything one `compile_tex_file` call observes from outside. */
  datatype Attempt = Attempt(sourceExists: bool, probe: Probe, run: Run)

  datatype Compiler = Compiler(command: string, tempDir: string)

  /** `LaTeXCompiler(compiler_cmd, temp_dir)`: an empty or absent directory is replaced by a fresh one. */
  function NewCompiler(command: string, tempDir: Option<string>, mkdtemp: string): (c: Compiler)
    ensures c.command == command
    ensures tempDir.Some? && tempDir.value != "" ==> c.tempDir == tempDir.value
    ensures tempDir.None? || tempDir.value == "" ==> c.tempDir == mkdtemp
  {
    Compiler(command, if tempDir.Some? && tempDir.value != "" then tempDir.value else mkdtemp)
  }

  /** `check_latex_installation`: the probe exited with status 0; a timeout or a missing binary is just false. */
  predicate CheckInstallation(p: Probe) {
    p.ProbeExited? && p.code == 0
  }

  datatype CompileResult = CompileResult(
    success: bool,
    error: Option<string>,
    outputPath: Option<string>,
    log: Option<string>)

  const TimeoutError: string := "Compilation timed out after 5 minutes"

  /** The directory the PDF goes to: the argument unless it is absent or empty. */
  function OutputDirectory(c: Compiler, outputDir: Option<string>): (d: string)
    ensures outputDir.Some? && outputDir.value != "" ==> d == outputDir.value
    ensures outputDir.None? || outputDir.value == "" ==> d == c.tempDir
  {
    if outputDir.Some? && outputDir.value != "" then outputDir.value else c.tempDir
  }

  /** `<output directory>/<stem>.pdf`. */
  function PdfPath(tex: string, dir: string): (p: string)
    ensures Name(p) == Stem(Name(tex)) + ".pdf"
  {
    var n := Stem(Name(tex)) + ".pdf";
    assert '/' !in n by {
      StemOfNameOrEmpty(tex);
    }
    NameOfJoin(dir, n);
    Join(dir, n)
  }

  /** The stem of a final component never contains a separator. */
  lemma StemOfNameOrEmpty(p: string)
    ensures '/' !in Stem(Name(p))
  {
    var name := Name(p);
    StemSuffix(name);
    var stem := Stem(name);
    assert forall k :: 0 <= k < |stem| ==> stem[k] == name[k];
  }

  /** `compile_tex_file` for one observed attempt. */
  function CompileTexFile(c: Compiler, tex: string, outputDir: Option<string>, a: Attempt): (r: CompileResult)
    ensures r.success <==>
      a.sourceExists && CheckInstallation(a.probe) && a.run.Exited? && a.run.code == 0 && a.run.pdfWritten
    ensures r.success <==> r.error.None?
    ensures r.outputPath.Some? <==> r.success
    ensures r.success ==> r.outputPath.value == PdfPath(tex, OutputDirectory(c, outputDir))
    ensures !a.sourceExists ==> r.error == Some("LaTeX file not found: " + tex) && r.log.None?
    ensures a.sourceExists && !CheckInstallation(a.probe) ==>
      r.error == Some("LaTeX compiler not found: " + c.command) && r.log.None?
    ensures a.sourceExists && CheckInstallation(a.probe) ==>
      && (a.run.TimedOut? ==> r.error == Some(TimeoutError))
      && (a.run.Raised? ==> r.error == Some("Compilation error: " + a.run.message))
      && (a.run.Exited? ==> r.log == Some(a.run.stdout))
      && (a.run.Exited? && !r.success ==> r.error == Some("Compilation failed: " + a.run.stderr))
  {
    if !a.sourceExists then
      CompileResult(false, Some("LaTeX file not found: " + tex), None, None)
    else if !CheckInstallation(a.probe) then
      CompileResult(false, Some("LaTeX compiler not found: " + c.command), None, None)
    else
      var dir := OutputDirectory(c, outputDir);
      match a.run
      case Exited(code, stdout, stderr, pdfWritten) =>
        if code == 0 && pdfWritten then CompileResult(true, None, Some(PdfPath(tex, dir)), Some(stdout))
        else CompileResult(false, Some("Compilation failed: " + stderr), None, Some(stdout))
      case TimedOut => CompileResult(false, Some(TimeoutError), None, None)
      case Raised(message) => CompileResult(false, Some("Compilation error: " + message), None, None)
  }

  /**
   * A failed installation check ends the call before the compile run: neither
   * the run nor the output directory matters, and only an exit status 0 passes.
   */
  lemma CompilerMissingSkipsRun(c: Compiler, tex: string, outputDir: Option<string>, outputDir': Option<string>,
                                a: Attempt, run': Run)
    requires a.sourceExists && !CheckInstallation(a.probe)
    ensures a.probe.ProbeExited? ==> a.probe.code != 0
    ensures CompileTexFile(c, tex, outputDir, a) == CompileTexFile(c, tex, outputDir', a.(run := run'))
    ensures !CompileTexFile(c, tex, outputDir, a).success
  {
  }

  /** The timeout message is not one of the "Compilation failed: " messages. */
  lemma TimeoutIsDistinct(stderr: string)
    ensures TimeoutError != "Compilation failed: " + stderr
  {
    assert TimeoutError[12] == 't';
    assert ("Compilation failed: " + stderr)[12] == 'f';
  }

  /** The result of a multi-pass compile and how many times the compiler was run. */
  datatype PassOutcome = PassOutcome(result: Option<CompileResult>, invocations: nat)

  /** What each successive `compile_tex_file` call returns when pass `k` observes `world(k)`. */
  function Runs(c: Compiler, tex: string, outputDir: Option<string>, world: nat -> Attempt): nat -> CompileResult {
    (k: nat) => CompileTexFile(c, tex, outputDir, world(k))
  }

  /**
   * The rules of `compile_multiple_passes`: no pass at all gives no result; otherwise
   * between one and `passes` runs, every run but the last succeeded, the result is the
   * last run's, and stopping early means that run failed.
   */
  predicate StoppedCorrectly(passes: int, runs: nat -> CompileResult, o: PassOutcome) {
    && (passes <= 0 ==> o == PassOutcome(None, 0))
    && (passes > 0 ==>
          && 1 <= o.invocations <= passes
          && o.result == Some(runs(o.invocations - 1))
          && (forall k: nat :: k < o.invocations - 1 ==> runs(k).success)
          && (o.invocations < passes ==> !o.result.value.success))
  }

  /** Passes `i` onwards, `previous` being the last result so far. */
  function PassesFrom(passes: int, runs: nat -> CompileResult, i: nat, previous: Option<CompileResult>): (o: PassOutcome)
    requires 0 < i <= passes || (i == 0 && previous.None?)
    requires i > 0 ==> previous == Some(runs(i - 1))
    requires forall k: nat :: k < i ==> runs(k).success
    ensures i <= o.invocations
    ensures StoppedCorrectly(passes, runs, o)
    decreases passes - i
  {
    if i as int >= passes then PassOutcome(previous, i)
    else
      var r := runs(i);
      if !r.success then PassOutcome(Some(r), i + 1)
      else PassesFrom(passes, runs, i + 1, Some(r))
  }

  /** `compile_multiple_passes`: at most `passes` runs, stopping after the first failed one. */
  function MultiPass(c: Compiler, tex: string, outputDir: Option<string>, passes: int,
                     world: nat -> Attempt): (o: PassOutcome)
    ensures StoppedCorrectly(passes, Runs(c, tex, outputDir, world), o)
  {
    PassesFrom(passes, Runs(c, tex, outputDir, world), 0, None)
  }

  /** The loop of `compile_multiple_passes`, run pass by pass. */
  method CompileMultiplePasses(c: Compiler, tex: string, outputDir: Option<string>, passes: int,
                               world: nat -> Attempt) returns (result: Option<CompileResult>, invocations: nat)
    ensures StoppedCorrectly(passes, Runs(c, tex, outputDir, world), PassOutcome(result, invocations))
  {
    var runs := Runs(c, tex, outputDir, world);
    result := None;
    invocations := 0;
    while invocations as int < passes
      invariant invocations as int <= passes || invocations == 0
      invariant invocations == 0 <==> result.None?
      invariant invocations > 0 ==> result == Some(runs(invocations - 1))
      invariant forall k: nat :: k < invocations ==> runs(k).success
      decreases passes - invocations
    {
      var r := runs(invocations);
      result := Some(r);
      invocations := invocations + 1;
      if !r.success {
        return;
      }
    }
  }

  /** The stopping rules pin the outcome down: any outcome obeying them is the recursive one. */
  lemma StoppedCorrectlyIsUnique(passes: int, runs: nat -> CompileResult, o: PassOutcome, o': PassOutcome)
    requires StoppedCorrectly(passes, runs, o)
    requires StoppedCorrectly(passes, runs, o')
    ensures o == o'
  {
  }

  /** The loop and the recursive definition agree on every world. */
  lemma MultiPassIsUnique(c: Compiler, tex: string, outputDir: Option<string>, passes: int,
                          world: nat -> Attempt, o: PassOutcome)
    requires StoppedCorrectly(passes, Runs(c, tex, outputDir, world), o)
    ensures o == MultiPass(c, tex, outputDir, passes, world)
  {
    StoppedCorrectlyIsUnique(passes, Runs(c, tex, outputDir, world), o, MultiPass(c, tex, outputDir, passes, world));
  }

  /** A successful multi-pass build names the PDF of its source in the output directory. */
  lemma MultiPassOutput(c: Compiler, tex: string, outputDir: Option<string>, passes: int, world: nat -> Attempt)
    requires passes > 0
    ensures var o := MultiPass(c, tex, outputDir, passes, world);
      && o.result.Some?
      && (o.result.value.success ==> o.result.value.outputPath == Some(PdfPath(tex, OutputDirectory(c, outputDir))))
      && (o.result.value.success && outputDir.Some? && outputDir.value != "" ==>
            o.result.value.outputPath == Some(PdfPath(tex, outputDir.value)))
  {
    var o := MultiPass(c, tex, outputDir, passes, world);
    assert o.result == Some(CompileTexFile(c, tex, outputDir, world(o.invocations - 1)));
  }

  /** The path `p` once with each of `exts` in place of its suffix, in order. */
  function WithEachSuffix(p: string, exts: seq<string>): (r: seq<string>)
    requires Name(p) != ""
    requires forall k :: 0 <= k < |exts| ==> PlainSuffix(exts[k])
    ensures |r| == |exts|
    ensures forall k :: 0 <= k < |r| ==>
      && DirPrefix(r[k]) == DirPrefix(p)
      && Stem(Name(r[k])) == Stem(Name(p))
      && Suffix(Name(r[k])) == exts[k]
  {
    if exts == [] then []
    else
      WithSuffixParts(p, exts[0]);
      var rest := WithEachSuffix(p, exts[1..]);
      var r := [WithSuffix(p, exts[0])] + rest;
      forall k | 0 <= k < |r|
        ensures DirPrefix(r[k]) == DirPrefix(p) && Stem(Name(r[k])) == Stem(Name(p)) && Suffix(Name(r[k])) == exts[k]
      {
        if k > 0 {
          assert r[k] == rest[k - 1] && exts[k] == exts[1..][k - 1];
        }
      }
      r
  }

  /** `cleanup_temp_files`: the source path with each byproduct extension in place of its suffix. */
  function CleanupTargets(tex: string): (r: Result<seq<string>, string>)
    ensures r.Failure? <==> Name(tex) == ""
    ensures r.Success? ==>
      && |r.value| == |ByproductExtensions|
      && forall k :: 0 <= k < |r.value| ==>
        && DirPrefix(r.value[k]) == DirPrefix(tex)
        && Stem(Name(r.value[k])) == Stem(Name(tex))
        && Suffix(Name(r.value[k])) == ByproductExtensions[k]
  {
    if Name(tex) == "" then Failure("has an empty name")
    else
      ByproductExtensionsArePlain();
      Success(WithEachSuffix(tex, ByproductExtensions))
  }

  predicate UnlinkedBy(e: Entry, targets: seq<string>) {
    e.kind.File? && e.path in targets
  }

  /** The listing after `cleanup_temp_files`: exactly the existing target files are gone. */
  function CleanupTempFiles(fs: FileSystem, tex: string): (r: Result<FileSystem, string>)
    ensures r.Failure? <==> Name(tex) == ""
    ensures r.Success? ==> forall e :: e in r.value <==> e in fs && !UnlinkedBy(e, CleanupTargets(tex).value)
  {
    var targets :- CleanupTargets(tex);
    Success(Seqs.Filter(fs, (e: Entry) => !UnlinkedBy(e, targets)))
  }

  /** `get_compilation_log`: the text of the `.log` next to the source, if it exists and reads; `with_suffix` raises on an empty name. */
  function CompilationLog(fs: FileSystem, tex: string): (r: Result<Option<string>, string>)
    ensures r.Failure? <==> Name(tex) == ""
    ensures r.Success? ==> (r.value.Some? <==> Read(fs, WithSuffix(tex, ".log")).Success?)
    ensures r.Success? && r.value.Some? ==> r.value.value == Read(fs, WithSuffix(tex, ".log")).value
  {
    if Name(tex) == "" then Failure("has an empty name")
    else
      var p := WithSuffix(tex, ".log");
      if !Exists(fs, p) then Success(None)
      else match Read(fs, p)
        case Success(text) => Success(Some(text))
        case Failure(_) => Success(None)
  }
}

=== FILE: module_validator.dfy ===
/**
 * Structural validation of course modules and of a whole course directory,
 * plus the per-module information used to list modules (module_validator.py).
 */
module ModuleValidator {
  import opened Wrappers
  import opened Seqs
  import opened Text
  import opened Paths
  import opened Fs
  import opened Latex
  import opened Readme

  /** The primary-file candidates, in priority order. */
  function MainCandidates(name: string): seq<string> {
    ["main.tex", "module.tex", name + ".tex"]
  }

  const ReadmeNames: seq<string> := ["README.md", "README.txt", "readme.md", "readme.txt"]

  const StructureError: string := "Complete LaTeX document structure required"
  const GraphicsWarning: string := "\\includegraphics" + " used but no images directory found"
  const ReferenceWarning: string := "References" + " used but no labels or bibliography found"
  const ReadmeWarning: string := "No README file found"

  function NotFoundError(path: string): string {
    "Module directory not found: " + path
  }

  function NotDirectoryError(path: string): string {
    "Module path is not a directory: " + path
  }

  /** The message naming the candidates, as Python prints the candidate list. */
  function NoMainError(name: string): string {
    "No main LaTeX file found. Expected one of: ['main.tex', 'module.tex', '" + name + ".tex']"
  }

  function ReadError(reason: string): string {
    "Failed to read LaTeX file: " + reason
  }

  lemma WarningsDistinct()
    ensures GraphicsWarning != ReferenceWarning
    ensures ReadmeWarning != GraphicsWarning && ReadmeWarning != ReferenceWarning
  {
    assert GraphicsWarning[0] != ReferenceWarning[0];
    assert ReadmeWarning[0] != GraphicsWarning[0];
    assert ReadmeWarning[1] != ReferenceWarning[1];
  }

  /** A `\documentclass` without both `\begin{document}` and `\end{document}`. */
  predicate MissingEnvelope(t: string) {
    Contains(t, DocumentClass) && (!Contains(t, BeginDocument) || !Contains(t, EndDocument))
  }

  /** `\includegraphics` while no `images` entry exists next to the file. */
  predicate DanglingGraphics(t: string, imagesExist: bool) {
    Contains(t, "\\includegraphics") && !imagesExist
  }

  /** `\ref{` or `\cite{` with neither `\label{` nor `\bibitem{` anywhere in the file. */
  predicate DanglingReferences(t: string) {
    (Contains(t, "\\ref{") || Contains(t, "\\cite{")) && !Contains(t, "\\label{") && !Contains(t, "\\bibitem{")
  }

  datatype Findings = Findings(warnings: seq<string>, errors: seq<string>)

  /**
   * `_validate_latex_content` given what reading the primary file yielded.
   * Its UTF-8 re-encoding check cannot fail on text made of Unicode scalar values.
   */
  function CheckLatexContent(content: Result<string, string>, imagesExist: bool): (f: Findings)
    ensures content.Failure? ==> f == Findings([], [ReadError(content.error)])
    ensures content.Success? ==>
      && (f.errors == [] <==> !MissingEnvelope(content.value))
      && (f.errors != [] ==> f.errors == [StructureError])
      && (GraphicsWarning in f.warnings <==> DanglingGraphics(content.value, imagesExist))
      && (ReferenceWarning in f.warnings <==> DanglingReferences(content.value))
      && |f.warnings| <= 2
  {
    match content
    case Failure(reason) => Findings([], [ReadError(reason)])
    case Success(t) =>
      var errors := if MissingEnvelope(t) then [StructureError] else [];
      var graphics := if DanglingGraphics(t, imagesExist) then [GraphicsWarning] else [];
      var references := if DanglingReferences(t) then [ReferenceWarning] else [];
      WarningsDistinct();
      Findings(graphics + references, errors)
  }

  /** The `info` part of a module validation. */
  datatype ModuleSummary = ModuleSummary(
    name: string,
    path: string,
    hasMainTex: bool,
    hasReadme: bool,
    hasImages: bool,
    hasData: bool,
    texFiles: seq<string>,
    imageFiles: seq<string>,
    dataFiles: seq<string>)

  datatype ValidationResult = ValidationResult(
    valid: bool,
    warnings: seq<string>,
    errors: seq<string>,
    info: ModuleSummary)

  /** The globs of `d` for each extension in turn, concatenated. */
  function GlobEach(fs: FileSystem, d: string, exts: seq<string>): seq<string> {
    FlatMap(exts, (ext: string) => Glob(fs, d, ext))
  }

  /** The regular files directly inside `d`, in listing order. */
  function FilesIn(fs: FileSystem, d: string): (r: seq<string>)
    ensures forall x :: x in r <==> exists e :: e in fs && ChildOf(e.path, d) && e.kind.File? && x == e.path
  {
    var r := PathsOf(Filter(Children(fs, d), (e: Entry) => e.kind.File?));
    forall x ensures x in r <==> exists e :: e in fs && ChildOf(e.path, d) && e.kind.File? && x == e.path {
      InPathsOf(Filter(Children(fs, d), (e: Entry) => e.kind.File?), x);
    }
    r
  }

  function EmptySummary(path: string): ModuleSummary {
    ModuleSummary(Name(path), path, false, false, false, false, [], [], [])
  }

  /** The primary file validation settles on, if any. */
  function MainFile(fs: FileSystem, path: string): Option<string> {
    FirstExisting(fs, path, MainCandidates(Name(path)))
  }

  /** The `info` of an existing module directory. */
  function Summary(fs: FileSystem, path: string): (m: ModuleSummary)
    ensures m.name == Name(path) && m.path == path
    ensures m.hasMainTex <==> MainFile(fs, path).Some?
    ensures m.hasReadme <==> FirstExisting(fs, path, ReadmeNames).Some?
    ensures m.hasImages <==> IsDir(fs, Join(path, "images"))
    ensures m.hasData <==> IsDir(fs, Join(path, "data"))
    ensures forall x :: x in m.texFiles <==> exists e :: e in fs && ChildOf(e.path, path) && EndsWith(Name(e.path), ".tex") && x == e.path
    ensures !m.hasImages ==> m.imageFiles == []
    ensures m.hasImages ==> forall x :: x in m.imageFiles <==>
      exists k :: 0 <= k < |ImageExtensions| && x in Glob(fs, Join(path, "images"), ImageExtensions[k])
    ensures !m.hasData ==> m.dataFiles == []
    ensures m.hasData ==> forall x :: x in m.dataFiles <==>
      exists e :: e in fs && ChildOf(e.path, Join(path, "data")) && e.kind.File? && x == e.path
  {
    var imagesDir := Join(path, "images");
    var dataDir := Join(path, "data");
    var hasImages := IsDir(fs, imagesDir);
    var hasData := IsDir(fs, dataDir);
    forall x ensures x in Glob(fs, path, ".tex") <==> exists e :: e in fs && ChildOf(e.path, path) && EndsWith(Name(e.path), ".tex") && x == e.path {
      GlobMembers(fs, path, ".tex", x);
    }
    forall x ensures x in GlobEach(fs, imagesDir, ImageExtensions) <==>
      exists k :: 0 <= k < |ImageExtensions| && x in Glob(fs, imagesDir, ImageExtensions[k]) {
      InFlatMap(ImageExtensions, (ext: string) => Glob(fs, imagesDir, ext), x);
    }
    ModuleSummary(
      Name(path), path, MainFile(fs, path).Some?, FirstExisting(fs, path, ReadmeNames).Some?, hasImages, hasData,
      Glob(fs, path, ".tex"),
      if hasImages then GlobEach(fs, imagesDir, ImageExtensions) else [],
      if hasData then FilesIn(fs, dataDir) else [])
  }

  /** What checking the primary file (if any) contributes; `images` is looked up beside that file. */
  function MainFindings(fs: FileSystem, main: Option<string>): (f: Findings)
    ensures f.errors == [] <==> main.None? || (Read(fs, main.value).Success? && !MissingEnvelope(Read(fs, main.value).value))
    ensures ReadmeWarning !in f.warnings
  {
    match main
    case None => Findings([], [])
    case Some(p) =>
      WarningsDistinct();
      CheckLatexContent(Read(fs, p), Exists(fs, Join(Parent(p), "images")))
  }

  /** The findings for an existing directory: a missing primary file, a missing README, then the content checks. */
  function DirectoryFindings(fs: FileSystem, path: string): (f: Findings)
    ensures MainFile(fs, path).None? ==> f.errors == [NoMainError(Name(path))]
  {
    var main := MainFile(fs, path);
    Assemble(Name(path), main.None?, MainFindings(fs, main), FirstExisting(fs, path, ReadmeNames).None?)
  }

  /** The directory findings hold no error exactly when the primary file exists, reads and has its envelope. */
  lemma DirectoryFindingsSpec(fs: FileSystem, path: string)
    ensures var f := DirectoryFindings(fs, path);
      var main := MainFile(fs, path);
      && (f.errors == [] <==> main.Some? && Read(fs, main.value).Success? && !MissingEnvelope(Read(fs, main.value).value))
      && (FirstExisting(fs, path, ReadmeNames).None? <==> |f.warnings| > 0 && f.warnings[0] == ReadmeWarning)
    ensures var f := DirectoryFindings(fs, path);
      var main := MainFile(fs, path);
      var readme := if FirstExisting(fs, path, ReadmeNames).None? then [ReadmeWarning] else [];
      && (main.None? ==> f.warnings == readme)
      && (main.Some? ==>
            var c := CheckLatexContent(Read(fs, main.value), Exists(fs, Join(Parent(main.value), "images")));
            f.warnings == readme + c.warnings && f.errors == c.errors)
  {
    var main := MainFile(fs, path);
    var c := MainFindings(fs, main);
    assert DirectoryFindings(fs, path) == Assemble(Name(path), main.None?, c, FirstExisting(fs, path, ReadmeNames).None?);
  }

  /** The missing-file findings in front of the content findings. */
  function Assemble(name: string, missingMain: bool, content: Findings, missingReadme: bool): (f: Findings)
    requires ReadmeWarning !in content.warnings
    ensures f.errors == [] <==> !missingMain && content.errors == []
    ensures missingMain ==> f.errors == [NoMainError(name)] + content.errors
    ensures !missingMain ==> f.errors == content.errors
    ensures missingReadme <==> |f.warnings| > 0 && f.warnings[0] == ReadmeWarning
    ensures f.warnings == (if missingReadme then [ReadmeWarning] else []) + content.warnings
  {
    var errors := (if missingMain then [NoMainError(name)] else []) + content.errors;
    var warnings := (if missingReadme then [ReadmeWarning] else []) + content.warnings;
    assert !missingReadme && |warnings| > 0 ==> warnings[0] in content.warnings;
    Findings(warnings, errors)
  }

  /** `validate_module`. */
  function ValidateModule(fs: FileSystem, path: string): (r: ValidationResult)
    ensures r.valid <==> r.errors == []
    ensures r.valid <==>
      && IsDir(fs, path)
      && MainFile(fs, path).Some?
      && Read(fs, MainFile(fs, path).value).Success?
      && !MissingEnvelope(Read(fs, MainFile(fs, path).value).value)
    ensures !Exists(fs, path) ==> r.errors == [NotFoundError(path)] && r.warnings == []
    ensures Exists(fs, path) && !IsDir(fs, path) ==> r.errors == [NotDirectoryError(path)] && r.warnings == []
    ensures IsDir(fs, path) ==>
      && (r.info.hasMainTex <==> MainFile(fs, path).Some?)
      && (MainFile(fs, path).None? ==> r.errors == [NoMainError(Name(path))])
      && (r.info.hasReadme <==> FirstExisting(fs, path, ReadmeNames).Some?)
      && (!r.info.hasReadme <==> |r.warnings| > 0 && r.warnings[0] == ReadmeWarning)
    ensures !IsDir(fs, path) ==> r.info == EmptySummary(path)
    ensures IsDir(fs, path) ==> r.info == Summary(fs, path)
    ensures IsDir(fs, path) ==>
      var readme := if r.info.hasReadme then [] else [ReadmeWarning];
      && (MainFile(fs, path).None? ==> r.warnings == readme)
      && (MainFile(fs, path).Some? ==>
            var m := MainFile(fs, path).value;
            var c := CheckLatexContent(Read(fs, m), Exists(fs, Join(Parent(m), "images")));
            r.warnings == readme + c.warnings && r.errors == c.errors)
  {
    if !Exists(fs, path) then
      ValidationResult(false, [], [NotFoundError(path)], EmptySummary(path))
    else if !IsDir(fs, path) then
      ValidationResult(false, [], [NotDirectoryError(path)], EmptySummary(path))
    else
      var f := DirectoryFindings(fs, path);
      DirectoryFindingsSpec(fs, path);
      ValidationResult(f.errors == [], f.warnings, f.errors, Summary(fs, path))
  }

  // Course-level validation.

  /** A candidate module: a directory whose name does not start with '.'. */
  predicate IsModuleEntry(e: Entry) {
    e.kind == Directory && !StartsWith(Name(e.path), ".")
  }

  /** The candidate module directories of a course, in listing order. */
  function ModuleDirs(fs: FileSystem, course: string): (r: seq<string>)
    ensures forall k :: 0 <= k < |r| ==> ChildOf(r[k], course)
  {
    var ch := Children(fs, course);
    var es := Filter(ch, IsModuleEntry);
    var r := PathsOf(es);
    assert forall k :: 0 <= k < |r| ==> ChildOf(r[k], course) by {
      forall k | 0 <= k < |r| ensures ChildOf(r[k], course) {
        InFilter(ch, IsModuleEntry, es[k]);
        InFilter(fs, (e: Entry) => ChildOf(e.path, course), es[k]);
      }
    }
    r
  }

  datatype CourseValidation = CourseValidation(
    valid: bool,
    warnings: seq<string>,
    errors: seq<string>,
    modules: map<string, ValidationResult>,
    coursePath: string,
    totalModules: nat,
    validModules: nat,
    invalidModules: nat)

  /** Two entries of the same directory with the same name are the same path. */
  lemma ChildNamesDistinguish(p: string, q: string, d: string)
    requires ChildOf(p, d) && ChildOf(q, d) && Name(p) == Name(q)
    ensures p == q
  {
  }

  predicate ModuleValid(fs: FileSystem, d: string) {
    ValidateModule(fs, d).valid
  }

  function ValidTest(fs: FileSystem): string -> bool {
    (d: string) => ModuleValid(fs, d)
  }

  function InvalidTest(fs: FileSystem): string -> bool {
    (d: string) => !ModuleValid(fs, d)
  }

  /** No module fails exactly when the count of failing modules is zero. */
  lemma NoneInvalid(fs: FileSystem, dirs: seq<string>)
    ensures Count(dirs, InvalidTest(fs)) == 0 <==> forall d :: d in dirs ==> ModuleValid(fs, d)
  {
    var bad := Filter(dirs, InvalidTest(fs));
    if |bad| > 0 {
      InFilter(dirs, InvalidTest(fs), bad[0]);
    } else {
      forall d | d in dirs ensures ModuleValid(fs, d) {
      }
    }
  }

  /** Candidate modules are told apart by their folder names. */
  lemma ModuleNamesDistinct(fs: FileSystem, course: string)
    ensures var dirs := ModuleDirs(fs, course);
      forall d, d' :: d in dirs && d' in dirs && Name(d) == Name(d') ==> d == d'
  {
    var dirs := ModuleDirs(fs, course);
    forall d, d' | d in dirs && d' in dirs && Name(d) == Name(d') ensures d == d' {
      ChildNamesDistinguish(d, d', course);
    }
  }

  /** The per-module results, keyed by folder name. */
  function ModuleMap(fs: FileSystem, dirs: seq<string>): (m: map<string, ValidationResult>)
    requires forall d, d' :: d in dirs && d' in dirs && Name(d) == Name(d') ==> d == d'
    ensures m.Keys == (set d | d in dirs :: Name(d))
    ensures forall d :: d in dirs ==> m[Name(d)] == ValidateModule(fs, d)
  {
    ByName(dirs, (d: string) => ValidateModule(fs, d))
  }

  /** The value of `f` for each path, keyed by the path's name. */
  function ByName<V>(dirs: seq<string>, f: string -> V): (m: map<string, V>)
    requires forall d, d' :: d in dirs && d' in dirs && Name(d) == Name(d') ==> d == d'
    ensures m.Keys == (set d | d in dirs :: Name(d))
    ensures forall d :: d in dirs ==> m[Name(d)] == f(d)
  {
    var m := map d | d in dirs :: Name(d) := f(d);
    forall d | d in dirs ensures m[Name(d)] == f(d) {
      var d' :| d' in dirs && Name(d') == Name(d) && m[Name(d)] == f(d');
    }
    m
  }

  /** The report of `validate_course_structure` for a course path that is missing or a directory. */
  function CourseReport(fs: FileSystem, course: string): (r: CourseValidation)
    ensures !Exists(fs, course) ==>
      r.errors == ["Course directory not found: " + course] && r.modules == map[] && r.totalModules == 0
    ensures Exists(fs, course) && ModuleDirs(fs, course) == [] ==>
      r.errors == ["No module directories found"] && r.modules == map[] && r.totalModules == 0
    ensures var dirs := ModuleDirs(fs, course);
      Exists(fs, course) && dirs != [] ==>
        && r.totalModules == |dirs| == r.validModules + r.invalidModules
        && r.validModules == Count(dirs, ValidTest(fs))
        && r.errors == []
        && r.modules.Keys == (set d | d in dirs :: Name(d))
        && forall d :: d in dirs ==> r.modules[Name(d)] == ValidateModule(fs, d)
    ensures r.valid <==>
      && Exists(fs, course)
      && ModuleDirs(fs, course) != []
      && forall d :: d in ModuleDirs(fs, course) ==> ModuleValid(fs, d)
  {
    if !Exists(fs, course) then
      CourseValidation(false, [], ["Course directory not found: " + course], map[], course, 0, 0, 0)
    else
      var dirs := ModuleDirs(fs, course);
      if dirs == [] then
        CourseValidation(false, [], ["No module directories found"], map[], course, 0, 0, 0)
      else
        var good := Count(dirs, ValidTest(fs));
        var bad := Count(dirs, InvalidTest(fs));
        FilterPartition(dirs, ValidTest(fs), InvalidTest(fs));
        NoneInvalid(fs, dirs);
        ModuleNamesDistinct(fs, course);
        var modules := ModuleMap(fs, dirs);
        CourseValidation(bad == 0, [], [], modules, course, |dirs|, good, bad)
  }

  /** `Path.iterdir` on an existing path that is not a directory raises. */
  function NotADirectory(p: string): string {
    "Not a directory: " + p
  }

  /** `validate_course_structure`: listing a course path that is a regular file raises. */
  function ValidateCourseStructure(fs: FileSystem, course: string): (r: Result<CourseValidation, string>)
    ensures r.Failure? <==> Exists(fs, course) && !IsDir(fs, course)
    ensures r.Failure? ==> r.error == NotADirectory(course)
    ensures r.Success? ==> r.value == CourseReport(fs, course)
  {
    if Exists(fs, course) && !IsDir(fs, course) then Failure(NotADirectory(course))
    else Success(CourseReport(fs, course))
  }

  // Module information for listings.

  datatype Bucket = TexBucket | ImageBucket | DataBucket | OtherBucket

  /** Which list of the catalogue a file lands in: `.tex`, then images, then the `data` folder. */
  function BucketOf(f: string): Bucket {
    var ext := Lower(Suffix(Name(f)));
    if ext == ".tex" then TexBucket
    else if ext in ImageExtensions then ImageBucket
    else if ParentName(f) == "data" then DataBucket
    else OtherBucket
  }

  datatype Catalogue = Catalogue(tex: seq<string>, images: seq<string>, data: seq<string>, other: seq<string>)

  /** Each file relative to `base`. */
  function RelativeAll(files: seq<string>, base: string): (r: seq<string>)
    ensures |r| == |files|
  {
    Map(files, (f: string) => RelativeTo(f, base))
  }

  /** The files of one bucket, relative to `base`, in walk order. */
  function InBucket(files: seq<string>, base: string, b: Bucket): seq<string> {
    RelativeAll(Filter(files, BucketTest(b)), base)
  }

  predicate InBucketOf(f: string, b: Bucket) {
    BucketOf(f) == b
  }

  /** Membership of bucket `b`, as a predicate value. */
  function BucketTest(b: Bucket): string -> bool {
    (f: string) => InBucketOf(f, b)
  }

  /** One step of a filtered, relativised list: the head is kept or dropped. */
  lemma RelativeFilterCons(files: seq<string>, base: string, keep: string -> bool)
    requires |files| > 0
    ensures RelativeAll(Filter(files, keep), base) ==
      (if keep(files[0]) then [RelativeTo(files[0], base)] else []) + RelativeAll(Filter(files[1..], keep), base)
  {
    var f := (f: string) => RelativeTo(f, base);
    var head := if keep(files[0]) then [files[0]] else [];
    FilterCons(files, keep);
    MapAppend(head, Filter(files[1..], keep), f);
    assert Map(head, f) == if keep(files[0]) then [RelativeTo(files[0], base)] else [];
  }

  lemma InBucketCons(files: seq<string>, base: string, b: Bucket)
    requires |files| > 0
    ensures InBucket(files, base, b) ==
      (if BucketOf(files[0]) == b then [RelativeTo(files[0], base)] else []) + InBucket(files[1..], base, b)
  {
    RelativeFilterCons(files, base, BucketTest(b));
  }

  /** The file catalogue of `get_module_info`, built in one pass over the walk. */
  function CatalogueOf(files: seq<string>, base: string): (c: Catalogue)
    ensures c.tex == InBucket(files, base, TexBucket)
    ensures c.images == InBucket(files, base, ImageBucket)
    ensures c.data == InBucket(files, base, DataBucket)
    ensures c.other == InBucket(files, base, OtherBucket)
    ensures |c.tex| + |c.images| + |c.data| + |c.other| == |files|
  {
    if |files| == 0 then Catalogue([], [], [], [])
    else
      var c := CatalogueOf(files[1..], base);
      var f := files[0];
      var rel := RelativeTo(f, base);
      InBucketCons(files, base, TexBucket);
      InBucketCons(files, base, ImageBucket);
      InBucketCons(files, base, DataBucket);
      InBucketCons(files, base, OtherBucket);
      match BucketOf(f)
      case TexBucket => Catalogue([rel] + c.tex, c.images, c.data, c.other)
      case ImageBucket => Catalogue(c.tex, [rel] + c.images, c.data, c.other)
      case DataBucket => Catalogue(c.tex, c.images, [rel] + c.data, c.other)
      case OtherBucket => Catalogue(c.tex, c.images, c.data, [rel] + c.other)
  }

  datatype ModuleInfo = ModuleInfo(
    name: string,
    path: string,
    present: bool,
    description: string,
    objectives: seq<string>,
    prerequisites: seq<string>,
    resources: seq<string>,
    files: Catalogue)

  /** The regular files anywhere below `d`, in walk order. */
  function FilesBelow(fs: FileSystem, d: string): seq<string> {
    PathsOf(Filter(Descendants(fs, d), (e: Entry) => e.kind.File?))
  }

  /** `get_module_info`: README-derived fields from the first README present, and the file catalogue. */
  function GetModuleInfo(fs: FileSystem, path: string): (m: ModuleInfo)
    ensures m.name == Name(path) && m.path == path && m.present == Exists(fs, path)
    ensures !Exists(fs, path) ==> m == ModuleInfo(Name(path), path, false, "", [], [], [], Catalogue([], [], [], []))
    ensures Exists(fs, path) ==> m.files == CatalogueOf(FilesBelow(fs, path), path)
    ensures var readme := FirstExisting(fs, path, ReadmeNames);
      Exists(fs, path) && readme.Some? && Read(fs, readme.value).Success? ==>
        var text := Read(fs, readme.value).value;
        && m.description == ExtractDescription(text)
        && m.objectives == ExtractObjectives(text)
        && m.prerequisites == ExtractPrerequisites(text)
        && m.resources == ExtractResources(text)
    ensures var readme := FirstExisting(fs, path, ReadmeNames);
      (readme.None? || Read(fs, readme.value).Failure?) ==>
        m.description == "" && m.objectives == [] && m.prerequisites == [] && m.resources == []
  {
    if !Exists(fs, path) then
      ModuleInfo(Name(path), path, false, "", [], [], [], Catalogue([], [], [], []))
    else
      var files := CatalogueOf(FilesBelow(fs, path), path);
      var readme := FirstExisting(fs, path, ReadmeNames);
      match readme
      case None => ModuleInfo(Name(path), path, true, "", [], [], [], files)
      case Some(p) =>
        match Read(fs, p)
        case Failure(_) => ModuleInfo(Name(path), path, true, "", [], [], [], files)
        case Success(text) =>
          ModuleInfo(Name(path), path, true, ExtractDescription(text), ExtractObjectives(text),
                     ExtractPrerequisites(text), ExtractResources(text), files)
  }

  /** Every earlier path's name sorts no later than every later path's name. */
  predicate SortedByName(ps: seq<string>) {
    forall i, j :: 0 <= i < j < |ps| ==> LexLe(Name(ps[i]), Name(ps[j]))
  }

  /** A path whose name is no later than every name in a sorted list can go in front of it. */
  lemma SortedCons(p: string, ps: seq<string>)
    requires SortedByName(ps)
    requires forall x :: x in ps ==> LexLe(Name(p), Name(x))
    ensures SortedByName([p] + ps)
  {
    var r := [p] + ps;
    forall i, j | 0 <= i < j < |r| ensures LexLe(Name(r[i]), Name(r[j])) {
      assert r[j] == ps[j - 1];
      if i > 0 {
        assert r[i] == ps[i - 1];
      }
    }
  }

  /** The first name of a sorted list bounds all of it from below. */
  lemma SortedHeadFirst(lo: string, ps: seq<string>)
    requires SortedByName(ps) && |ps| > 0
    requires LexLe(lo, Name(ps[0]))
    ensures forall x :: x in ps ==> LexLe(lo, Name(x))
  {
    forall x | x in ps ensures LexLe(lo, Name(x)) {
      var j :| 0 <= j < |ps| && ps[j] == x;
      if j > 0 {
        LexLeTransitive(lo, Name(ps[0]), Name(ps[j]));
      }
    }
  }

  /** `ps[1..]` of a sorted list is sorted, below its head. */
  lemma SortedTail(ps: seq<string>)
    requires SortedByName(ps) && |ps| > 0
    ensures SortedByName(ps[1..])
    ensures forall x :: x in ps[1..] ==> LexLe(Name(ps[0]), Name(x))
  {
    forall i, j | 0 <= i < j < |ps[1..]| ensures LexLe(Name(ps[1..][i]), Name(ps[1..][j])) {
      assert ps[1..][i] == ps[i + 1] && ps[1..][j] == ps[j + 1];
    }
    forall x | x in ps[1..] ensures LexLe(Name(ps[0]), Name(x)) {
      var j :| 0 <= j < |ps[1..]| && ps[1..][j] == x;
      assert ps[j + 1] == x;
    }
  }

  /** Every element of `a` is `p` or an element of `b`, when `a` holds `b` and `p` as a multiset. */
  lemma InMultisetUnion(a: seq<string>, b: seq<string>, p: string, x: string)
    requires multiset(a) == multiset(b) + multiset{p}
    requires x in a
    ensures x == p || x in b
  {
    assert x in multiset(a);
  }

  function InsertByName(p: string, ps: seq<string>): (r: seq<string>)
    requires SortedByName(ps)
    ensures SortedByName(r)
    ensures multiset(r) == multiset(ps) + multiset{p}
  {
    if |ps| == 0 then [p]
    else if LexLe(Name(p), Name(ps[0])) then
      SortedHeadFirst(Name(p), ps);
      SortedCons(p, ps);
      [p] + ps
    else
      LexLeTotal(Name(p), Name(ps[0]));
      SortedTail(ps);
      var tail := InsertByName(p, ps[1..]);
      forall x | x in tail ensures LexLe(Name(ps[0]), Name(x)) {
        InMultisetUnion(tail, ps[1..], p, x);
      }
      SortedCons(ps[0], tail);
      assert ps == [ps[0]] + ps[1..];
      [ps[0]] + tail
  }

  /** Python's `sort(key=lambda x: x.name)` on module paths. */
  function SortByName(ps: seq<string>): (r: seq<string>)
    ensures SortedByName(r)
    ensures multiset(r) == multiset(ps)
  {
    if |ps| == 0 then []
    else
      assert ps == [ps[0]] + ps[1..];
      InsertByName(ps[0], SortByName(ps[1..]))
  }

  /** The information of each module in `ps`, in order. */
  function InfoOfEach(fs: FileSystem, ps: seq<string>): (r: seq<ModuleInfo>)
    ensures |r| == |ps|
    ensures forall k :: 0 <= k < |r| ==> r[k] == GetModuleInfo(fs, ps[k])
    ensures SortedByName(ps) ==> forall i, j :: 0 <= i < j < |r| ==> LexLe(r[i].name, r[j].name)
  {
    seq(|ps|, k requires 0 <= k < |ps| => GetModuleInfo(fs, ps[k]))
  }

  /** The listing of `list_modules` for a course path that is missing or a directory. */
  function ModuleInfos(fs: FileSystem, course: string): (r: seq<ModuleInfo>)
    ensures !Exists(fs, course) ==> r == []
    ensures Exists(fs, course) ==>
      var sorted := SortByName(ModuleDirs(fs, course));
      && |r| == |sorted|
      && multiset(sorted) == multiset(ModuleDirs(fs, course))
      && (forall k :: 0 <= k < |r| ==> r[k] == GetModuleInfo(fs, sorted[k]))
      && (forall i, j :: 0 <= i < j < |r| ==> LexLe(r[i].name, r[j].name))
  {
    if !Exists(fs, course) then []
    else InfoOfEach(fs, SortByName(ModuleDirs(fs, course)))
  }

  /** `list_modules`: listing a course path that is a regular file raises. */
  function ListModules(fs: FileSystem, course: string): (r: Result<seq<ModuleInfo>, string>)
    ensures r.Failure? <==> Exists(fs, course) && !IsDir(fs, course)
    ensures r.Failure? ==> r.error == NotADirectory(course)
    ensures r.Success? ==> r.value == ModuleInfos(fs, course)
  {
    if Exists(fs, course) && !IsDir(fs, course) then Failure(NotADirectory(course))
    else Success(ModuleInfos(fs, course))
  }
}

=== FILE: paths.dfy ===
/**
 * `pathlib.PurePosixPath` as the course builder uses it, over normalised path
 * strings (components separated by single '/', no trailing '/').
 */
module Paths {
  import opened Text

  /** Index of the last `c` in `s`, or -1. */
  function LastIndex(s: string, c: char): (r: int)
    ensures -1 <= r < |s|
    ensures r >= 0 ==> s[r] == c
    ensures forall k :: r < k < |s| ==> s[k] != c
  {
    if |s| == 0 then -1
    else if s[|s| - 1] == c then |s| - 1
    else LastIndex(s[..|s| - 1], c)
  }

  /** The last occurrence is unique: any index with the defining property is it. */
  lemma LastIndexUnique(s: string, c: char, r: int)
    requires -1 <= r < |s|
    requires r >= 0 ==> s[r] == c
    requires forall k :: r < k < |s| ==> s[k] != c
    ensures LastIndex(s, c) == r
  {
  }

  /** `PurePath.name`: the final component; the current directory "." has the empty name. */
  function Name(p: string): (r: string)
    ensures '/' !in r
    ensures p == "." ==> r == ""
  {
    if |p| == 1 && p[0] == '.' then "" else
    var i := LastIndex(p, '/');
    var r := p[i + 1..];
    assert forall j :: 0 <= j < |r| ==> r[j] != '/' by {
      forall j | 0 <= j < |r| ensures r[j] != '/' {
        assert r[j] == p[i + 1 + j];
      }
    }
    r
  }

  /** Everything up to and including the last '/'. */
  function DirPrefix(p: string): string {
    p[..LastIndex(p, '/') + 1]
  }

  /** `str(PurePath.parent)`, with "" for the current directory. */
  function Parent(p: string): string {
    var i := LastIndex(p, '/');
    if i < 0 then "" else p[..i]
  }

  /** `PurePath.parent.name`. */
  function ParentName(p: string): string {
    Name(Parent(p))
  }

  /** `PurePath(d) / n`: an absolute `n` replaces `d`, an empty one or "." is dropped. */
  function Join(d: string, n: string): string {
    if n == "" || n == "." then d
    else if n[0] == '/' then n
    else if d == "" || d == "." then n
    else if d[|d| - 1] == '/' then d + n
    else d + "/" + n
  }

  /** Joining a plain name onto a directory yields a path whose final component is that name. */
  lemma NameOfJoin(d: string, n: string)
    requires n != "" && n != "." && '/' !in n
    ensures Name(Join(d, n)) == n
  {
    var p := Join(d, n);
    var r := |p| - |n| - 1;
    assert p[r + 1..] == n;
    assert !(|p| == 1 && p[0] == '.');
    if r >= 0 {
      assert p[r] == '/';
    }
    assert forall k :: r < k < |p| ==> p[k] == n[k - r - 1];
    LastIndexUnique(p, '/', r);
  }

  /** The index Python uses to split a name into stem and suffix, or -1 when it has no suffix. */
  function SuffixStart(name: string): (i: int)
    ensures i == -1 || 0 < i < |name| - 1
  {
    var i := LastIndex(name, '.');
    if 0 < i < |name| - 1 then i else -1
  }

  /** `PurePath.suffix` of a final component: from the last '.', unless it is the first or last character. */
  function Suffix(name: string): string {
    var i := SuffixStart(name);
    if i < 0 then "" else name[i..]
  }

  /** `PurePath.stem` of a final component. */
  function Stem(name: string): string {
    var i := SuffixStart(name);
    if i < 0 then name else name[..i]
  }

  /** A name splits exactly into its stem followed by its suffix. */
  lemma StemSuffix(name: string)
    ensures Stem(name) + Suffix(name) == name
    ensures |Stem(name)| > 0 || name == ""
  {
  }

  /** A suffix `with_suffix` accepts and re-reads as a suffix: a dot then at least one dot-free character. */
  predicate PlainSuffix(ext: string) {
    |ext| >= 2 && ext[0] == '.' && '.' !in ext[1..] && '/' !in ext
  }

  /** `PurePath.with_suffix(ext)`; Python raises ValueError for an empty name. */
  function WithSuffix(p: string, ext: string): string
    requires Name(p) != ""
  {
    DirPrefix(p) + Stem(Name(p)) + ext
  }

  /** Appending a slash-free text to a directory prefix makes that text the final component. */
  lemma NameAfterDirPrefix(p: string, n: string)
    requires '/' !in n && n != "."
    ensures Name(DirPrefix(p) + n) == n
    ensures DirPrefix(DirPrefix(p) + n) == DirPrefix(p)
  {
    var d := DirPrefix(p);
    var q := d + n;
    var r := LastIndex(p, '/');
    assert |d| == r + 1;
    assert r >= 0 ==> q[r] == '/';
    assert forall k :: r < k < |q| ==> q[k] == n[k - |d|];
    LastIndexUnique(q, '/', r);
    assert q[r + 1..] == n;
  }

  /** A non-empty stem followed by a plain suffix splits back into the two. */
  lemma StemAndSuffixOf(stem: string, ext: string)
    requires stem != "" && PlainSuffix(ext)
    ensures Stem(stem + ext) == stem
    ensures Suffix(stem + ext) == ext
  {
    var n := stem + ext;
    var dot := |stem|;
    assert n[dot] == '.';
    assert forall k :: dot < k < |n| ==> n[k] == ext[1..][k - dot - 1];
    LastIndexUnique(n, '.', dot);
    assert n[..dot] == stem;
    assert n[dot..] == ext;
  }

  lemma StemOfNameIsPlain(p: string)
    requires Name(p) != ""
    ensures Stem(Name(p)) != "" && '/' !in Stem(Name(p))
  {
    var name := Name(p);
    StemSuffix(name);
    var stem := Stem(name);
    assert forall k :: 0 <= k < |stem| ==> stem[k] == name[k];
  }

  /** `with_suffix` keeps the directory and the stem and installs exactly the new suffix. */
  lemma WithSuffixParts(p: string, ext: string)
    requires Name(p) != "" && PlainSuffix(ext)
    ensures Name(WithSuffix(p, ext)) == Stem(Name(p)) + ext
    ensures DirPrefix(WithSuffix(p, ext)) == DirPrefix(p)
    ensures Stem(Name(WithSuffix(p, ext))) == Stem(Name(p))
    ensures Suffix(Name(WithSuffix(p, ext))) == ext
  {
    var stem := Stem(Name(p));
    StemOfNameIsPlain(p);
    assert WithSuffix(p, ext) == DirPrefix(p) + (stem + ext);
    NameAfterDirPrefix(p, stem + ext);
    StemAndSuffixOf(stem, ext);
  }

  /** `PurePath(f).relative_to(base)` for a path below `base`. */
  function RelativeTo(f: string, base: string): string {
    if base != "" && base[|base| - 1] == '/' && StartsWith(f, base) then f[|base|..]
    else if StartsWith(f, base + "/") then f[|base| + 1..] else f
  }

  /** A name joined onto a plain directory is found again relative to that directory. */
  lemma RelativeToJoin(d: string, n: string)
    requires d != "" && d != "." && d[|d| - 1] != '/'
    requires n != "" && n != "." && n[0] != '/'
    ensures Join(d, n) == d + "/" + n
    ensures RelativeTo(Join(d, n), d) == n
  {
    var p := d + "/" + n;
    assert p[..|d + "/"|] == d + "/";
    assert p[|d| + 1..] == n;
  }
}

=== FILE: pdf_merger.dfy ===
/**
 * The PDF merger (pdf_merger.py). Which libraries are installed is an input,
 * and what a library call does (a failed append, a failed write, the pages and
 * metadata a reader finds) is passed in as an oracle.
 */
module PdfMerger {
  import opened Wrappers
  import opened Seqs
  import opened Text
  import opened Paths
  import opened Fs

  const PyPdf2: string := "pypdf2"
  const ReportLab: string := "reportlab"
  const NoBackend: string := "none"
  const Auto: string := "auto"

  /** The installed libraries. */
  datatype Libraries = Libraries(hasPyPdf2: bool, hasReportLab: bool)

  /** The backend `__init__` settles on: "auto" picks the best installed one, a missing one falls back. */
  function ResolveBackend(requested: string, libs: Libraries): (b: string)
    ensures b == PyPdf2 ==> libs.hasPyPdf2
    ensures b == ReportLab ==> libs.hasReportLab
    ensures requested == Auto ==>
      b == (if libs.hasPyPdf2 then PyPdf2 else if libs.hasReportLab then ReportLab else NoBackend)
    ensures requested == PyPdf2 ==>
      b == (if libs.hasPyPdf2 then PyPdf2 else if libs.hasReportLab then ReportLab else NoBackend)
    ensures requested == ReportLab ==> b == (if libs.hasReportLab then ReportLab else NoBackend)
    ensures requested != Auto && requested != PyPdf2 && requested != ReportLab ==> b == requested
  {
    var b0 := if requested != Auto then requested
              else if libs.hasPyPdf2 then PyPdf2
              else if libs.hasReportLab then ReportLab
              else NoBackend;
    var b1 := if b0 == PyPdf2 && !libs.hasPyPdf2 then (if libs.hasReportLab then ReportLab else NoBackend) else b0;
    if b1 == ReportLab && !libs.hasReportLab then NoBackend else b1
  }

  /** Resolving an already resolved backend changes nothing. */
  lemma ResolveBackendIdempotent(requested: string, libs: Libraries)
    ensures ResolveBackend(ResolveBackend(requested, libs), libs) == ResolveBackend(requested, libs)
  {
  }

  /** `is_available`. */
  predicate IsAvailable(backend: string) {
    backend != NoBackend
  }

  /** Resolution from "auto" yields an available backend exactly when some library is installed. */
  lemma AutoAvailable(libs: Libraries)
    ensures IsAvailable(ResolveBackend(Auto, libs)) <==> libs.hasPyPdf2 || libs.hasReportLab
  {
  }

  const NoLibraryError: string := "No PDF processing library available. Install PyPDF2 or ReportLab."
  const NoInputError: string := "No valid PDF files to merge"
  const NoSupportedError: string := "No supported PDF backend available"
  const CoverPageWarning: string := "Only cover page created. Install PyPDF2 for full merging."
  const BookmarkError: string := "PyPDF2 required for bookmark functionality"

  /** A merge input: an existing path whose suffix is ".pdf" in any letter case. */
  predicate IsMergeInput(fs: FileSystem, f: string) {
    Exists(fs, f) && Lower(Suffix(Name(f))) == ".pdf"
  }

  function MergeInputTest(fs: FileSystem): string -> bool {
    (f: string) => IsMergeInput(fs, f)
  }

  /** The input filter of `merge_pdfs`, in the caller's order. */
  function MergeInputs(fs: FileSystem, files: seq<string>): (r: seq<string>)
    ensures |r| <= |files|
    ensures forall f :: f in r <==> f in files && IsMergeInput(fs, f)
  {
    Filter(files, MergeInputTest(fs))
  }

  /** Filtering inputs commutes with concatenating them, so the relative order of inputs is kept. */
  lemma MergeInputsAppend(fs: FileSystem, a: seq<string>, b: seq<string>)
    ensures MergeInputs(fs, a + b) == MergeInputs(fs, a) + MergeInputs(fs, b)
  {
    FilterAppend(a, b, MergeInputTest(fs));
  }

  /** The bookmark given to the `i`-th merged file. */
  function BookmarkName(bookmarks: Option<seq<string>>, i: nat, file: string): (r: Option<string>)
    ensures bookmarks.Some? && i < |bookmarks.value| ==> r == Some(bookmarks.value[i])
    ensures bookmarks.None? || bookmarks.value == [] ==> r == Some(Stem(Name(file)))
    ensures bookmarks.Some? && bookmarks.value != [] && i >= |bookmarks.value| ==> r.None?
  {
    if bookmarks.Some? && bookmarks.value != [] && i < |bookmarks.value| then Some(bookmarks.value[i])
    else if bookmarks.None? || bookmarks.value == [] then Some(Stem(Name(file)))
    else None
  }

  /** One file appended to the merged document under its bookmark. */
  datatype Part = Part(path: string, bookmark: Option<string>)

  /** What the output file holds. */
  datatype Contents = NoOutput | Pages(parts: seq<Part>) | CoverPage(names: seq<string>)

  /** What the PDF library does: which appends raise, and the error of anything else that raises. */
  datatype LibraryRun = LibraryRun(appendFails: set<string>, failure: Option<string>)

  datatype MergeResult = MergeResult(
    success: bool,
    error: Option<string>,
    outputPath: Option<string>,
    filesMerged: nat,
    backend: Option<string>,
    warning: Option<string>,
    contents: Contents)

  function MergeFailure(error: string): MergeResult {
    MergeResult(false, Some(error), None, 0, None, None, NoOutput)
  }

  /** Every file of the list with the bookmark it is appended under. */
  function Planned(files: seq<string>, bookmarks: Option<seq<string>>): (r: seq<Part>)
    ensures |r| == |files|
    ensures forall k :: 0 <= k < |r| ==> r[k] == Part(files[k], BookmarkName(bookmarks, k, files[k]))
  {
    seq(|files|, k requires 0 <= k < |files| => Part(files[k], BookmarkName(bookmarks, k, files[k])))
  }

  predicate Appended(run: LibraryRun, p: Part) {
    p.path !in run.appendFails
  }

  function AppendedTest(run: LibraryRun): Part -> bool {
    (p: Part) => Appended(run, p)
  }

  /** `_merge_with_pypdf2`: a failing append is skipped, yet `files_merged` counts every input. */
  function MergeWithPyPdf2(files: seq<string>, output: string, bookmarks: Option<seq<string>>,
                           run: LibraryRun): (r: MergeResult)
    ensures r.success <==> run.failure.None?
    ensures !r.success ==> r == MergeFailure(run.failure.value)
    ensures r.success ==>
      && r.outputPath == Some(output)
      && r.filesMerged == |files|
      && r.backend == Some(PyPdf2)
      && r.warning.None?
      && r.contents.Pages?
      && (forall p :: p in r.contents.parts <==> p in Planned(files, bookmarks) && p.path !in run.appendFails)
  {
    if run.failure.Some? then MergeFailure(run.failure.value)
    else
      var parts := Filter(Planned(files, bookmarks), AppendedTest(run));
      MergeResult(true, None, Some(output), |files|, Some(PyPdf2), None, Pages(parts))
  }

  /** Without a bookmark list every file is planned under its own stem, so two lists plan one after the other. */
  lemma PlannedAppend(a: seq<string>, b: seq<string>)
    ensures Planned(a + b, None) == Planned(a, None) + Planned(b, None)
  {
    var l, r := Planned(a + b, None), Planned(a, None) + Planned(b, None);
    forall k | 0 <= k < |l| ensures l[k] == r[k] {
      if k < |a| {
        assert (a + b)[k] == a[k];
      } else {
        assert (a + b)[k] == b[k - |a|];
      }
    }
  }

  /** Without a bookmark list, merging `a + b` appends the parts of `a`, then those of `b`. */
  lemma PyPdf2PartsAppend(a: seq<string>, b: seq<string>, output: string, run: LibraryRun)
    requires run.failure.None?
    ensures MergeWithPyPdf2(a + b, output, None, run).contents.parts
         == MergeWithPyPdf2(a, output, None, run).contents.parts + MergeWithPyPdf2(b, output, None, run).contents.parts
  {
    PlannedAppend(a, b);
    FilterAppend(Planned(a, None), Planned(b, None), AppendedTest(run));
  }

  /** One file is appended once under its first bookmark, unless its append fails. */
  lemma PyPdf2OneFile(f: string, output: string, bookmarks: Option<seq<string>>, run: LibraryRun)
    requires run.failure.None?
    ensures MergeWithPyPdf2([f], output, bookmarks, run).contents.parts
         == (if f in run.appendFails then [] else [Part(f, BookmarkName(bookmarks, 0, f))])
  {
    var planned := Planned([f], bookmarks);
    assert planned == [Part(f, BookmarkName(bookmarks, 0, f))];
    FilterCons(planned, AppendedTest(run));
    assert planned[1..] == [];
  }

  /** When no append fails, every input is merged once, in order, under its bookmark. */
  lemma PyPdf2MergesAllInOrder(files: seq<string>, output: string, bookmarks: Option<seq<string>>, run: LibraryRun)
    requires run.failure.None?
    requires forall f :: f in files ==> f !in run.appendFails
    ensures MergeWithPyPdf2(files, output, bookmarks, run).contents.parts == Planned(files, bookmarks)
  {
    FilterKeepsAll(Planned(files, bookmarks), AppendedTest(run));
  }

  /** The names listed on the cover page, one per input. */
  function CoverNames(files: seq<string>): (r: seq<string>)
    ensures |r| == |files|
    ensures forall k :: 0 <= k < |r| ==> r[k] == Name(files[k])
  {
    seq(|files|, k requires 0 <= k < |files| => Name(files[k]))
  }

  /** `_merge_with_reportlab`: only a cover page listing the inputs, reported as a success with a warning. */
  function MergeWithReportLab(files: seq<string>, output: string, run: LibraryRun): (r: MergeResult)
    ensures r.success <==> run.failure.None?
    ensures !r.success ==> r == MergeFailure(run.failure.value)
    ensures r.success ==>
      && r.outputPath == Some(output)
      && r.filesMerged == |files|
      && r.backend == Some(ReportLab)
      && r.warning == Some(CoverPageWarning)
      && r.contents == CoverPage(CoverNames(files))
  {
    if run.failure.Some? then MergeFailure(run.failure.value)
    else MergeResult(true, None, Some(output), |files|, Some(ReportLab), Some(CoverPageWarning),
                     CoverPage(CoverNames(files)))
  }

  /** `merge_pdfs`. */
  function MergePdfs(backend: string, fs: FileSystem, files: seq<string>, output: string,
                     bookmarks: Option<seq<string>>, run: LibraryRun): (r: MergeResult)
    ensures !IsAvailable(backend) ==> r == MergeFailure(NoLibraryError)
    ensures IsAvailable(backend) && MergeInputs(fs, files) == [] ==> r == MergeFailure(NoInputError)
    ensures r.success <==>
      IsAvailable(backend) && MergeInputs(fs, files) != [] && (backend == PyPdf2 || backend == ReportLab)
      && run.failure.None?
    ensures r.success ==>
      && r.filesMerged == |MergeInputs(fs, files)|
      && r.outputPath == Some(output)
    ensures MergeInputs(fs, files) != [] && backend == PyPdf2 ==>
      r == MergeWithPyPdf2(MergeInputs(fs, files), output, bookmarks, run)
    ensures MergeInputs(fs, files) != [] && backend == ReportLab ==>
      r == MergeWithReportLab(MergeInputs(fs, files), output, run)
    ensures IsAvailable(backend) && MergeInputs(fs, files) != [] && backend != PyPdf2 && backend != ReportLab ==>
      r == MergeFailure(NoSupportedError)
  {
    if !IsAvailable(backend) then MergeFailure(NoLibraryError)
    else
      var inputs := MergeInputs(fs, files);
      if inputs == [] then MergeFailure(NoInputError)
      else if backend == PyPdf2 then MergeWithPyPdf2(inputs, output, bookmarks, run)
      else if backend == ReportLab then MergeWithReportLab(inputs, output, run)
      else MergeFailure(NoSupportedError)
  }

  /** Without a backend the merge never looks at the inputs or the library. */
  lemma UnavailableIgnoresInputs(fs: FileSystem, fs': FileSystem, files: seq<string>, files': seq<string>,
                                 output: string, output': string, bookmarks: Option<seq<string>>,
                                 bookmarks': Option<seq<string>>, run: LibraryRun, run': LibraryRun)
    ensures MergePdfs(NoBackend, fs, files, output, bookmarks, run)
         == MergePdfs(NoBackend, fs', files', output', bookmarks', run')
  {
  }

  /** A merged part is an input, kept in place, under the bookmark of its position. */
  lemma MergedPartsArePlanned(backend: string, fs: FileSystem, files: seq<string>, output: string,
                              bookmarks: Option<seq<string>>, run: LibraryRun, p: Part)
    requires backend == PyPdf2
    requires MergePdfs(backend, fs, files, output, bookmarks, run).success
    requires p in MergePdfs(backend, fs, files, output, bookmarks, run).contents.parts
    ensures p.path in files && IsMergeInput(fs, p.path) && p.path !in run.appendFails
    ensures exists k :: 0 <= k < |MergeInputs(fs, files)| && p.path == MergeInputs(fs, files)[k]
                        && p.bookmark == BookmarkName(bookmarks, k, p.path)
  {
    var inputs := MergeInputs(fs, files);
    var planned := Planned(inputs, bookmarks);
    var r := MergeWithPyPdf2(inputs, output, bookmarks, run);
    assert MergePdfs(backend, fs, files, output, bookmarks, run) == r;
    assert p in r.contents.parts;
    assert p in planned && p.path !in run.appendFails;
    var k :| 0 <= k < |planned| && planned[k] == p;
    assert p.path == inputs[k] && inputs[k] in inputs;
  }

  /** One entry of the `bookmarks` argument of `add_bookmarks`; either key may be absent. */
  datatype BookmarkSpec = BookmarkSpec(title: Option<string>, page: Option<int>)

  datatype OutlineItem = OutlineItem(title: string, page: int)

  /** A PDF document: its pages and its outline. */
  datatype PdfDocument = PdfDocument(pages: seq<string>, outline: seq<OutlineItem>)

  /** The outline item a bookmark entry asks for, with the defaults for missing keys. */
  function OutlineOf(b: BookmarkSpec): (item: OutlineItem)
    ensures item.title == (if b.title.Some? then b.title.value else "Untitled")
    ensures item.page == (if b.page.Some? then b.page.value else 0)
  {
    OutlineItem(b.title.GetOr("Untitled"), b.page.GetOr(0))
  }

  /** The outline items whose page is below the page count, in input order. */
  function OutlineFor(bookmarks: seq<BookmarkSpec>, pageCount: nat): (r: seq<OutlineItem>)
    ensures |r| <= |bookmarks|
    ensures forall item :: item in r ==> item.page < pageCount
    ensures forall k :: 0 <= k < |bookmarks| && OutlineOf(bookmarks[k]).page < pageCount ==>
      OutlineOf(bookmarks[k]) in r
  {
    if bookmarks == [] then []
    else
      var item := OutlineOf(bookmarks[0]);
      var rest := OutlineFor(bookmarks[1..], pageCount);
      assert forall k :: 1 <= k < |bookmarks| ==> bookmarks[k] == bookmarks[1..][k - 1];
      if item.page < pageCount then [item] + rest else rest
  }

  /** Bookmarks are considered one after another: the outline for `a + b` is that of `a`, then that of `b`. */
  lemma {:induction false} OutlineForAppend(a: seq<BookmarkSpec>, b: seq<BookmarkSpec>, pageCount: nat)
    ensures OutlineFor(a + b, pageCount) == OutlineFor(a, pageCount) + OutlineFor(b, pageCount)
  {
    if a == [] {
      assert a + b == b;
    } else {
      assert (a + b)[0] == a[0] && (a + b)[1..] == a[1..] + b;
      OutlineForAppend(a[1..], b, pageCount);
    }
  }

  /** One bookmark enters the outline, once and with its defaults, exactly when its page is below the page count. */
  lemma OutlineForOne(b: BookmarkSpec, pageCount: nat)
    ensures OutlineFor([b], pageCount) == (if OutlineOf(b).page < pageCount then [OutlineOf(b)] else [])
  {
    assert [b][1..] == [];
  }

  datatype BookmarkResult = BookmarkResult(
    success: bool,
    error: Option<string>,
    outputPath: Option<string>,
    bookmarksAdded: nat,
    written: Option<PdfDocument>)

  /**
   * `add_bookmarks`: `source` is what reading the file yields, `writeFailure` the error of
   * writing it back. The rewritten file keeps every page and carries the new outline only.
   */
  function AddBookmarks(backend: string, pdf: string, bookmarks: seq<BookmarkSpec>,
                        source: Result<PdfDocument, string>, writeFailure: Option<string>): (r: BookmarkResult)
    ensures backend != PyPdf2 ==> r == BookmarkResult(false, Some(BookmarkError), None, 0, None)
    ensures r.success <==> backend == PyPdf2 && source.Success? && writeFailure.None?
    ensures backend == PyPdf2 && source.Failure? ==> r.error == Some(source.error)
    ensures backend == PyPdf2 && source.Success? && writeFailure.Some? ==> r.error == writeFailure
    ensures r.success ==>
      && r.outputPath == Some(pdf)
      && r.bookmarksAdded == |bookmarks|
      && r.written == Some(PdfDocument(source.value.pages, OutlineFor(bookmarks, |source.value.pages|)))
  {
    if backend != PyPdf2 then BookmarkResult(false, Some(BookmarkError), None, 0, None)
    else match source
      case Failure(e) => BookmarkResult(false, Some(e), None, 0, None)
      case Success(doc) =>
        if writeFailure.Some? then BookmarkResult(false, writeFailure, None, 0, None)
        else
          var written := PdfDocument(doc.pages, OutlineFor(bookmarks, |doc.pages|));
          BookmarkResult(true, None, Some(pdf), |bookmarks|, Some(written))
  }

  /** The count reported by `add_bookmarks` is the number requested, not the number added. */
  lemma BookmarksAddedCountsRequests()
    ensures AddBookmarks(PyPdf2, "a.pdf", [BookmarkSpec(None, Some(3))], Success(PdfDocument(["p"], [])), None)
            .bookmarksAdded == 1
    ensures AddBookmarks(PyPdf2, "a.pdf", [BookmarkSpec(None, Some(3))], Success(PdfDocument(["p"], [])), None)
            .written.value.outline == []
  {
    assert OutlineOf(BookmarkSpec(None, Some(3))).page == 3;
  }

  /**
   * What inspecting one file yields, step by step: the `stat` size; the page
   * count (opening the file and building a `PdfReader` included); the reader's
   * metadata, each entry being what looking that key up gives. A metadata that
   * is None or empty is the empty map: every field then reads as "".
   */
  datatype PdfProbe = PdfProbe(
    size: Result<nat, string>,
    pages: Result<nat, string>,
    metadata: Result<map<string, Result<string, string>>, string>)

  datatype PdfInfo = PdfInfo(
    present: bool, path: string, size: nat, pages: nat,
    title: string, author: string, subject: string, creator: string,
    error: Option<string>)

  /** The metadata keys copied into the record, in the order they are read. */
  const InfoKeys: seq<string> := ["/Title", "/Author", "/Subject", "/Creator"]

  /** The four text fields of a record, in the order of `InfoKeys`. */
  function FieldsOf(info: PdfInfo): seq<string> {
    [info.title, info.author, info.subject, info.creator]
  }

  /** `metadata.get(key, '')`: an absent key reads as "". */
  function Lookup(m: map<string, Result<string, string>>, key: string): Result<string, string> {
    if key in m then m[key] else Success("")
  }

  /** The first `n` keys of `InfoKeys` are looked up without raising. */
  predicate LookupsSucceed(m: map<string, Result<string, string>>, n: nat)
    requires n <= |InfoKeys|
  {
    forall j :: 0 <= j < n ==> Lookup(m, InfoKeys[j]).Success?
  }

  datatype FieldsRead = FieldsRead(values: seq<string>, error: Option<string>)

  /**
   * Looking `keys` up one after another: the values read before the first
   * lookup that raises, and the reason it raised.
   */
  function ReadFields(m: map<string, Result<string, string>>, keys: seq<string>): (r: FieldsRead)
    ensures |r.values| <= |keys|
    ensures r.error.None? ==> |r.values| == |keys|
    ensures forall k :: 0 <= k < |r.values| ==> Lookup(m, keys[k]) == Success(r.values[k])
    ensures r.error.Some? ==> |r.values| < |keys| && Lookup(m, keys[|r.values|]) == Failure(r.error.value)
  {
    if keys == [] then FieldsRead([], None)
    else match Lookup(m, keys[0])
      case Failure(e) => FieldsRead([], Some(e))
      case Success(v) =>
        var rest := ReadFields(m, keys[1..]);
        FieldsRead([v] + rest.values, rest.error)
  }

  function FieldAt(values: seq<string>, k: nat): string {
    if k < |values| then values[k] else ""
  }

  /** Under pypdf2, the size, the page count and the metadata all came back. */
  predicate ReaderReached(backend: string, fs: FileSystem, path: string, probe: PdfProbe) {
    Exists(fs, path) && backend == PyPdf2 && probe.size.Success? && probe.pages.Success? && probe.metadata.Success?
  }

  /**
   * `get_pdf_info`: pages and metadata are read only with the pypdf2 backend.
   * Every step writes into the record before the next one is tried, so an
   * exception keeps what was read before it.
   */
  function GetPdfInfo(backend: string, fs: FileSystem, path: string, probe: PdfProbe): (info: PdfInfo)
    ensures info.present == Exists(fs, path) && info.path == path
    ensures !Exists(fs, path) ==> info == PdfInfo(false, path, 0, 0, "", "", "", "", None)
    ensures info.error.Some? <==>
      Exists(fs, path) &&
      (probe.size.Failure? ||
       (backend == PyPdf2 &&
        (probe.pages.Failure? || probe.metadata.Failure? || !LookupsSucceed(probe.metadata.value, 4))))
    ensures Exists(fs, path) && probe.size.Failure? ==> info.size == 0 && info.error == Some(probe.size.error)
    ensures Exists(fs, path) && probe.size.Success? ==> info.size == probe.size.value
    ensures info.pages == (if Exists(fs, path) && backend == PyPdf2 && probe.size.Success? && probe.pages.Success?
                           then probe.pages.value else 0)
    ensures Exists(fs, path) && backend == PyPdf2 && probe.size.Success? && probe.pages.Failure? ==>
      info.error == Some(probe.pages.error)
    ensures Exists(fs, path) && backend == PyPdf2 && probe.size.Success? && probe.pages.Success? && probe.metadata.Failure? ==>
      info.error == Some(probe.metadata.error)
    ensures forall k :: 0 <= k < 4 ==>
      FieldsOf(info)[k] ==
        (if ReaderReached(backend, fs, path, probe) && LookupsSucceed(probe.metadata.value, k + 1)
         then Lookup(probe.metadata.value, InfoKeys[k]).value else "")
  {
    var blank := PdfInfo(Exists(fs, path), path, 0, 0, "", "", "", "", None);
    if !Exists(fs, path) then blank
    else match probe.size
      case Failure(e) => blank.(error := Some(e))
      case Success(size) =>
        if backend != PyPdf2 then blank.(size := size)
        else match probe.pages
          case Failure(e) => blank.(size := size, error := Some(e))
          case Success(pages) =>
            match probe.metadata
            case Failure(e) => blank.(size := size, pages := pages, error := Some(e))
            case Success(m) =>
              var read := ReadFields(m, InfoKeys);
              ReadFieldsPrefix(m, read);
              blank.(size := size, pages := pages,
                     title := FieldAt(read.values, 0), author := FieldAt(read.values, 1),
                     subject := FieldAt(read.values, 2), creator := FieldAt(read.values, 3),
                     error := read.error)
  }

  /** A field is read exactly when every lookup up to and including its own succeeds. */
  lemma ReadFieldsPrefix(m: map<string, Result<string, string>>, read: FieldsRead)
    requires read == ReadFields(m, InfoKeys)
    ensures read.error.None? <==> LookupsSucceed(m, 4)
    ensures forall k :: 0 <= k < 4 ==>
      FieldAt(read.values, k) == (if LookupsSucceed(m, k + 1) then Lookup(m, InfoKeys[k]).value else "")
  {
  }

  datatype Rejection = Rejection(path: string, error: string)

  datatype Verdict = Accepted(info: PdfInfo) | Rejected(rejection: Rejection)

  /**
   * The judgement `validate_pdfs` passes on one file: existence first, then the
   * suffix, then inspection, `infos(f)` being what `get_pdf_info` gives for `f`.
   */
  function Judge(fs: FileSystem, f: string, infos: string -> PdfInfo): (v: Verdict)
    ensures !Exists(fs, f) ==> v == Rejected(Rejection(f, "File not found"))
    ensures Exists(fs, f) && Lower(Suffix(Name(f))) != ".pdf" ==> v == Rejected(Rejection(f, "Not a PDF file"))
    ensures v.Accepted? <==> IsMergeInput(fs, f) && infos(f).error.None?
    ensures v.Accepted? ==> v.info == infos(f)
    ensures v.Rejected? ==> v.rejection.path == f
  {
    if !Exists(fs, f) then Rejected(Rejection(f, "File not found"))
    else if Lower(Suffix(Name(f))) != ".pdf" then Rejected(Rejection(f, "Not a PDF file"))
    else
      var info := infos(f);
      if info.error.Some? then Rejected(Rejection(f, info.error.value)) else Accepted(info)
  }

  predicate IsAccepted(fs: FileSystem, infos: string -> PdfInfo, f: string) {
    Judge(fs, f, infos).Accepted?
  }

  function AcceptedTest(fs: FileSystem, infos: string -> PdfInfo): string -> bool {
    (f: string) => IsAccepted(fs, infos, f)
  }

  function RejectedTest(fs: FileSystem, infos: string -> PdfInfo): string -> bool {
    (f: string) => !IsAccepted(fs, infos, f)
  }

  datatype PdfReport = PdfReport(
    valid: seq<PdfInfo>, invalid: seq<Rejection>,
    totalFiles: nat, totalPages: nat, totalSize: nat)

  function SumPages(infos: seq<PdfInfo>): nat {
    if infos == [] then 0 else infos[0].pages + SumPages(infos[1..])
  }

  function SumSizes(infos: seq<PdfInfo>): nat {
    if infos == [] then 0 else infos[0].size + SumSizes(infos[1..])
  }

  /** The information `infos` gives for each of `files`, in order. */
  function InfosOf(files: seq<string>, infos: string -> PdfInfo): (r: seq<PdfInfo>)
    ensures |r| == |files|
  {
    if files == [] then [] else [infos(files[0])] + InfosOf(files[1..], infos)
  }

  function RejectedPaths(xs: seq<Rejection>): (r: seq<string>)
    ensures |r| == |xs|
  {
    if xs == [] then [] else [xs[0].path] + RejectedPaths(xs[1..])
  }

  /** What `validate_pdfs` reports for `files` once their verdicts are in. */
  predicate Tallies(fs: FileSystem, files: seq<string>, infos: string -> PdfInfo, r: PdfReport) {
    && r.totalFiles == |files|
    && r.valid == InfosOf(Filter(files, AcceptedTest(fs, infos)), infos)
    && RejectedPaths(r.invalid) == Filter(files, RejectedTest(fs, infos))
    && AllJudged(fs, infos, r.invalid)
    && r.totalPages == SumPages(r.valid) && r.totalSize == SumSizes(r.valid)
  }

  /** Each rejection is what judging its own path gives. */
  predicate AllJudged(fs: FileSystem, infos: string -> PdfInfo, xs: seq<Rejection>) {
    xs == [] || (Judge(fs, xs[0].path, infos) == Rejected(xs[0]) && AllJudged(fs, infos, xs[1..]))
  }

  lemma {:induction false} AllJudgedEach(fs: FileSystem, infos: string -> PdfInfo, xs: seq<Rejection>)
    requires AllJudged(fs, infos, xs)
    ensures forall k :: 0 <= k < |xs| ==> Judge(fs, xs[k].path, infos) == Rejected(xs[k])
  {
    if xs != [] {
      AllJudgedEach(fs, infos, xs[1..]);
      assert forall k :: 1 <= k < |xs| ==> xs[k] == xs[1..][k - 1];
    }
  }

  /** The report for one more file in front: its verdict goes in front of the matching list. */
  function AddVerdict(v: Verdict, rest: PdfReport, n: nat): (r: PdfReport)
    ensures r.totalFiles == n
    ensures v.Accepted? ==> r.valid == [v.info] + rest.valid && r.invalid == rest.invalid
    ensures v.Rejected? ==> r.valid == rest.valid && r.invalid == [v.rejection] + rest.invalid
    ensures rest.totalPages == SumPages(rest.valid) && rest.totalSize == SumSizes(rest.valid) ==>
      r.totalPages == SumPages(r.valid) && r.totalSize == SumSizes(r.valid)
  {
    match v
    case Accepted(info) =>
      PdfReport([info] + rest.valid, rest.invalid, n, info.pages + rest.totalPages, info.size + rest.totalSize)
    case Rejected(rejection) =>
      PdfReport(rest.valid, [rejection] + rest.invalid, n, rest.totalPages, rest.totalSize)
  }

  lemma AddVerdictTallies(fs: FileSystem, files: seq<string>, infos: string -> PdfInfo, rest: PdfReport)
    requires files != []
    requires Tallies(fs, files[1..], infos, rest)
    ensures Tallies(fs, files, infos, AddVerdict(Judge(fs, files[0], infos), rest, |files|))
  {
    FilterCons(files, AcceptedTest(fs, infos));
    FilterCons(files, RejectedTest(fs, infos));
    if IsAccepted(fs, infos, files[0]) {
      AddAccepted(fs, files, infos, rest);
    } else {
      AddRejected(fs, files, infos, rest);
    }
  }

  lemma AddAccepted(fs: FileSystem, files: seq<string>, infos: string -> PdfInfo, rest: PdfReport)
    requires files != [] && IsAccepted(fs, infos, files[0])
    requires Filter(files, AcceptedTest(fs, infos)) == [files[0]] + Filter(files[1..], AcceptedTest(fs, infos))
    requires Filter(files, RejectedTest(fs, infos)) == Filter(files[1..], RejectedTest(fs, infos))
    requires Tallies(fs, files[1..], infos, rest)
    ensures Tallies(fs, files, infos, AddVerdict(Judge(fs, files[0], infos), rest, |files|))
  {
    var acc := Filter(files, AcceptedTest(fs, infos));
    var v := Judge(fs, files[0], infos);
    assert v.Accepted?;
    var r := AddVerdict(v, rest, |files|);
    assert acc[0] == files[0] && acc[1..] == Filter(files[1..], AcceptedTest(fs, infos));
    assert InfosOf(acc, infos) == [v.info] + rest.valid;
    assert r.valid == [v.info] + rest.valid && r.valid[1..] == rest.valid;
  }

  lemma AddRejected(fs: FileSystem, files: seq<string>, infos: string -> PdfInfo, rest: PdfReport)
    requires files != [] && !IsAccepted(fs, infos, files[0])
    requires Filter(files, AcceptedTest(fs, infos)) == Filter(files[1..], AcceptedTest(fs, infos))
    requires Filter(files, RejectedTest(fs, infos)) == [files[0]] + Filter(files[1..], RejectedTest(fs, infos))
    requires Tallies(fs, files[1..], infos, rest)
    ensures Tallies(fs, files, infos, AddVerdict(Judge(fs, files[0], infos), rest, |files|))
  {
    var r := AddVerdict(Judge(fs, files[0], infos), rest, |files|);
    assert r.invalid[1..] == rest.invalid;
  }

  /** What `get_pdf_info` gives for each path, inspecting `f` giving `probes(f)`. */
  function Inspection(backend: string, fs: FileSystem, probes: string -> PdfProbe): string -> PdfInfo {
    (f: string) => GetPdfInfo(backend, fs, f, probes(f))
  }

  /**
   * `validate_pdfs`: every input is judged once, in order, and the totals cover
   * the accepted ones. For the source's own inspection `infos` is `Inspection(backend, fs, probes)`.
   */
  function ValidatePdfs(fs: FileSystem, files: seq<string>, infos: string -> PdfInfo): (r: PdfReport)
    ensures r.totalFiles == |files|
    ensures r.valid == InfosOf(Filter(files, AcceptedTest(fs, infos)), infos)
    ensures RejectedPaths(r.invalid) == Filter(files, RejectedTest(fs, infos))
    ensures AllJudged(fs, infos, r.invalid)
    ensures forall k :: 0 <= k < |r.invalid| ==> Judge(fs, r.invalid[k].path, infos) == Rejected(r.invalid[k])
    ensures r.totalPages == SumPages(r.valid) && r.totalSize == SumSizes(r.valid)
    decreases |files|
  {
    if files == [] then PdfReport([], [], 0, 0, 0)
    else
      var rest := ValidatePdfs(fs, files[1..], infos);
      AddVerdictTallies(fs, files, infos, rest);
      var r := AddVerdict(Judge(fs, files[0], infos), rest, |files|);
      AllJudgedEach(fs, infos, r.invalid);
      r
  }

  /** Every input lands in exactly one of the two lists. */
  lemma ValidatePdfsPartitions(fs: FileSystem, files: seq<string>, infos: string -> PdfInfo)
    ensures |ValidatePdfs(fs, files, infos).valid| + |ValidatePdfs(fs, files, infos).invalid| == |files|
  {
    FilterPartition(files, AcceptedTest(fs, infos), RejectedTest(fs, infos));
  }
}

=== FILE: readme.dfy ===
/**
 * Best-effort mining of a module's README text: a description line and bullet
 * lists under a heading that mentions a keyword (module_validator.py).
 */
module Readme {
  import opened Text

  /** The line mentions `keyword`, case-insensitively (`keyword in line.lower()`). */
  predicate HasKeyword(line: string, keyword: string) {
    Contains(Lower(line), keyword)
  }

  /** A bullet line: its stripped form starts with '-' or '*'. */
  predicate IsBullet(line: string) {
    StartsWith(Strip(line), "-") || StartsWith(Strip(line), "*")
  }

  /** The text of a bullet: the stripped line without its marker, stripped again. */
  function BulletText(line: string): string
    requires IsBullet(line)
  {
    Strip(Strip(line)[1..])
  }

  /** A line that closes a section: a heading, or a non-blank line that is not indented by a space. */
  predicate ClosesSection(line: string) {
    StartsWith(Strip(line), "#") || (Strip(line) != "" && !StartsWith(line, " "))
  }

  /** How the section scan treats one line, tested in the order the scan tests them. */
  datatype LineKind = KeywordLine | BulletLine(text: string) | ClosingLine | OtherLine

  function Classify(line: string, keyword: string): LineKind {
    if HasKeyword(line, keyword) then KeywordLine
    else if IsBullet(line) then BulletLine(BulletText(line))
    else if ClosesSection(line) then ClosingLine
    else OtherLine
  }

  /** How the scan classifies each line of a README, in order. */
  function KindsOf(lines: seq<string>, keyword: string): (r: seq<LineKind>)
    ensures |r| == |lines|
    ensures forall k :: 0 <= k < |lines| ==> r[k] == Classify(lines[k], keyword)
  {
    seq(|lines|, k requires 0 <= k < |lines| => Classify(lines[k], keyword))
  }

  /**
   * The scanning loop of `_extract_objectives`, `_extract_prerequisites` and
   * `_extract_resources`, over the classified lines: `active` says whether a
   * keyword line has been seen.
   */
  function Scan(kinds: seq<LineKind>, active: bool): (r: seq<string>)
    ensures |r| <= |kinds|
    ensures !active && KeywordLine !in kinds ==> r == []
  {
    if |kinds| == 0 then []
    else
      var rest := kinds[1..];
      assert kinds == [kinds[0]] + rest;
      match kinds[0]
      case KeywordLine => Scan(rest, true)
      case BulletLine(text) =>
        if active then [text] + Scan(rest, true) else Scan(rest, false)
      case ClosingLine =>
        if active then [] else Scan(rest, false)
      case OtherLine => Scan(rest, active)
  }

  /** The bullet list under the first line mentioning `keyword`. */
  function ExtractSection(content: string, keyword: string): seq<string> {
    Scan(KindsOf(Lines(content), keyword), false)
  }

  function ExtractObjectives(content: string): seq<string> {
    ExtractSection(content, "learning objectives")
  }

  function ExtractPrerequisites(content: string): seq<string> {
    ExtractSection(content, "prerequisites")
  }

  function ExtractResources(content: string): seq<string> {
    ExtractSection(content, "resources")
  }

  // An independent, declarative account of the section scan.

  /** Index of the first line of the given kind, or |kinds|. */
  function FirstOfKind(kinds: seq<LineKind>, kind: LineKind): (k: nat)
    ensures k <= |kinds|
    ensures k < |kinds| ==> kinds[k] == kind
    ensures forall j :: 0 <= j < k ==> kinds[j] != kind
  {
    if |kinds| == 0 then 0
    else if kinds[0] == kind then 0
    else
      var k := FirstOfKind(kinds[1..], kind);
      assert forall j :: 1 <= j < |kinds| ==> kinds[j] == kinds[1..][j - 1];
      1 + k
  }

  /** The texts of the bullet lines of a window, in order. */
  function Bullets(kinds: seq<LineKind>): seq<string> {
    if |kinds| == 0 then []
    else match kinds[0]
      case BulletLine(text) => [text] + Bullets(kinds[1..])
      case _ => Bullets(kinds[1..])
  }

  /**
   * The section as a reader describes it: the bullets strictly after the first
   * keyword line and before the first heading or unindented text line.
   */
  function SectionSpec(kinds: seq<LineKind>): seq<string> {
    var k := FirstOfKind(kinds, KeywordLine);
    if k == |kinds| then []
    else
      var window := kinds[k + 1..];
      Bullets(window[..FirstOfKind(window, ClosingLine)])
  }

  /** Once a keyword line has been seen, the scan collects the bullets up to the first closing line. */
  lemma {:induction false} ActiveScan(kinds: seq<LineKind>)
    ensures Scan(kinds, true) == Bullets(kinds[..FirstOfKind(kinds, ClosingLine)])
  {
    if |kinds| > 0 && kinds[0] != ClosingLine {
      var rest := kinds[1..];
      ActiveScan(rest);
      var e := FirstOfKind(kinds, ClosingLine);
      var e' := FirstOfKind(rest, ClosingLine);
      assert e == e' + 1;
      var window := kinds[..e];
      assert window[1..] == rest[..e'];
      assert window[0] == kinds[0];
    }
  }

  /** Before any keyword line, the scan skips to the first one and then collects as above. */
  lemma {:induction false} InactiveScan(kinds: seq<LineKind>)
    ensures Scan(kinds, false) == SectionSpec(kinds)
  {
    if |kinds| > 0 {
      var rest := kinds[1..];
      if kinds[0] == KeywordLine {
        ActiveScan(rest);
      } else {
        InactiveScan(rest);
        assert Scan(kinds, false) == Scan(rest, false);
        var k := FirstOfKind(rest, KeywordLine);
        assert FirstOfKind(kinds, KeywordLine) == k + 1;
        if k < |rest| {
          assert kinds[k + 2..] == rest[k + 1..];
        }
      }
    }
  }

  /** The section scan agrees with its declarative description on every README. */
  lemma ExtractSectionSpec(content: string, keyword: string)
    ensures ExtractSection(content, keyword) == SectionSpec(KindsOf(Lines(content), keyword))
  {
    InactiveScan(KindsOf(Lines(content), keyword));
  }

  const DescriptionKeyword: string := "description"

  /** Which lines mention `keyword`. */
  function Mentions(lines: seq<string>, keyword: string): (r: seq<bool>)
    ensures |r| == |lines|
    ensures forall k :: 0 <= k < |lines| ==> r[k] == HasKeyword(lines[k], keyword)
  {
    seq(|lines|, k requires 0 <= k < |lines| => HasKeyword(lines[k], keyword))
  }

  /** The first index in `[i, end)` whose flag is set, or `end`. */
  function FirstMark(marks: seq<bool>, i: nat, end: nat): (k: nat)
    requires i <= end <= |marks|
    ensures i <= k <= end
    ensures k < end ==> marks[k]
    ensures forall j :: i <= j < k ==> !marks[j]
    decreases end - i
  {
    if i == end || marks[i] then i else FirstMark(marks, i + 1, end)
  }

  /**
   * `_extract_description` from line `i` on, `marks` saying which lines mention the
   * keyword: the stripped successor of the first mentioning line that has a successor.
   */
  function DescriptionFrom(lines: seq<string>, marks: seq<bool>, i: nat): (r: string)
    requires |marks| == |lines| && i <= |lines|
    ensures var end := if i < |lines| then |lines| - 1 else i;
      var k := FirstMark(marks, i, end);
      r == if k < end then Strip(lines[k + 1]) else ""
    decreases |lines| - i
  {
    if i == |lines| then ""
    else if marks[i] && i + 1 < |lines| then Strip(lines[i + 1])
    else DescriptionFrom(lines, marks, i + 1)
  }

  function ExtractDescription(content: string): string {
    var lines := Lines(content);
    DescriptionFrom(lines, Mentions(lines, DescriptionKeyword), 0)
  }
}

=== FILE: refresh_metadata.dfy ===
/**
 * The metadata refresh tool (refresh_metadata.py): BibTeX keys are mined from
 * `references.bib` line by line and written, together with the title,
 * subtitle and tags given, into the module's `metadata.yaml` mapping.
 */
module RefreshMetadata {
  import opened Wrappers
  import opened Seqs
  import opened Text
  import opened Values
  import Fs

  /** A line that opens a BibTeX entry: it starts with '@' once stripped. */
  predicate IsEntryLine(line: string) {
    StartsWith(Strip(line), "@")
  }

  function EntryLineTest(): string -> bool {
    (line: string) => IsEntryLine(line)
  }

  /** `after.split(",", 1)[0]`: the text up to the first ',', or all of it. */
  function UpToComma(after: string): (r: string)
    ensures ',' !in r
    ensures |r| <= |after| && r == after[..|r|]
  {
    if after == [] || after[0] == ',' then [] else [after[0]] + UpToComma(after[1..])
  }

  /** The key of a line from its first '{' on; no '{' at all makes the source raise IndexError. */
  function KeyFromBrace(line: string): (r: Result<string, string>)
    ensures r.Failure? <==> '{' !in line
  {
    if line == [] then Failure("list index out of range")
    else if line[0] == '{' then Success(Strip(UpToComma(line[1..])))
    else KeyFromBrace(line[1..])
  }

  /**
   * The key of an entry line: what follows the first '{', up to the next ',', stripped
   * (`line.split("{", 1)[1].split(",", 1)[0].strip()`).
   */
  function BibKey(line: string): (r: Result<string, string>)
    ensures r.Failure? <==> '{' !in line
  {
    KeyFromBrace(line)
  }

  /** A line made of a '{'-free head, then '{', then `after`, has the key found in `after`. */
  lemma {:induction false} KeyFromBraceAfterHead(head: string, after: string)
    requires '{' !in head
    ensures KeyFromBrace(head + "{" + after) == Success(Strip(UpToComma(after)))
  {
    if head == [] {
      assert head + "{" + after == "{" + after;
      assert ("{" + after)[1..] == after;
    } else {
      assert (head + "{" + after)[0] == head[0];
      assert (head + "{" + after)[1..] == head[1..] + "{" + after;
      KeyFromBraceAfterHead(head[1..], after);
    }
  }

  /** The key is cut at the first ','. */
  lemma {:induction false} UpToCommaOf(key: string, rest: string)
    requires ',' !in key
    ensures UpToComma(key + "," + rest) == key
  {
    if key == [] {
      assert key + "," + rest == "," + rest;
    } else {
      assert (key + "," + rest)[0] == key[0];
      assert (key + "," + rest)[1..] == key[1..] + "," + rest;
      UpToCommaOf(key[1..], rest);
    }
  }

  /** A comma-free text is taken whole. */
  lemma {:induction false} UpToCommaAll(key: string)
    requires ',' !in key
    ensures UpToComma(key) == key
  {
    if key != [] {
      UpToCommaAll(key[1..]);
    }
  }

  /** A '{'-free head and a comma-cut key give that key, stripped. */
  lemma KeyOfShapedLine(head: string, after: string, key: string)
    requires '{' !in head && UpToComma(after) == key
    ensures BibKey(head + "{" + after) == Success(Strip(key))
  {
    KeyFromBraceAfterHead(head, after);
  }

  lemma HeaderShape(kind: string, key: string, rest: string)
    ensures "@" + kind + "{" + key + "," + rest == ("@" + kind) + "{" + (key + "," + rest)
  {
  }

  /** The key written into an entry header is the key read back from it. */
  lemma BibKeyOfHeader(kind: string, key: string, rest: string)
    requires '{' !in kind && ',' !in key && Strip(key) == key
    ensures BibKey("@" + kind + "{" + key + "," + rest) == Success(key)
  {
    HeaderShape(kind, key, rest);
    assert '{' !in "@" + kind;
    UpToCommaOf(key, rest);
    KeyOfShapedLine("@" + kind, key + "," + rest, key);
  }

  /** A header whose key runs to the end of the line, with no ',' after it. */
  lemma BibKeyWithoutComma(kind: string, key: string)
    requires '{' !in kind && ',' !in key
    ensures BibKey("@" + kind + "{" + key) == Success(Strip(key))
  {
    assert '{' !in "@" + kind;
    KeyFromBraceAfterHead("@" + kind, key);
    UpToCommaAll(key);
  }

  /** The keys of the given entry lines, in order; the first line without '{' aborts. */
  function KeysOf(lines: seq<string>): (r: Result<seq<string>, string>)
    ensures r.Success? <==> forall k :: 0 <= k < |lines| ==> BibKey(lines[k]).Success?
    ensures r.Success? ==> |r.value| == |lines| && forall k :: 0 <= k < |lines| ==> r.value[k] == BibKey(lines[k]).value
  {
    if lines == [] then Success([])
    else
      match BibKey(lines[0])
      case Failure(e) => Failure(e)
      case Success(key) =>
        match KeysOf(lines[1..])
        case Failure(e) => Failure(e)
        case Success(rest) =>
          var r := [key] + rest;
          forall k | 0 <= k < |lines| ensures BibKey(lines[k]).Success? && r[k] == BibKey(lines[k]).value {
            if k > 0 {
              assert lines[k] == lines[1..][k - 1];
            }
          }
          Success(r)
  }

  /** The lines of a file that open an entry, in file order. */
  function EntryLines(text: string): (r: seq<string>)
    ensures forall line :: line in r <==> line in Lines(text) && IsEntryLine(line)
  {
    Filter(Lines(text), EntryLineTest())
  }

  /**
   * `extract_bib_keys`: `bib` is None when `references.bib` does not exist, and
   * otherwise what reading it gives: its text, or the reason opening or decoding
   * it raised (a directory of that name, no permission, bytes that are not text).
   */
  function ExtractBibKeys(bib: Option<Fs.FileData>): (r: Result<seq<string>, string>)
    ensures bib.None? ==> r == Success([])
    ensures bib.Some? && bib.value.Unreadable? ==> r == Failure(bib.value.reason)
    ensures bib.Some? && bib.value.Readable? ==>
      && (r.Success? <==> forall k :: 0 <= k < |EntryLines(bib.value.text)| ==> '{' in EntryLines(bib.value.text)[k])
      && (r.Success? ==>
            && |r.value| == |EntryLines(bib.value.text)|
            && forall k :: 0 <= k < |r.value| ==> r.value[k] == BibKey(EntryLines(bib.value.text)[k]).value)
  {
    match bib
    case None => Success([])
    case Some(Unreadable(reason)) => Failure(reason)
    case Some(Readable(text)) => KeysOf(EntryLines(text))
  }

  /** A tag is new when it is non-empty and not already present. */
  predicate IsNewTag(existing: seq<Value>, t: string) {
    t != "" && Str(t) !in existing
  }

  function NewTagTest(existing: seq<Value>): string -> bool {
    (t: string) => IsNewTag(existing, t)
  }

  function Strs(ts: seq<string>): (r: seq<Value>)
    ensures |r| == |ts|
    ensures forall k :: 0 <= k < |ts| ==> r[k] == Str(ts[k])
  {
    seq(|ts|, k requires 0 <= k < |ts| => Str(ts[k]))
  }

  /** The tag merge of `adjust_metadata`: existing tags, then each new non-empty tag, repeats among them kept. */
  function MergeTags(existing: seq<Value>, tags: seq<string>): (r: seq<Value>)
    ensures |existing| <= |r| && r[..|existing|] == existing
    ensures forall t :: t in tags && t != "" ==> Str(t) in r
    ensures forall k :: |existing| <= k < |r| ==> r[k].Str? && r[k].s in tags && IsNewTag(existing, r[k].s)
  {
    var added := Filter(tags, NewTagTest(existing));
    var r := existing + Strs(added);
    forall t | t in tags && t != "" ensures Str(t) in r {
      if Str(t) !in existing {
        KeptByFilter(tags, NewTagTest(existing), t);
        var k :| 0 <= k < |added| && added[k] == t;
        assert r[|existing| + k] == Str(t);
      }
    }
    forall k | |existing| <= k < |r| ensures r[k].Str? && r[k].s in tags && IsNewTag(existing, r[k].s) {
      assert r[k] == Str(added[k - |existing|]);
      InFilter(tags, NewTagTest(existing), added[k - |existing|]);
    }
    r
  }

  /** Merging the same tags twice adds nothing the first merge did not. */
  lemma MergeTagsIdempotent(existing: seq<Value>, tags: seq<string>)
    ensures MergeTags(MergeTags(existing, tags), tags) == MergeTags(existing, tags)
  {
    var once := MergeTags(existing, tags);
    var again := Filter(tags, NewTagTest(once));
    if again != [] {
      InFilter(tags, NewTagTest(once), again[0]);
    }
    assert Strs(again) == [];
  }

  /** Tags are considered one after another: merging `a + b` appends the new tags of `a`, then those of `b`. */
  lemma MergeTagsAppend(existing: seq<Value>, a: seq<string>, b: seq<string>)
    ensures |MergeTags(existing, b)| >= |existing|
    ensures MergeTags(existing, a + b) == MergeTags(existing, a) + MergeTags(existing, b)[|existing|..]
  {
    var keep := NewTagTest(existing);
    var fa, fb := Filter(a, keep), Filter(b, keep);
    FilterAppend(a, b, keep);
    StrsAppend(fa, fb);
    SharedPrefix(existing, Strs(fa), Strs(fb));
  }

  lemma StrsAppend(a: seq<string>, b: seq<string>)
    ensures Strs(a + b) == Strs(a) + Strs(b)
  {
  }

  /** One tag is appended exactly when it is new, once. */
  lemma MergeOneTag(existing: seq<Value>, t: string)
    ensures MergeTags(existing, [t]) == existing + (if IsNewTag(existing, t) then [Str(t)] else [])
  {
    FilterCons([t], NewTagTest(existing));
    assert [t][1..] == [];
  }

  /** Repeats among the new tags are kept. */
  lemma MergeTagsKeepsNewRepeats()
    ensures MergeTags([], ["a", "a"]) == [Str("a"), Str("a")]
  {
    var tags := ["a", "a"];
    FilterCons(tags, NewTagTest([]));
    FilterCons(tags[1..], NewTagTest([]));
    assert Filter(tags, NewTagTest([])) == ["a", "a"];
  }

  /** The edits `adjust_metadata` makes, as given on its command line. */
  datatype Edits = Edits(title: Option<string>, subtitle: Option<string>, tags: Option<seq<string>>, updateReferences: bool)

  /** The tag list the mapping holds: a missing key reads as empty, anything but a list makes `+` raise. */
  function ExistingTags(m: seq<Field>): (r: Result<seq<Value>, string>)
    ensures Get(m, "tags").None? ==> r == Success([])
    ensures Get(m, "tags").Some? ==> (r.Success? <==> Get(m, "tags").value.List?)
    ensures r.Success? && Get(m, "tags").Some? ==> r.value == Get(m, "tags").value.items
  {
    match Get(m, "tags")
    case None => Success([])
    case Some(v) => if v.List? then Success(v.items) else Failure("can only concatenate list")
  }

  /** Stores `v` under `key` when there is a value to store; `None` leaves the mapping as it is. */
  function SetSome(m: seq<Field>, key: string, v: Option<Value>): seq<Field> {
    if v.Some? then Set(m, key, v.value) else m
  }

  lemma GetSetSome(m: seq<Field>, key: string, v: Option<Value>, other: string)
    ensures Get(SetSome(m, key, v), other) == if other == key && v.Some? then v else Get(m, other)
  {
    if v.Some? {
      if other == key { GetSetSame(m, key, v.value); } else { GetSetOther(m, key, v.value, other); }
    }
  }

  /** A truthy title replaces the loaded one. */
  function TitleUpdate(e: Edits): Option<Value> {
    if e.title.Some? && e.title.value != "" then Some(Str(e.title.value)) else None
  }

  /** Any given subtitle, even an empty one, replaces the loaded one. */
  function SubtitleUpdate(e: Edits): Option<Value> {
    if e.subtitle.Some? then Some(Str(e.subtitle.value)) else None
  }

  /** A non-empty tag list is merged into the tags `m` holds. */
  function TagsUpdate(m: seq<Field>, e: Edits): Result<Option<Value>, string> {
    if e.tags.Some? && e.tags.value != [] then
      var existing :- ExistingTags(m);
      Success(Some(List(MergeTags(existing, e.tags.value))))
    else Success(None)
  }

  /** When asked, the references become the keys of the bibliography. */
  function ReferencesUpdate(e: Edits, bib: Option<Fs.FileData>): Result<Option<Value>, string> {
    if e.updateReferences then
      var keys :- ExtractBibKeys(bib);
      Success(Some(List(Strs(keys))))
    else Success(None)
  }

  /** The mapping once title and subtitle are set. */
  function Named(m: seq<Field>, e: Edits): seq<Field> {
    SetSome(SetSome(m, "title", TitleUpdate(e)), "subtitle", SubtitleUpdate(e))
  }

  /** The written mapping: `named` with the tags and the references set, in that order. */
  function Finished(named: seq<Field>, tags: Option<Value>, references: Option<Value>): seq<Field> {
    SetSome(SetSome(named, "tags", tags), "references", references)
  }

  /**
   * `adjust_metadata` on the loaded `metadata.yaml` mapping (None when the file is missing,
   * and then nothing is written) with what reading `references.bib` gives (None when missing).
   * A Failure is an exception the source lets escape, and then nothing is written either.
   */
  function AdjustMetadata(metadata: Option<seq<Field>>, e: Edits, bib: Option<Fs.FileData>): (r: Result<Option<seq<Field>>, string>)
    ensures metadata.None? ==> r == Success(None)
    ensures metadata.Some? ==> (r.Success? <==>
      && (e.tags.Some? && e.tags.value != [] ==> ExistingTags(metadata.value).Success?)
      && (e.updateReferences ==> ExtractBibKeys(bib).Success?))
    ensures metadata.Some? && e.updateReferences && bib.Some? && bib.value.Unreadable? ==> r.Failure?
    ensures r.Success? ==> (r.value.Some? <==> metadata.Some?)
  {
    if metadata.None? then Success(None)
    else
      var named := Named(metadata.value, e);
      ExistingTagsUnchanged(metadata.value, e);
      var tags :- TagsUpdate(named, e);
      var references :- ReferencesUpdate(e, bib);
      Success(Some(Finished(named, tags, references)))
  }

  /** Title and subtitle leave the tag list alone. */
  lemma ExistingTagsUnchanged(m: seq<Field>, e: Edits)
    ensures ExistingTags(Named(m, e)) == ExistingTags(m)
  {
    GetSetSome(m, "title", TitleUpdate(e), "tags");
    GetSetSome(SetSome(m, "title", TitleUpdate(e)), "subtitle", SubtitleUpdate(e), "tags");
  }

  /** A successful adjustment writes the loaded mapping with the four updates applied. */
  lemma AdjustMetadataIs(m: seq<Field>, e: Edits, bib: Option<Fs.FileData>)
    requires AdjustMetadata(Some(m), e, bib).Success?
    ensures TagsUpdate(Named(m, e), e).Success? && ReferencesUpdate(e, bib).Success?
    ensures AdjustMetadata(Some(m), e, bib).value.value
            == Finished(Named(m, e), TagsUpdate(Named(m, e), e).value, ReferencesUpdate(e, bib).value)
  {
  }

  /** The value each key of the written mapping holds. */
  function EditedValue(m: seq<Field>, e: Edits, bib: Option<Fs.FileData>, key: string): Option<Value>
    requires e.tags.Some? && e.tags.value != [] ==> ExistingTags(m).Success?
    requires e.updateReferences ==> ExtractBibKeys(bib).Success?
  {
    if key == "title" && e.title.Some? && e.title.value != "" then Some(Str(e.title.value))
    else if key == "subtitle" && e.subtitle.Some? then Some(Str(e.subtitle.value))
    else if key == "tags" && e.tags.Some? && e.tags.value != [] then Some(List(MergeTags(ExistingTags(m).value, e.tags.value)))
    else if key == "references" && e.updateReferences then Some(List(Strs(ExtractBibKeys(bib).value)))
    else Get(m, key)
  }

  /**
   * The written mapping: a truthy title, any given subtitle (even empty), merged tags
   * when some are given, and the extracted references when asked; every other key as loaded.
   */
  lemma AdjustMetadataFields(m: seq<Field>, e: Edits, bib: Option<Fs.FileData>, key: string)
    requires AdjustMetadata(Some(m), e, bib).Success?
    ensures Get(AdjustMetadata(Some(m), e, bib).value.value, key) == EditedValue(m, e, bib, key)
  {
    AdjustMetadataIs(m, e, bib);
    ExistingTagsUnchanged(m, e);
    var named := Named(m, e);
    var tags := TagsUpdate(named, e).value;
    var references := ReferencesUpdate(e, bib).value;
    var t := SetSome(m, "title", TitleUpdate(e));
    GetSetSome(m, "title", TitleUpdate(e), key);
    GetSetSome(t, "subtitle", SubtitleUpdate(e), key);
    GetSetSome(named, "tags", tags, key);
    GetSetSome(SetSome(named, "tags", tags), "references", references, key);
  }

  /** The keys of `a` are, in order, a prefix of those of `b`. */
  predicate KeysExtend(a: seq<Field>, b: seq<Field>) {
    |Keys(a)| <= |Keys(b)| && Keys(b)[..|Keys(a)|] == Keys(a)
  }

  lemma SetSomeExtends(m: seq<Field>, key: string, v: Option<Value>)
    ensures KeysExtend(m, SetSome(m, key, v))
  {
    if v.Some? { KeysSet(m, key, v.value); }
  }

  lemma KeysExtendTransitive(a: seq<Field>, b: seq<Field>, c: seq<Field>)
    requires KeysExtend(a, b) && KeysExtend(b, c)
    ensures KeysExtend(a, c)
  {
    assert Keys(c)[..|Keys(a)|] == Keys(c)[..|Keys(b)|][..|Keys(a)|];
  }

  /** The loaded keys keep their order at the front of the written mapping. */
  lemma AdjustMetadataKeepsKeyOrder(m: seq<Field>, e: Edits, bib: Option<Fs.FileData>)
    requires AdjustMetadata(Some(m), e, bib).Success?
    ensures KeysExtend(m, AdjustMetadata(Some(m), e, bib).value.value)
  {
    AdjustMetadataIs(m, e, bib);
    var t := SetSome(m, "title", TitleUpdate(e));
    var named := Named(m, e);
    var g := SetSome(named, "tags", TagsUpdate(named, e).value);
    var w := SetSome(g, "references", ReferencesUpdate(e, bib).value);
    SetSomeExtends(m, "title", TitleUpdate(e));
    SetSomeExtends(t, "subtitle", SubtitleUpdate(e));
    SetSomeExtends(named, "tags", TagsUpdate(named, e).value);
    SetSomeExtends(g, "references", ReferencesUpdate(e, bib).value);
    KeysExtendTransitive(m, t, named);
    KeysExtendTransitive(m, named, g);
    KeysExtendTransitive(m, g, w);
  }
}

=== FILE: seqs.dfy ===
/** Order-preserving sequence utilities used to model Python list comprehensions. */
module Seqs {

  /** The elements of `s` that satisfy `keep`, in their original order. */
  function Filter<T(!new)>(s: seq<T>, keep: T -> bool): (r: seq<T>)
    ensures |r| <= |s|
    ensures forall x :: x in r <==> x in s && keep(x)
    ensures multiset(r) <= multiset(s)
  {
    if |s| == 0 then []
    else
      assert s == [s[0]] + s[1..];
      if keep(s[0]) then [s[0]] + Filter(s[1..], keep) else Filter(s[1..], keep)
  }

  /** A kept element comes from the input and satisfies the predicate. */
  lemma InFilter<T(!new)>(s: seq<T>, keep: T -> bool, x: T)
    requires x in Filter(s, keep)
    ensures x in s && keep(x)
  {
  }

  /** An element of the input that satisfies the predicate is kept. */
  lemma KeptByFilter<T(!new)>(s: seq<T>, keep: T -> bool, x: T)
    requires x in s && keep(x)
    ensures x in Filter(s, keep)
  {
  }

  /** One step of the filter, stated for callers that do not unfold it. */
  lemma FilterCons<T(!new)>(s: seq<T>, keep: T -> bool)
    requires |s| > 0
    ensures Filter(s, keep) == (if keep(s[0]) then [s[0]] else []) + Filter(s[1..], keep)
  {
  }

  /** Filtering distributes over concatenation, so filtering keeps relative order. */
  lemma {:induction false} FilterAppend<T(!new)>(a: seq<T>, b: seq<T>, keep: T -> bool)
    ensures Filter(a + b, keep) == Filter(a, keep) + Filter(b, keep)
  {
    if |a| == 0 {
      assert a + b == b;
    } else {
      assert (a + b)[1..] == a[1..] + b;
      FilterAppend(a[1..], b, keep);
    }
  }

  /** A test every element passes keeps the sequence as it is. */
  lemma {:induction false} FilterKeepsAll<T(!new)>(s: seq<T>, keep: T -> bool)
    requires forall x :: x in s ==> keep(x)
    ensures Filter(s, keep) == s
  {
    if |s| > 0 {
      FilterKeepsAll(s[1..], keep);
      assert s == [s[0]] + s[1..];
    }
  }

  /** Filtering by a test and by its negation splits a sequence in two. */
  lemma {:induction false} FilterPartition<T(!new)>(s: seq<T>, keep: T -> bool, drop: T -> bool)
    requires forall x :: drop(x) == !keep(x)
    ensures |Filter(s, keep)| + |Filter(s, drop)| == |s|
  {
    if |s| > 0 {
      FilterPartition(s[1..], keep, drop);
      assert drop(s[0]) == !keep(s[0]);
    }
  }

  /** `f` applied to each element, in order. */
  function Map<A, B>(s: seq<A>, f: A -> B): (r: seq<B>)
    ensures |r| == |s|
    ensures forall k :: 0 <= k < |s| ==> r[k] == f(s[k])
  {
    seq(|s|, k requires 0 <= k < |s| => f(s[k]))
  }

  /** Appending `y` after a shared prefix `e`, then dropping `e` again, leaves `y`. */
  lemma SharedPrefix<T>(e: seq<T>, x: seq<T>, y: seq<T>)
    ensures e + (x + y) == (e + x) + (e + y)[|e|..]
  {
    assert (e + y)[|e|..] == y;
  }

  lemma MapAppend<A, B>(a: seq<A>, b: seq<A>, f: A -> B)
    ensures Map(a + b, f) == Map(a, f) + Map(b, f)
  {
    var l := Map(a + b, f);
    var r := Map(a, f) + Map(b, f);
    forall k | 0 <= k < |l| ensures l[k] == r[k] {
      if k >= |a| {
        assert (a + b)[k] == b[k - |a|];
      }
    }
  }

  /** Concatenation of a sequence of strings. */
  function Concat(parts: seq<string>): (r: string)
    ensures |parts| == 0 ==> r == ""
  {
    if |parts| == 0 then "" else parts[0] + Concat(parts[1..])
  }

  /** Mapping over one element and concatenating gives that element's image. */
  lemma ConcatMapSingle<A>(x: A, f: A -> string)
    ensures Concat(Map([x], f)) == f(x)
  {
    var parts := Map([x], f);
    assert parts[1..] == [];
  }

  lemma {:induction false} ConcatAppend(a: seq<string>, b: seq<string>)
    ensures Concat(a + b) == Concat(a) + Concat(b)
  {
    if |a| == 0 {
      assert a + b == b;
    } else {
      assert (a + b)[1..] == a[1..] + b;
      ConcatAppend(a[1..], b);
    }
  }

  /** The lists `f` gives for each element, concatenated in order. */
  function FlatMap<A, B>(s: seq<A>, f: A -> seq<B>): seq<B> {
    if s == [] then [] else f(s[0]) + FlatMap(s[1..], f)
  }

  /** An element of the concatenation comes from the list of some element, and every such one is there. */
  lemma {:induction false} InFlatMap<A, B>(s: seq<A>, f: A -> seq<B>, x: B)
    ensures x in FlatMap(s, f) <==> exists k :: 0 <= k < |s| && x in f(s[k])
  {
    if s != [] {
      InFlatMap(s[1..], f, x);
      if x in FlatMap(s[1..], f) {
        var k :| 0 <= k < |s[1..]| && x in f(s[1..][k]);
        assert s[1..][k] == s[k + 1];
      }
      if exists k :: 0 <= k < |s| && x in f(s[k]) {
        var k :| 0 <= k < |s| && x in f(s[k]);
        if k > 0 {
          assert s[k] == s[1..][k - 1];
        }
      }
    }
  }

  /** The position of the first element satisfying `p`, or `|s|` when there is none. */
  function FirstWhere<T>(s: seq<T>, p: T -> bool): (i: nat)
    ensures i <= |s|
    ensures i < |s| ==> p(s[i])
  {
    if |s| == 0 || p(s[0]) then 0 else 1 + FirstWhere(s[1..], p)
  }

  /** No element before the one `FirstWhere` reports satisfies `p`. */
  lemma {:induction false} FirstWhereIsFirst<T>(s: seq<T>, p: T -> bool)
    ensures forall k :: 0 <= k < FirstWhere(s, p) ==> !p(s[k])
  {
    if |s| > 0 && !p(s[0]) {
      FirstWhereIsFirst(s[1..], p);
      forall k | 1 <= k < FirstWhere(s, p) ensures !p(s[k]) {
        assert s[k] == s[1..][k - 1];
      }
    }
  }

  /** The number of elements of `s` that satisfy `p`. */
  function Count<T(!new)>(s: seq<T>, p: T -> bool): (n: nat)
    ensures n <= |s|
    ensures n == |Filter(s, p)|
  {
    if |s| == 0 then 0 else (if p(s[0]) then 1 else 0) + Count(s[1..], p)
  }
}

=== FILE: text.dfy ===
/**
 * The handful of Python `str` operations the course builder relies on, over
 * `string` (a sequence of Unicode scalar values).
 */
module Text {

  /** Python's `str.isspace` for a single character. */
  predicate IsSpace(c: char) {
    || c == ' '
    || ('\t' <= c <= '\r')
    || ('\U{1c}' <= c <= '\U{1f}')
    || c == '\U{85}' || c == '\U{a0}' || c == '\U{1680}'
    || ('\U{2000}' <= c <= '\U{200a}')
    || c == '\U{2028}' || c == '\U{2029}' || c == '\U{202f}'
    || c == '\U{205f}' || c == '\U{3000}'
  }

  predicate AllSpace(s: string) {
    forall k :: 0 <= k < |s| ==> IsSpace(s[k])
  }

  /** `s.lstrip()`. */
  function TrimStart(s: string): (r: string)
    ensures |r| <= |s|
  {
    if |s| > 0 && IsSpace(s[0]) then TrimStart(s[1..]) else s
  }

  /** `lstrip` leaves the suffix that follows the leading run of whitespace. */
  lemma {:induction false} TrimStartSpec(s: string)
    ensures var r := TrimStart(s);
      && r == s[|s| - |r|..]
      && AllSpace(s[..|s| - |r|])
      && (|r| > 0 ==> !IsSpace(r[0]))
  {
    if |s| > 0 && IsSpace(s[0]) {
      TrimStartSpec(s[1..]);
      var r := TrimStart(s);
      assert s[1..][..|s| - 1 - |r|] == s[1..|s| - |r|];
      assert forall k :: 1 <= k < |s| - |r| ==> s[k] == s[1..][k - 1];
    }
  }

  /** `s.rstrip()`. */
  function TrimEnd(s: string): (r: string)
    ensures |r| <= |s|
  {
    if |s| > 0 && IsSpace(s[|s| - 1]) then TrimEnd(s[..|s| - 1]) else s
  }

  /** `rstrip` leaves the prefix that precedes the trailing run of whitespace. */
  lemma {:induction false} TrimEndSpec(s: string)
    ensures var r := TrimEnd(s);
      && r == s[..|r|]
      && AllSpace(s[|r|..])
      && (|r| > 0 ==> !IsSpace(r[|r| - 1]))
  {
    if |s| > 0 && IsSpace(s[|s| - 1]) {
      var p := s[..|s| - 1];
      TrimEndSpec(p);
      var r := TrimEnd(s);
      assert p[..|r|] == s[..|r|];
      assert forall k :: |r| <= k < |s| - 1 ==> s[k] == p[k];
    }
  }

  /** The number of leading whitespace characters `lstrip` removes. */
  function LeadingSpace(s: string): (n: nat)
    ensures n <= |s|
  {
    |s| - |TrimStart(s)|
  }

  /**
   * `r` is `s` with its leading and trailing whitespace removed: the infix that starts
   * after the leading whitespace, begins and ends with a non-space, and has only
   * whitespace on either side.
   */
  predicate IsStripOf(s: string, r: string) {
    var i := LeadingSpace(s);
    && i + |r| <= |s|
    && r == s[i..i + |r|]
    && AllSpace(s[..i])
    && AllSpace(s[i + |r|..])
    && (|r| > 0 ==> !IsSpace(r[0]) && !IsSpace(r[|r| - 1]))
  }

  /** `s.strip()`. */
  function Strip(s: string): (r: string)
    ensures |r| <= |s|
  {
    TrimEnd(TrimStart(s))
  }

  /** `strip` keeps exactly the infix between the leading and the trailing whitespace. */
  lemma StripIsInfix(s: string)
    ensures IsStripOf(s, Strip(s))
  {
    var t := TrimStart(s);
    var r := TrimEnd(t);
    TrimStartSpec(s);
    TrimEndSpec(t);
    StripShape(s, t, r);
  }

  /** The infix left by trimming both ends sits between two runs of whitespace. */
  lemma StripShape(s: string, t: string, r: string)
    requires |t| <= |s| && t == s[|s| - |t|..] && LeadingSpace(s) == |s| - |t|
    requires AllSpace(s[..|s| - |t|])
    requires |t| > 0 ==> !IsSpace(t[0])
    requires |r| <= |t| && r == t[..|r|] && AllSpace(t[|r|..])
    requires |r| > 0 ==> !IsSpace(r[|r| - 1])
    ensures IsStripOf(s, r)
  {
    var i := |s| - |t|;
    assert s[i + |r|..] == t[|r|..];
    assert |r| > 0 ==> r[0] == t[0];
  }

  lemma {:induction false} TrimStartSpacePrefix(a: string, x: string)
    requires AllSpace(a)
    ensures TrimStart(a + x) == TrimStart(x)
  {
    if |a| > 0 {
      assert (a + x)[1..] == a[1..] + x;
      TrimStartSpacePrefix(a[1..], x);
    } else {
      assert a + x == x;
    }
  }

  lemma {:induction false} TrimEndSpaceSuffix(x: string, b: string)
    requires AllSpace(b)
    ensures TrimEnd(x + b) == TrimEnd(x)
  {
    if |b| > 0 {
      assert (x + b)[..|x + b| - 1] == x + b[..|b| - 1];
      TrimEndSpaceSuffix(x, b[..|b| - 1]);
    } else {
      assert x + b == x;
    }
  }

  lemma {:induction false} TrimStartKeepsSuffix(c: string, b: string)
    requires !AllSpace(c)
    ensures TrimStart(c + b) == TrimStart(c) + b
  {
    if IsSpace(c[0]) {
      assert (c + b)[1..] == c[1..] + b;
      assert !AllSpace(c[1..]) by {
        var k :| 0 <= k < |c| && !IsSpace(c[k]);
        assert c[1..][k - 1] == c[k];
      }
      TrimStartKeepsSuffix(c[1..], b);
    }
  }

  lemma AllSpaceAppend(a: string, b: string)
    requires AllSpace(a) && AllSpace(b)
    ensures AllSpace(a + b)
  {
  }

  /** Whitespace around a text does not change what `strip` returns. */
  lemma StripPadded(a: string, c: string, b: string)
    requires AllSpace(a) && AllSpace(b)
    ensures Strip(a + c + b) == Strip(c)
  {
    TrimBothPadded(a, c, b);
  }

  lemma TrimBothPadded(a: string, c: string, b: string)
    requires AllSpace(a) && AllSpace(b)
    ensures TrimEnd(TrimStart(a + c + b)) == TrimEnd(TrimStart(c))
  {
    assert a + c + b == a + (c + b);
    TrimStartSpacePrefix(a, c + b);
    if AllSpace(c) {
      AllSpaceAppend(c, b);
      TrimStartSpacePrefix(c + b, "");
      TrimStartSpacePrefix(c, "");
      assert c + b + "" == c + b;
      assert c + "" == c;
    } else {
      TrimStartKeepsSuffix(c, b);
      TrimEndSpaceSuffix(TrimStart(c), b);
    }
  }

  /** `m` occurs in `s` starting at index `i`. */
  predicate OccursAt(s: string, m: string, i: int) {
    0 <= i && i + |m| <= |s| && s[i..i + |m|] == m
  }

  /** Python's `m in s` for strings: `find` reports an occurrence. */
  predicate Contains(s: string, m: string) {
    IndexOf(s, m) >= 0
  }

  function IndexFrom(s: string, m: string, from: nat): (r: int)
    requires from <= |s|
    ensures r == -1 || from <= r
    ensures r == -1 <==> forall j :: from <= j ==> !OccursAt(s, m, j)
    ensures r >= 0 ==> OccursAt(s, m, r) && forall j :: from <= j < r ==> !OccursAt(s, m, j)
    decreases |s| - from
  {
    if OccursAt(s, m, from) then from
    else if from + |m| >= |s| then
      assert forall j :: from <= j ==> !OccursAt(s, m, j);
      -1
    else IndexFrom(s, m, from + 1)
  }

  /** Python's `s.find(m)`: the first index where `m` occurs, or -1. */
  function IndexOf(s: string, m: string): (r: int)
    ensures r == -1 || (0 <= r && r + |m| <= |s|)
  {
    IndexFrom(s, m, 0)
  }

  /** `find` reports -1 exactly when there is no occurrence, and otherwise the first one. */
  lemma IndexOfSpec(s: string, m: string)
    ensures IndexOf(s, m) == -1 <==> forall j :: !OccursAt(s, m, j)
    ensures IndexOf(s, m) >= 0 ==>
      OccursAt(s, m, IndexOf(s, m)) && forall j :: 0 <= j < IndexOf(s, m) ==> !OccursAt(s, m, j)
  {
    var r := IndexFrom(s, m, 0);
    assert r == -1 ==> forall j :: !OccursAt(s, m, j) by {
      if r == -1 {
        forall j ensures !OccursAt(s, m, j) {
          if 0 <= j { assert !OccursAt(s, m, j); }
        }
      }
    }
  }

  /** An occurrence with none before it is the one `find` reports. */
  lemma IndexOfIs(s: string, m: string, i: int)
    requires OccursAt(s, m, i)
    requires forall j :: 0 <= j < i ==> !OccursAt(s, m, j)
    ensures IndexOf(s, m) == i
  {
    IndexOfSpec(s, m);
  }

  /** A newline-free pattern cannot match across a newline. */
  lemma NoMatchAcrossNewline(s: string, m: string, j: int, q: int)
    requires j <= q < j + |m| && 0 <= q < |s| && s[q] == '\n'
    requires '\n' !in m
    ensures !OccursAt(s, m, j)
  {
  }

  predicate StartsWith(s: string, p: string) {
    |p| <= |s| && s[..|p|] == p
  }

  predicate EndsWith(s: string, p: string) {
    |p| <= |s| && s[|s| - |p|..] == p
  }

  /** Python's slice `s[a:b]` for indices already inside `[0, |s|]`. */
  function Slice(s: string, a: nat, b: nat): (r: string)
    requires a <= |s| && b <= |s|
    ensures a < b ==> r == s[a..b]
    ensures b <= a ==> r == ""
  {
    if a < b then s[a..b] else ""
  }

  predicate IsUpper(c: char) { 'A' <= c <= 'Z' }
  predicate IsLower(c: char) { 'a' <= c <= 'z' }
  /** A cased character, restricted to ASCII letters. */
  predicate IsLetter(c: char) { IsUpper(c) || IsLower(c) }

  function LowerChar(c: char): char {
    if IsUpper(c) then (c as int + 32) as char else c
  }

  function UpperChar(c: char): char {
    if IsLower(c) then (c as int - 32) as char else c
  }

  /** Python's `s.lower()` on ASCII letters. */
  function Lower(s: string): (r: string)
    ensures |r| == |s|
    ensures forall k :: 0 <= k < |s| ==> r[k] == LowerChar(s[k])
  {
    seq(|s|, k requires 0 <= k < |s| => LowerChar(s[k]))
  }

  /** One step of Python's `str.title`, which remembers whether the previous character was cased. */
  function TitleFrom(s: string, previousCased: bool): (r: string)
    ensures |r| == |s|
  {
    if |s| == 0 then ""
    else
      [if previousCased then LowerChar(s[0]) else UpperChar(s[0])]
      + TitleFrom(s[1..], IsLetter(s[0]))
  }

  /** Python's `s.title()` on ASCII letters. */
  function Title(s: string): string {
    TitleFrom(s, false)
  }

  /** The character `title` puts at position `k`: upper case at a word start, lower case elsewhere. */
  function TitleCharAt(s: string, k: nat, previousCased: bool): char
    requires k < |s|
  {
    if (k == 0 && !previousCased) || (k > 0 && !IsLetter(s[k - 1])) then UpperChar(s[k])
    else LowerChar(s[k])
  }

  lemma {:induction false} TitleFromSpec(s: string, previousCased: bool)
    ensures forall k :: 0 <= k < |s| ==> TitleFrom(s, previousCased)[k] == TitleCharAt(s, k, previousCased)
  {
    if |s| > 0 {
      TitleFromSpec(s[1..], IsLetter(s[0]));
      forall k | 1 <= k < |s|
        ensures TitleFrom(s, previousCased)[k] == TitleCharAt(s, k, previousCased)
      {
        assert TitleFrom(s, previousCased)[k] == TitleFrom(s[1..], IsLetter(s[0]))[k - 1];
        if k == 1 {
          assert s[1..][0] == s[1];
        } else {
          assert s[1..][k - 2] == s[k - 1];
        }
        assert s[1..][k - 1] == s[k];
      }
    }
  }

  /**
   * `title` upper-cases a letter that starts the text or follows a non-letter,
   * lower-cases every other letter, and leaves non-letters alone.
   */
  lemma TitleSpec(s: string)
    ensures |Title(s)| == |s|
    ensures forall k :: 0 <= k < |s| ==>
      Title(s)[k] == if k == 0 || !IsLetter(s[k - 1]) then UpperChar(s[k]) else LowerChar(s[k])
  {
    TitleFromSpec(s, false);
  }

  /** Python's `s.replace(a, b)` for single characters. */
  function ReplaceChar(s: string, a: char, b: char): (r: string)
    ensures |r| == |s|
    ensures forall k :: 0 <= k < |s| ==> r[k] == if s[k] == a then b else s[k]
  {
    seq(|s|, k requires 0 <= k < |s| => if s[k] == a then b else s[k])
  }

  /** Python's `s.split('\n')`: at least one piece, none holding a newline. */
  function Lines(s: string): (r: seq<string>)
    ensures |r| >= 1
    ensures forall k :: 0 <= k < |r| ==> '\n' !in r[k]
  {
    if |s| == 0 then [""]
    else
      var rest := Lines(s[1..]);
      if s[0] == '\n' then [""] + rest
      else [[s[0]] + rest[0]] + rest[1..]
  }

  /** Python's `'\n'.join(pieces)`. */
  function JoinLines(pieces: seq<string>): string
    requires |pieces| >= 1
  {
    if |pieces| == 1 then pieces[0] else pieces[0] + "\n" + JoinLines(pieces[1..])
  }

  /** Splitting on newlines and joining back restores the text. */
  lemma {:induction false} JoinLinesOfLines(s: string)
    ensures JoinLines(Lines(s)) == s
  {
    if |s| > 0 {
      JoinLinesOfLines(s[1..]);
      var rest := Lines(s[1..]);
      if s[0] == '\n' {
        assert Lines(s)[1..] == rest;
      } else {
        var r := Lines(s);
        assert r[0] == [s[0]] + rest[0];
        if |rest| == 1 {
          assert s == [s[0]] + s[1..];
        } else {
          assert r[1..] == rest[1..];
          assert JoinLines(rest) == rest[0] + "\n" + JoinLines(rest[1..]);
          assert s == [s[0]] + s[1..];
        }
      }
    }
  }

  /** Joining newline-free pieces and splitting again returns the pieces. */
  lemma {:induction false} LinesOfJoinLines(pieces: seq<string>)
    requires |pieces| >= 1
    requires forall k :: 0 <= k < |pieces| ==> '\n' !in pieces[k]
    ensures Lines(JoinLines(pieces)) == pieces
    decreases |pieces|, |pieces[0]|
  {
    var p := pieces[0];
    if |pieces| == 1 {
      LinesOfNewlineFree(p);
    } else if |p| == 0 {
      LinesOfJoinLines(pieces[1..]);
      var j := JoinLines(pieces);
      assert j == "\n" + JoinLines(pieces[1..]);
      assert j[1..] == JoinLines(pieces[1..]);
      assert pieces == [""] + pieces[1..];
    } else {
      var shorter := [p[1..]] + pieces[1..];
      assert forall k :: 0 <= k < |shorter| ==> '\n' !in shorter[k] by {
        forall k | 0 <= k < |shorter| ensures '\n' !in shorter[k] {
          if k > 0 { assert shorter[k] == pieces[k]; }
        }
      }
      LinesOfJoinLines(shorter);
      assert shorter[1..] == pieces[1..];
      var j := JoinLines(pieces);
      assert j == p + "\n" + JoinLines(pieces[1..]);
      assert j[1..] == JoinLines(shorter);
      assert j[0] == p[0];
      assert [p[0]] + p[1..] == p;
      assert pieces == [p] + pieces[1..];
    }
  }

  lemma {:induction false} LinesOfNewlineFree(s: string)
    requires '\n' !in s
    ensures Lines(s) == [s]
  {
    if |s| > 0 {
      assert '\n' !in s[1..];
      LinesOfNewlineFree(s[1..]);
      assert [s[0]] + s[1..] == s;
    }
  }

  /** Python's `a <= b` on strings: lexicographic by code point, a prefix first. */
  predicate LexLe(a: string, b: string)
    decreases |a|
  {
    |a| == 0 || (|b| > 0 && (a[0] < b[0] || (a[0] == b[0] && LexLe(a[1..], b[1..]))))
  }

  lemma {:induction false} LexLeTotal(a: string, b: string)
    ensures LexLe(a, b) || LexLe(b, a)
    decreases |a|
  {
    if |a| > 0 && |b| > 0 && a[0] == b[0] {
      LexLeTotal(a[1..], b[1..]);
    }
  }

  lemma {:induction false} LexLeTransitive(a: string, b: string, c: string)
    requires LexLe(a, b) && LexLe(b, c)
    ensures LexLe(a, c)
    decreases |a|
  {
    if |a| > 0 && a[0] == b[0] && b[0] == c[0] {
      LexLeTransitive(a[1..], b[1..], c[1..]);
    }
  }
}

=== FILE: values.dfy ===
/**
 * The YAML data the builder and the metadata tool load, as Python sees it after
 * `yaml.safe_load`: scalars, lists and insertion-ordered mappings with string keys.
 */
module Values {
  import opened Wrappers

  datatype Value =
    | Null
    | Bool(b: bool)
    | Int(i: int)
    | Str(s: string)
    | List(items: seq<Value>)
    | Mapping(fields: seq<Field>)

  /** One key of a mapping; a mapping lists its keys in insertion order. */
  datatype Field = Field(key: string, value: Value)

  /** Python truthiness. */
  predicate Truthy(v: Value) {
    match v
    case Null => false
    case Bool(b) => b
    case Int(i) => i != 0
    case Str(s) => s != ""
    case List(items) => items != []
    case Mapping(fields) => fields != []
  }

  function Keys(m: seq<Field>): (r: seq<string>)
    ensures |r| == |m|
    ensures forall k :: 0 <= k < |m| ==> r[k] == m[k].key
  {
    if m == [] then [] else [m[0].key] + Keys(m[1..])
  }

  /** A Python dict: no key twice. */
  predicate KeysUnique(m: seq<Field>) {
    forall i, j :: 0 <= i < j < |m| ==> m[i].key != m[j].key
  }

  /** `m.get(key)`. */
  function Get(m: seq<Field>, key: string): (r: Option<Value>)
    ensures r.None? <==> key !in Keys(m)
    ensures r.Some? ==> exists k :: 0 <= k < |m| && m[k] == Field(key, r.value)
  {
    if m == [] then None
    else if m[0].key == key then Some(m[0].value)
    else Get(m[1..], key)
  }

  /** `m[key] = value`: an existing key keeps its place, a new one goes last. */
  function Set(m: seq<Field>, key: string, value: Value): (r: seq<Field>)
    ensures |r| == |m| || |r| == |m| + 1
  {
    if m == [] then [Field(key, value)]
    else if m[0].key == key then [Field(key, value)] + m[1..]
    else [m[0]] + Set(m[1..], key, value)
  }

  /** The key set reads back the new value. */
  lemma {:induction false} GetSetSame(m: seq<Field>, key: string, value: Value)
    ensures Get(Set(m, key, value), key) == Some(value)
  {
    if m != [] && m[0].key != key {
      GetSetSame(m[1..], key, value);
    }
  }

  /** Every other key is untouched. */
  lemma {:induction false} GetSetOther(m: seq<Field>, key: string, value: Value, other: string)
    requires other != key
    ensures Get(Set(m, key, value), other) == Get(m, other)
  {
    if m != [] && m[0].key != key {
      GetSetOther(m[1..], key, value, other);
    }
  }

  /** An existing key keeps its position; a new key is appended. */
  lemma {:induction false} KeysSet(m: seq<Field>, key: string, value: Value)
    ensures key in Keys(m) ==> Keys(Set(m, key, value)) == Keys(m)
    ensures key !in Keys(m) ==> Keys(Set(m, key, value)) == Keys(m) + [key]
  {
    if m != [] && m[0].key != key {
      KeysSet(m[1..], key, value);
      var rest := Set(m[1..], key, value);
      assert Set(m, key, value) == [m[0]] + rest;
      assert Keys([m[0]] + rest) == [m[0].key] + Keys(rest);
      assert Keys(m) == [m[0].key] + Keys(m[1..]);
    } else if m != [] {
      assert Keys(Set(m, key, value)) == [key] + Keys(m[1..]);
      assert Keys(m) == [m[0].key] + Keys(m[1..]);
    }
  }

  /** Setting a key keeps the keys distinct. */
  lemma SetKeepsKeysUnique(m: seq<Field>, key: string, value: Value)
    requires KeysUnique(m)
    ensures KeysUnique(Set(m, key, value))
  {
    var r := Set(m, key, value);
    KeysSet(m, key, value);
    assert forall i :: 0 <= i < |r| ==> r[i].key == Keys(r)[i];
    assert forall i :: 0 <= i < |m| ==> m[i].key == Keys(m)[i];
  }

  /** `d.update(u)` for a mapping `u`: each of its keys is set in turn. */
  function Update(d: seq<Field>, u: seq<Field>): (r: seq<Field>)
    decreases |u|
  {
    if u == [] then d else Update(Set(d, u[0].key, u[0].value), u[1..])
  }

  /** After an update a key of `u` holds `u`'s value, any other key keeps `d`'s. */
  lemma {:induction false} GetUpdate(d: seq<Field>, u: seq<Field>, key: string)
    requires KeysUnique(u)
    ensures Get(Update(d, u), key) == if key in Keys(u) then Get(u, key) else Get(d, key)
    decreases |u|
  {
    if u != [] {
      var d' := Set(d, u[0].key, u[0].value);
      assert KeysUnique(u[1..]);
      GetUpdate(d', u[1..], key);
      assert Keys(u) == [u[0].key] + Keys(u[1..]);
      if key == u[0].key {
        GetSetSame(d, key, u[0].value);
        assert key !in Keys(u[1..]);
      } else {
        GetSetOther(d, u[0].key, u[0].value, key);
      }
    }
  }

  /** An update keeps the old keys first and in place, and keeps keys distinct. */
  lemma {:induction false} UpdateKeys(d: seq<Field>, u: seq<Field>)
    requires KeysUnique(d)
    ensures KeysUnique(Update(d, u))
    ensures |Keys(d)| <= |Keys(Update(d, u))| && Keys(Update(d, u))[..|Keys(d)|] == Keys(d)
    decreases |u|
  {
    if u != [] {
      var d' := Set(d, u[0].key, u[0].value);
      SetKeepsKeysUnique(d, u[0].key, u[0].value);
      UpdateKeys(d', u[1..]);
      KeysSet(d, u[0].key, u[0].value);
      assert Keys(d')[..|Keys(d)|] == Keys(d);
    }
  }
}

=== FILE: wrappers.dfy ===
/** Failure-carrying datatypes shared by every component of the model. */
module Wrappers {

  /** A value that may be absent (Python's `None`). */
  datatype Option<+T> = None | Some(value: T) {

    /** The carried value, or `default` when absent. */
    function GetOr(default: T): T {
      match this
      case Some(v) => v
      case None => default
    }
  }

  /** A computation that either produced a value or raised an error. */
  datatype Result<+R, +E> = Success(value: R) | Failure(error: E) {

    predicate IsFailure() {
      Failure?
    }

    function PropagateFailure<U>(): Result<U, E>
      requires Failure?
    {
      Failure(error)
    }

    function Extract(): R
      requires Success?
    {
      value
    }
  }
}
